=== FILE: README.md ===
# Restaurant floor tool — a Dafny model

This project models the logic of a restaurant floor tool. The tool has an
Express/Mongoose/Redis server that keeps reservations, a walk-in waiting list
and tables. A React front end books reservations, lays out the evening's time
slots, adds tables, and shows a floor plan of one day's parties.

The model covers these parts:

- **Records.** Reservations, walk-ins and tables are datatypes. Mongoose's
  casting and validation of each schema is a partial function from a request
  document to a record (`Models`). The `.js` and `.ts` schema files declare
  identical paths, so one model serves both.
- **Store.** Each collection is a sequence in insertion order. Listings sort
  by their time key. Range queries keep both ends. The bulk delete of today's
  entries uses a half-open window (`Store`, `DeleteToday`).
- **Cache.** The Redis listing cache is a map from key to value and expiry.
  Its key is `"restaurant:" + type + ":all"`. A client error is a miss or
  `false` (`Cache`).
- **Route handlers.** Each handler is a pure function from a request to a
  status, body, store and cache (`ReservationRoutes`, `ReservationTsRoutes`,
  `WalkinRoutes`, `TableRoutes`). The JavaScript coercions they rely on are
  stated explicitly in `Js`:
  - truthiness;
  - `Number(...)` and `isNaN`;
  - `parseInt`;
  - `String(...)`, `trim`, `padStart`;
  - `<`.

  ECMAScript's Date Time String Format and `toISOString` are in `Dates`.
- **Occupancy.** `getReservationsAtTime` is a closed-interval filter
  (`Occupancy`).
- **Front end.**
  - The booking form's validators and submit step (`ReservationForm`).
  - The main page's slot labels, table-form validators and next-table
    suggestion (`MainPage`).
  - The floor plan's day window, unassigned filter and list update after a
    delete (`FloorPlan`).
  - The JSON a stored reservation reaches the browser as (`Wire`).

Instants are integers counting milliseconds from the epoch. The local time
zone is a fixed offset parameter `tz`, in milliseconds ahead of UTC. The
current instant is a parameter `now`, and a generated `_id` is a parameter
`id`.

## Model

| member | source | states |
|---|---|---|
| Occupancy.ReservationsAtTime | src/utils/reservationUtils.js:8-11 | The result is a subsequence of the input, order kept. A record is in it exactly when it is in the input and the target instant lies in its closed `[startTime, endTime]`. |
| Occupancy.BothEndsActive | src/utils/reservationUtils.js:1-6 | A record is active at its own start instant and at its own end instant: both ends are included. |
| Occupancy.InvertedNeverActive | src/utils/reservationUtils.js:5 | A record whose start is after its end is active at no instant. |
| Occupancy.InvalidTimestampSelectsNothing | src/utils/reservationUtils.js:9-10 | A timestamp that does not read as a date (an invalid Date) selects no record. |
| Occupancy.SelectionIdempotent | src/utils/reservationUtils.js:10 | Filtering the result again at the same timestamp returns it unchanged. |
| Occupancy.StoredReservationActive | src/utils/reservationUtils.js:1-6 | For a stored reservation as serialised to the browser, active at `t` holds iff `startTime <= t <= endTime`. |
| Occupancy.SelectStoredAt | src/utils/reservationUtils.js:8-11 | A serialised stored reservation is selected at an ISO timestamp iff it is in the list and the instant lies in its closed window. |
| Models.JsonDoc | backend/utils/mongodb.js:20 | A request body handed to a model constructor gives every path the body's own JSON value (`undefined` when absent). |
| Models.CastObjectId | backend/routes/reservation.js:145-149 | An id casts iff its string form is 24 hexadecimal digits; the result is the canonical lower-case id. |
| Models.CastObjectIdCanonical | backend/routes/reservation.js:145-149 | A canonical id string casts to itself. |
| Models.CastString | backend/models/Reservation.js:4-7 | A `String` path keeps a string as it is and refuses an object with a cast error. |
| Models.CastNumber | backend/models/Reservation.js:15-22 | A `Number` path keeps a non-NaN number as it is, refuses NaN, and never yields NaN. |
| Models.CastDate | backend/models/Reservation.js:23-30 | A `Date` path yields only valid instants, keeps a Date as it is and refuses a boolean. |
| Models.CastDateOfZoned | backend/models/Reservation.js:23-30 | A string ending in `Z` is read as a date string, never as a number of milliseconds. |
| Models.CastDateOfIso | backend/models/Reservation.js:23-30 | A `toISOString()` result casts back to the instant it was written from. |
| Models.DateStringIsNotMillis | backend/models/Reservation.js:23-30 | No string the date parser accepts is read as a count of milliseconds by the `Date` cast. |
| Models.CastDateAgrees | backend/models/Reservation.js:23-30 | For every number or string that `new Date` reads as a valid instant, the `Date` cast gives that same instant. |
| Models.Stamp | backend/models/Reservation.js:36 | `timestamps: true` casts `createdAt` and `updatedAt` as dates; the stamp succeeds iff both casts do. A given `createdAt` instant is kept; an unset one (absent, null or "") becomes `now`. |
| Models.StampOfFresh | backend/models/WalkIn.js:36 | A document with neither timestamp key is stamped `now`. |
| Models.StampKeepsIso | backend/models/Reservation.ts:49 | A `createdAt` written as an ISO string is kept as the instant it writes. |
| Models.StampRefusesWord | backend/models/Table.js:22 | A word such as "x" in `createdAt` or `updatedAt` fails the date cast, so the document is refused. |
| Models.Instant | backend/models/Reservation.js:23-30 | A date that failed to parse is a cast error; a parsed one gives its instant. |
| Models.RequiredString | backend/models/Reservation.js:4-7 | A required `String` path passes iff the value is present and non-empty. |
| Models.Required | backend/models/Reservation.js:23-30 | A required path passes iff the value is present, and then yields it. |
| Models.RequiredAtLeastOne | backend/models/Reservation.js:18-22 | `required: true, min: 1` passes iff a number is present and not below 1. NaN is ruled out by the cast. |
| Models.Lowered | backend/models/Reservation.js:8-11 | `lowercase: true`: a present value is stored as its ASCII lower-casing, so the result has the same length and no upper-case letter; an absent value stays absent. |
| Models.Trimmed | backend/models/Reservation.js:31-34 | `trim: true`: a present value is stored as its `trim()`, which has no white space at either end; an absent value stays absent. |
| Models.CastReservation | backend/models/Reservation.js:3-37 | A saved reservation satisfies the schema: name non-empty, size at least 1, both dates valid, any email free of upper-case letters, any comments free of white space at either end. It carries the generated id. Its creation time is the timestamps' stamp of the document and its update time equals it. Its start and end are the casts of the document's `startTime` and `endTime`. It has no phone number exactly when `phoneNumber` is null or absent. |
| Models.CastReservationFields | backend/models/Reservation.js:3-34 | Name, phone number, table number and size are the casts of the same-named paths. The email is the lower-cased cast of `email`. The comments are the trimmed cast of `comments`. |
| Models.CastReservationSucceeds | backend/models/Reservation.js:3-37 | A document is saved iff every path casts, the name is a non-empty string, the size is a number of at least 1, both times are present, and the timestamps cast. |
| Models.CastReservationNeedsSize | backend/models/Reservation.ts:31-35 | A document with no size, or a size below 1, is refused. |
| Models.CastWalkIn | backend/models/WalkIn.js:4-37 | A saved walk-in satisfies the schema. It carries the generated id, the timestamps' stamp of the document as its creation time, and the same instant as its update time. A missing `timeAddedToWaitlist` defaults to `now`. |
| Models.CastWalkInFields | backend/models/WalkIn.ts:16-49 | Name, phone number, size and comments come from the same-named paths. Comments are not trimmed. An explicit `timeAddedToWaitlist` is its cast. |
| Models.CastRefModel | backend/models/Table.js:13-16 | `reservedTimesModel` passes iff it is absent or exactly "Reservation" or "WalkIn", and then it names that model. |
| Models.CastTable | backend/models/Table.js:3-23 | A saved table satisfies the schema: capacity at least 1, any comments free of white space at either end. It has the generated id and an empty `reservedTimes`. Its creation time is the timestamps' stamp of the document and its update time equals it. |
| Models.CastTableFields | backend/models/Table.js:3-23 | The capacity is the cast of `tableCapacity`. The reference model is the cast of `reservedTimesModel`. The comments are the trimmed cast of `comments`. The creation time is the stamp of the document, and the update time equals it. |
| Models.CastTableNeedsCapacity | backend/models/Table.ts:13-17 | A document with no capacity, or a capacity below 1, is refused. |
| Models.ReservationIgnoresUndeclared | backend/models/Reservation.js:3-37 | A key outside the declared paths and the two timestamp paths, such as `phone`, does not change the saved reservation. |
| Models.WalkInIgnoresUndeclared | backend/models/WalkIn.js:4-37 | A key outside the declared paths and the two timestamp paths does not change the saved walk-in. |
| Models.TableIgnoresUndeclared | backend/models/Table.js:3-23 | A key outside the declared paths and the two timestamp paths, such as `tableNumber`, does not change the saved table. |
| Store.InsertReservation | backend/utils/mongodb.js:18-27 | A valid store stays valid. On success the cast record is appended. A refused document, a duplicate id or an unreachable database is an error that leaves the store unchanged. A cast document with a taken id is exactly the duplicate-key error. |
| Store.InsertWalkIn | backend/routes/walkin.js:69 | The walk-in insert the route calls: on success the cast walk-in is appended; on an error the store is unchanged. |
| Store.InsertTable | backend/routes/table.js:56 | The table insert the route calls: on success the cast table is appended; a duplicate id is the duplicate-key error; the store otherwise stays unchanged. |
| Store.Between | backend/utils/mongodb.js:55-62 | The result is sorted by the key. It holds each element with `lo <= key <= hi` as often as the collection does, and nothing else. |
| Store.BetweenInclusive | backend/utils/mongodb.js:56-59 | An element whose key equals either bound is in the answer. |
| Store.BetweenEmpty | backend/utils/mongodb.js:56-59 | A range whose start is after its end is empty. |
| Store.BetweenMembership | backend/utils/mongodb.js:55-60 | An element is in the answer iff it is in the collection and its key lies in `[lo, hi]`. |
| Store.AllReservations | backend/utils/mongodb.js:29-39 | Succeeds iff the database answers, and returns every reservation sorted ascending by `startTime`. |
| Store.AllWalkIns | backend/utils/mongodb.js:41-51 | Succeeds iff the database answers, and returns every walk-in sorted ascending by `timeAddedToWaitlist`. |
| Store.QueryBound | backend/utils/mongodb.js:56-59 | A query bound is cast like the `Date` path it is compared with, and the query fails when the cast fails. |
| Store.ReservationsByDateRange | backend/utils/mongodb.js:53-68 | Succeeds iff the database answers and both bounds cast. The answer is then the sorted inclusive range, or empty when a bound is null. |
| Store.WalkInsByDateRange | backend/utils/mongodb.js:70-85 | Succeeds iff the database answers and both bounds cast. For Date bounds the answer is the inclusive range on `timeAddedToWaitlist`, sorted. |
| Store.UpdateTableNum | backend/routes/reservation.js:145-149 | Succeeds iff the database answers, the id casts and the number casts. An unknown id yields None and changes nothing. A known id changes only that reservation's `tableNum` and `updatedAt`. Validity is kept. |
| Store.FilterKeepsValid | backend/scripts/deleteTodayEntries.js:21-33 | Removing documents keeps each remaining one valid and the ids distinct. |
| Store.DeleteReservationsStarting | backend/scripts/deleteTodayEntries.js:21-26 | Deletes exactly the reservations with `lo <= startTime < hi`, keeps the others in order, and reports how many went. A record remains iff it was stored and lies outside the window. |
| Store.DeleteWalkInsAdded | backend/scripts/deleteTodayEntries.js:28-33 | Deletes exactly the walk-ins with `lo <= timeAddedToWaitlist < hi`, keeps the others in order, and reports how many went. A record remains iff it was stored and lies outside the window. |
| Store.DeletesKeepValid | backend/scripts/deleteTodayEntries.js:21-33 | Both bulk deletes, alone or in sequence, keep a valid store valid. |
| Cache.Key | backend/utils/redis.js:4 | The key is the prefix "restaurant:", then the kind, then ":all". |
| Cache.KeyInjective | backend/utils/redis.js:21 | Distinct kinds have distinct keys. |
| Cache.Fetch | backend/utils/redis.js:3-18 | A value is returned iff Redis answers and holds a live entry under the key, and it is that entry's list. A missing key or a client error is a miss. |
| Cache.Put | backend/utils/redis.js:20-31 | Reports true iff Redis answers and the expiry is positive. On true the entry is written with an expiry `expiration` seconds ahead. On false nothing changes. |
| Cache.FetchAfterPut | backend/utils/redis.js:24 | After a successful write, reads of that kind return the written list until the expiry, and reads of other kinds are unaffected. |
| Cache.ExpiredIsMiss | backend/utils/redis.js:24 | Once a written entry's expiry has passed, reads of that kind miss. |
| ReservationRoutes.GetAll | backend/routes/reservation.js:13-31 | A cache hit is sent as it is. On a miss every reservation is sent sorted by start and cached for 300 s. If the database fails the answer is a 500. The store is never changed. |
| ReservationRoutes.ListingServedFromCache | backend/routes/reservation.js:16-25 | After a miss fills the cache, every GET in the next 300 s sends the same list, whatever the database holds by then. |
| ReservationRoutes.Range | backend/routes/reservation.js:34-59 | A falsy bound gives a 400. The bounds go to the query unchecked: a successful query gives 200 with its answer, and any other outcome is a 500. |
| ReservationRoutes.RangeOfDates | backend/routes/reservation.js:51-52 | For string bounds that cast to `lo` and `hi`, the answer is exactly the reservations with `lo <= startTime <= hi`, sorted. |
| ReservationRoutes.RangeOfIsoBounds | backend/routes/reservation.js:51-52 | The same holds for bounds written by `toISOString()`, in any time zone. |
| ReservationRoutes.RangeOfWordsFails | backend/routes/reservation.js:44-51 | Bounds that are not dates get a 500, not a 400. |
| ReservationRoutes.DraftFields | backend/routes/reservation.js:104-113 | The draft's name is the first and last names joined by a space. `tableNum` is null and `size` is `partySize`. Email and comments default to "". The phone goes under `phone`, so `phoneNumber` is absent. |
| ReservationRoutes.Schedule | backend/routes/reservation.js:68-98 | A schedule exists only for a string date. Its start string is the normalised date, "T", the time and ":00.000Z", and that string parses to its instant. |
| ReservationRoutes.Create | backend/routes/reservation.js:62-124 | The answer is 201 with the appended reservation, or a 500 that leaves store and cache unchanged. A non-string date is a 500. The answer is 201 iff the date is a string, the start string parses, the end two hours later is a valid instant, and the insert of the draft succeeds. Validity is kept. |
| ReservationRoutes.CreateSucceeds | backend/routes/reservation.js:73-119 | A booking whose date and time give a start, whose party size is a number of at least 1 and whose email and special requests are not objects is a 201, when the store is up and the id is free. |
| ReservationRoutes.DraftCastSucceeds | backend/routes/reservation.js:104-115 | A draft with castable start and end strings, a numeric party size of at least 1, and non-object email and requests passes the schema, keeping those instants. |
| ReservationRoutes.SampleSchedule | backend/routes/reservation.js:89-98 | Date "2025-06-01" and time "19:00" start at 19:00 UTC that day (1,748,804,400,000 ms), whatever the server's zone. |
| ReservationRoutes.SampleBookingCreated | backend/routes/reservation.js:73-119 | Ada Lovelace's party of two on 1 June 2025 at 19:00 is a 201 when the store is up and the id is free. |
| ReservationRoutes.CreateWindow | backend/routes/reservation.js:89-98 | A created reservation starts at the instant its start string denotes and ends exactly 7,200,000 ms later. |
| ReservationRoutes.CreateFields | backend/routes/reservation.js:104-115 | A created reservation has the generated id, `now` as its creation time, the joined name, no table number and no phone number. Its email is the lower-cased `String(email \|\| "")`. Its comments are the trimmed `String(specialRequests \|\| "")`. |
| ReservationRoutes.DraftCast | backend/routes/reservation.js:104-113 | The schema's cast of the draft object has exactly those fields, from the draft's `\|\| ""` defaults through `lowercase` and `trim`. |
| ReservationRoutes.CreateRejectsSmallParty | backend/routes/reservation.js:109-122 | A missing party size, or one below 1, gives a 500 and stores nothing. |
| ReservationRoutes.CreateRefreshesCache | backend/routes/reservation.js:117-118 | For 300 s after a creation, the cached listing holds every stored reservation sorted by start, the new one included. |
| ReservationRoutes.NormalizeTimestamp | backend/routes/reservation.js:74-83 | A full timestamp becomes its local calendar date as `YYYY-MM-DD`, with month and day zero-padded. |
| ReservationRoutes.NormalizePlainDate | backend/routes/reservation.js:84-87 | A `YYYY-MM-DD` date is kept verbatim. |
| ReservationRoutes.StartStringOfClock | backend/routes/reservation.js:89-91 | For a form time `HH:mm`, the start string is the date followed by that time of day in ISO form. |
| ReservationRoutes.StartAtClockTime | backend/routes/reservation.js:91-92 | The start string of a date and `HH:mm` parses to that wall-clock time read as UTC, whatever the server's zone. |
| ReservationRoutes.Patch | backend/routes/reservation.js:126-165 | A 400 happens iff the presence or type check fails; it carries that check's message and changes nothing. Once the checks pass: a 404 iff the update finds no reservation with that id, a 500 iff the update fails, and a 200 iff it finds one, which is sent back. Any outcome other than 200 leaves the store unchanged. The cache is never written. Validity is kept. |
| ReservationRoutes.PatchUnknownIdNotFound | backend/routes/reservation.js:145-155 | A well-formed PATCH whose id matches no stored reservation gives the 404 and changes neither store nor cache. |
| ReservationRoutes.PatchAcceptsAnyTable | backend/routes/reservation.js:137-157 | Any non-negative table number is accepted for a stored reservation, whatever other reservations hold. Only that reservation's `tableNum` and `updatedAt` change. |
| ReservationRoutes.PatchRefusesNumericString | backend/routes/reservation.js:138-142 | A table number sent as the string "4" gives a 400. |
| ReservationRoutes.PatchLeavesListingStale | backend/routes/reservation.js:145-157 | After a listing is cached, a successful PATCH is not seen by GET / within 300 s: the old record is listed and the updated one is not. |
| ReservationRoutes.PatchRefreshingCache | backend/routes/reservation.js:117-118 | The corrected PATCH has the same response and store as the written one; it refreshes the cache only on success. |
| ReservationRoutes.PatchRefreshedListingCurrent | backend/routes/reservation.js:16-26 | After a successful corrected PATCH, GET / within 300 s lists exactly the stored reservations, sorted, the updated one included. |
| ReservationRoutes.PatchRefreshedScenario | backend/routes/reservation.js:126-157 | In the scenario of the stale listing, the corrected PATCH makes GET / list the updated reservation. |
| ReservationTsRoutes.GetAll | backend/routes/reservation.ts:8-17 | A 200 happens iff the database answers, and then lists every reservation sorted by start; otherwise a 500. No cache is involved. |
| ReservationTsRoutes.Range | backend/routes/reservation.ts:20-41 | A falsy bound is a 400 "required". A bound `new Date` cannot read is a 400 "Invalid date format" before the store is asked. Otherwise the answer is the range query on the parsed instants, or a 500. |
| ReservationTsRoutes.RangeAnswer | backend/routes/reservation.ts:28-36 | A 200 lists exactly the reservations whose start lies between the two parsed instants, both included. |
| ReservationTsRoutes.RangeOfWordsRefused | backend/routes/reservation.ts:31-33 | Words that are not dates get a 400. |
| ReservationTsRoutes.CreateCheck | backend/routes/reservation.ts:49-63 | The body passes iff name, size, start and end are truthy, both times parse, and start is before end. |
| ReservationTsRoutes.Create | backend/routes/reservation.ts:44-71 | A failed check is a 400 with no change. A 201 happens iff the checks pass and the insert succeeds, and it appends the record. Other failures, including a `createdAt` or `updatedAt` that is no date, are a 500 with no change. |
| ReservationTsRoutes.CreatedStartsBeforeEnd | backend/routes/reservation.ts:54-65 | Every created reservation stores the instants `new Date` reads from `startTime` and `endTime`, whatever their form (number, ISO string, date-only string, offset string), and starts strictly before it ends. |
| ReservationTsRoutes.TimeCastAgrees | backend/routes/reservation.ts:54-65 | A time that passes the route's checks is a number, a string, or `true`; for a number or a string, Mongoose's `Date` cast gives the instant `new Date` gives. |
| ReservationTsRoutes.CreateWithBooleanStartFails | backend/routes/reservation.ts:49-69 | A start of `true` passes every route check but is refused by the schema, so the answer is a 500. |
| ReservationTsRoutes.CreateKeepsGivenCreatedAt | backend/routes/reservation.ts:54-65 | A created reservation whose body carries an ISO `createdAt` keeps that instant as both its creation and update time. |
| ReservationTsRoutes.CreateStampsNow | backend/routes/reservation.ts:54-65 | A created reservation whose body has no timestamp keys is stamped `now` for both times. |
| ReservationTsRoutes.CreateWithWordStampFails | backend/routes/reservation.ts:49-69 | A body passing the route's checks with a word in `createdAt` or `updatedAt` is refused by the schema: a 500 with no change. |
| ReservationTsRoutes.CreateWithCreatedAtXFails | backend/routes/reservation.ts:49-69 | `{name:"Ada", size:2, startTime:1000, endTime:2000, createdAt:"x"}` is a 500. |
| WalkinRoutes.GetAll | backend/routes/walkin.js:12-21 | A 200 happens iff the database answers, and then lists every walk-in sorted by arrival; otherwise a 500. |
| WalkinRoutes.Range | backend/routes/walkin.js:24-49 | A falsy bound is a 400. A bound `new Date` cannot read is a 400. Otherwise the answer is the walk-in range query, or a 500. |
| WalkinRoutes.RangeAnswer | backend/routes/walkin.js:34-42 | A 200 lists exactly the walk-ins that joined between the two parsed instants, both included. |
| WalkinRoutes.DraftFields | backend/routes/walkin.js:61-67 | The draft copies name, phone number and size, defaults comments to "", and sets the arrival to `now`. No other body key reaches it. |
| WalkinRoutes.Create | backend/routes/walkin.js:52-75 | A falsy size or name is a 400 with no change. A 201 happens iff the insert succeeds, and sends the inserted walk-in. Any other outcome is a 500 with no change. |
| WalkinRoutes.CreatedJoinsNow | backend/routes/walkin.js:61-70 | A created walk-in joined the list at `now`, was created and updated at `now`, and carries the generated id. Its name and size are the casts of the body's, and it has comments. It is appended to the store. |
| WalkinRoutes.CreateWithoutPhoneFails | backend/routes/walkin.js:57-73 | A body without a phone number passes the route's check but is refused by the schema: a 500. |
| TableRoutes.GetAll | backend/routes/table.js:11-19 | A 200 happens iff the listing succeeds, and sends it; otherwise a 500. |
| TableRoutes.GetByNumber | backend/routes/table.js:22-38 | A 400 happens iff `parseInt` of the segment is NaN. Otherwise: a 404 iff the lookup of that number finds no table, a 500 iff the lookup fails, and a 200 iff it finds one, which is sent. |
| TableRoutes.NumeralParses | backend/routes/table.js:24 | `parseInt` reads a decimal numeral, with or without a minus sign, as its value. |
| TableRoutes.GetByNumeral | backend/routes/table.js:24-33 | A numeric segment is looked up as the number it writes. |
| TableRoutes.GetByWordRefused | backend/routes/table.js:25-27 | A segment without leading digits is a 400. |
| TableRoutes.IntNumber | backend/routes/table.js:61-62 | `parseInt`'s result is NaN exactly when nothing was read. |
| TableRoutes.CreateCheck | backend/routes/table.js:47-58 | The body passes iff both values are truthy and neither is NaN under `Number(...)`. A falsy value, such as 0, is refused. |
| TableRoutes.Create | backend/routes/table.js:41-76 | A failed check is a 400 with no change. A 201 happens iff the insert succeeds. A duplicate-key error (11000) is a 409, and every other error is a 500. Nothing changes unless the answer is 201. |
| TableRoutes.DraftTruncates | backend/routes/table.js:60-64 | Numbers reach the insert as the integer `parseInt` reads from their string form: truncated toward zero in plain decimal, the signed leading digit in exponent notation. |
| TableRoutes.DraftFields | backend/routes/table.js:60-64 | The draft holds `tableNumber`, `tableCapacity` and `comments` as given, and leaves `reservedTimesModel` unset. |
| TableRoutes.CreateRefused | backend/routes/table.js:66-75 | A schema refusal is a 500 with no change. |
| TableRoutes.CreateSmallCapacityFails | backend/routes/table.js:62-75 | A capacity whose `parseInt` is NaN or below 1 passes the checks but is refused by the schema: a 500. |
| TableRoutes.CreateFractionalCapacityFails | backend/routes/table.js:47-75 | A capacity from 10^-6 up to 1 passes both checks, truncates to 0 and is refused: a 500. |
| TableRoutes.CreateTinyCapacityStored | backend/routes/table.js:47-75 | A positive capacity below 10^-6 passes both checks; `String` writes it with an exponent, so `parseInt` reads a digit from 1 to 9, and the table is stored with that capacity: a 201. |
| TableRoutes.CreateStored | backend/routes/table.js:47-66 | A body passing the checks, whose capacity `parseInt` reads as at least 1 and whose comments are no object, is a 201 storing that capacity, whatever its table number, when the id is free. |
| TableRoutes.DraftOfStored | backend/routes/table.js:60-66 | A draft with a numeric capacity of at least 1 and non-object comments is saved, keeping that capacity. |
| TableRoutes.CreateBooleanCapacityFails | backend/routes/table.js:47-75 | A capacity of `true` passes both checks, `parseInt("true")` is NaN, and the table is refused: a 500. |
| TableRoutes.DraftOfIgnoresNumber | backend/routes/table.js:61 | The stored table does not depend on `tableNumber`, which the schema does not declare. |
| TableRoutes.TableNumberNotStored | backend/routes/table.js:44-66 | Two requests differing only in `tableNum` store the same table. |
| DeleteToday.Window | backend/scripts/deleteTodayEntries.js:15-19 | The window is exactly one day long and holds the instant of the run. |
| DeleteToday.DeleteTodayEntries | backend/scripts/deleteTodayEntries.js:6-45 | With no connection the exit code is 1 and nothing is deleted. Otherwise exactly the reservations and walk-ins outside the window remain, in order, with the counts reported. Tables are untouched and validity is kept. |
| DeleteToday.DeletesExactlyToday | backend/scripts/deleteTodayEntries.js:21-33 | A reservation or walk-in survives iff its local calendar date is not today's. |
| DeleteToday.WindowIsHalfOpen | backend/scripts/deleteTodayEntries.js:23-31 | A reservation at today's midnight is deleted; one at tomorrow's midnight survives. |
| DeleteToday.SecondRunDeletesNothing | backend/scripts/deleteTodayEntries.js:21-33 | A second run on the same day leaves the store as it is and deletes nothing. |
| Wire.FieldsRead | backend/routes/reservation.js:19 | A record built from an id, name, size, start and end reads back that id, start and end, and has no `tableNum`. |
| Wire.ReservationJsonFields | backend/routes/reservation.js:26 | A serialised reservation carries its id and the ISO strings of its start and end. Its `tableNum` is the stored number, or absent when the stored value is null or absent. |
| Wire.ReservationJsonDates | backend/routes/reservation.js:26 | `new Date` on a serialised reservation's dates gives the stored instants back. |
| FloorPlan.DateOnly | src/components/FloorPlan.tsx:36 | The result is the longest prefix without a `T`, and the next character, if any, is `T`. |
| FloorPlan.DateOnlyConcat | src/components/FloorPlan.tsx:36 | Cutting `a + b` at its first T gives `a`, when `a` has no T and `b` starts with one. |
| FloorPlan.MidnightFields | src/components/FloorPlan.tsx:40 | `T00:00:00-07:00` reads as midnight at offset -420 minutes. |
| FloorPlan.LastMillisecondFields | src/components/FloorPlan.tsx:49 | `T23:59:59.999-07:00` reads as 23:59:59.999 at offset -420 minutes. |
| FloorPlan.PacificDay | src/components/FloorPlan.tsx:40-55 | A window starts at the UTC-7 midnight of its day and spans 86,399,999 ms. |
| FloorPlan.DayBoundsOfDate | src/components/FloorPlan.tsx:36-49 | The bounds of an ISO calendar date are that date's UTC-7 day. |
| FloorPlan.DateOnlyOfIso | src/components/FloorPlan.tsx:36 | The date part of an ISO string is the UTC calendar date of its instant. |
| FloorPlan.FetchWindowOf | src/components/FloorPlan.tsx:137-146 | The page fetches the UTC-7 day of the UTC date of the selected instant. |
| FloorPlan.FetchWindowSpan | src/components/FloorPlan.tsx:40-55 | The fetched window ends 86,399,999 ms after it starts. |
| FloorPlan.ConsecutiveWindowsAdjacent | src/components/FloorPlan.tsx:40-49 | The next date's window starts 1 ms after this date's ends, so windows neither overlap nor leave gaps. |
| FloorPlan.InitialDay | src/components/CurrDateProvider.tsx:16-19 | The day selected when the page opens is a local midnight on today's local date. |
| FloorPlan.DaylightWindowIsLocalDay | src/components/FloorPlan.tsx:40-49 | On a UTC-7 clock the fetched window is exactly the selected local day. |
| FloorPlan.StandardWindowShifted | src/components/FloorPlan.tsx:40-49 | On a UTC-8 clock the fetched window starts an hour before the selected local day and ends an hour before its end. |
| FloorPlan.MidnightStartsDay | src/components/CurrDateProvider.tsx:18 | A local midnight starts its own local day. |
| FloorPlan.StandardTimeMissesLateParty | src/components/FloorPlan.tsx:40-49 | On a UTC-8 clock, a party at 23:00 on the selected date falls outside the window. A party at 23:00 the evening before falls inside. |
| FloorPlan.LocalDayWindow | src/components/FloorPlan.tsx:38-49 | The corrected window spans one local day minus 1 ms and holds the selected instant. |
| FloorPlan.LocalDayWindowExact | src/components/FloorPlan.tsx:38-49 | An instant lies in the corrected window iff it has the selected instant's local calendar date. |
| FloorPlan.DaylightAgreesWithLocalDay | src/components/FloorPlan.tsx:40-49 | On a UTC-7 clock the written and the corrected windows coincide. |
| FloorPlan.Unassigned | src/components/FloorPlan.tsx:148-149 | The result is a subsequence of the list, holding exactly the entries whose `tableNum` is falsy. |
| FloorPlan.TableZeroUnassigned | src/components/FloorPlan.tsx:148 | A reservation at table 0 is listed as unassigned. |
| FloorPlan.SeatedNotUnassigned | src/components/FloorPlan.tsx:148 | A reservation at any table other than 0 is not listed as unassigned. |
| FloorPlan.AfterDelete | src/components/FloorPlan.tsx:95-135 | A failed delete leaves the list unchanged. An ok delete leaves the subsequence of entries whose `_id` differs from the deleted id. |
| FloorPlan.DeleteAbsentId | src/components/FloorPlan.tsx:108-110 | Deleting an id no entry has leaves the list unchanged. |
| FloorPlan.DeleteTwice | src/components/FloorPlan.tsx:129-131 | Deleting the same id twice is the same as deleting it once. |
| ReservationForm.TrimmedLength | src/components/Reservation.tsx:41 | `s.trim()` has at least `n` characters iff two non-blank characters of `s` span at least `n` characters. The count is of characters; the `.length` statement, in UTF-16 units, is `ReservationForm.TrimmedUnits`. |
| ReservationForm.TrimmedUnits | src/components/Reservation.tsx:41 | A non-blank span of at least `n` characters gives `trim().length >= n`, and without characters above U+FFFF the converse holds too. |
| ReservationForm.AstralNameAccepted | src/components/Reservation.tsx:40-47 | One character above U+FFFF, such as an emoji, passes both name checks, as `.length` counts it twice. |
| ReservationForm.FirstNameError | src/components/Reservation.tsx:40-43 | A first name whose non-blank span is at least 2 is valid; for a string with no character above U+FFFF that is also necessary. A failure carries the first-name message. |
| ReservationForm.LastNameError | src/components/Reservation.tsx:44-47 | A last name whose non-blank span is at least 2 is valid; for a string with no character above U+FFFF that is also necessary. A failure carries the last-name message. |
| ReservationForm.PhoneError | src/components/Reservation.tsx:50-51 | A phone whose non-blank span is at least 10 is valid; for a string with no character above U+FFFF that is also necessary. A failure carries the phone message. |
| ReservationForm.PartySizeError | src/components/Reservation.tsx:54-55 | A finite size is valid iff it is at least 1. NaN passes. A cleared input or null is refused. |
| ReservationForm.PatternIsShape | src/components/Reservation.tsx:48-49 | `^\S+@\S+$` matches iff the string has no white space and has an `@` that is neither first nor last. |
| ReservationForm.TestEmail | src/components/Reservation.tsx:48-49 | One pass over the string answers exactly whether the pattern matches, which is exactly when the email validator reports no error. |
| ReservationForm.EmailError | src/components/Reservation.tsx:48-49 | The email is valid iff the pattern matches; otherwise the email message. |
| ReservationForm.EmailExamples | src/components/Reservation.tsx:48-49 | "a@b" and "a@@b" are valid. "@ab", "ab@" and "a b@c" are not. |
| ReservationForm.Validate | src/components/Reservation.tsx:39-56 | Each field's verdict is the validity condition above, in both directions for strings with no character above U+FFFF; the date and time are not validated. |
| ReservationForm.InitialValidity | src/components/Reservation.tsx:28-37 | The initial party size 2 passes. The initial names, email and phone each fail with their message, so the initial form cannot submit. |
| ReservationForm.Submit | src/components/Reservation.tsx:59-85 | The dialog closes iff the form is valid and the reply is ok. It then resets to the initial values and shows the thank-you page; otherwise the form is kept. |
| ReservationForm.Payload | src/components/Reservation.tsx:62-68 | The posted body carries the form's values under the form's own keys. |
| ReservationForm.PayloadRefusedByTypedRoute | src/components/Reservation.tsx:62-68 | The posted body lacks `name`, `size`, `startTime` and `endTime`, so the TypeScript reservation POST refuses every such body with a 400. |
| MainPage.SlotMinutes | src/components/MainPage.tsx:173 | Slots are quarter hours from 17:00, and the 21 slots end by 22:00. |
| MainPage.LabelFields | src/components/MainPage.tsx:178 | Whatever a label splits into is an all-digit hour part and two minute digits. |
| MainPage.ReadShaped | src/components/MainPage.tsx:178 | Hour digits, ":", two digits and "am" or "pm" split back into those parts. |
| MainPage.LabelParts | src/components/MainPage.tsx:174-178 | A label reads back to the 24-hour time of its hour, minutes and period. |
| MainPage.LabelRoundTrip | src/components/MainPage.tsx:173-178 | Every time of day reads back from its label, so distinct times have distinct labels. |
| MainPage.LabelPeriod | src/components/MainPage.tsx:177-178 | A label ends with its period. |
| MainPage.Times | src/components/MainPage.tsx:172-179 | There are exactly 21 labels, and label `i` is the clock label of slot `i`. |
| MainPage.SlotLabelReadsBack | src/components/MainPage.tsx:172-179 | Each slot label reads back as its slot's minutes. |
| MainPage.SlotLabelsDistinct | src/components/MainPage.tsx:172-179 | No two slots share a label. |
| MainPage.SlotLabelsPm | src/components/MainPage.tsx:177 | Every slot label ends in "pm". |
| MainPage.SlotsStepByQuarterHours | src/components/MainPage.tsx:173 | Consecutive slots are 15 minutes apart, running from 17:00 to 22:00. |
| MainPage.ZeroMinutes | src/components/MainPage.tsx:178 | Zero minutes print as "00". |
| MainPage.FirstLabel | src/components/MainPage.tsx:80 | The initially selected slot, index 0, reads "5:00pm". |
| MainPage.LastLabel | src/components/MainPage.tsx:172-179 | The last slot reads "10:00pm". |
| MainPage.PositiveError | src/components/MainPage.tsx:190-195 | A finite number passes iff it is at least 1; otherwise the field's message. |
| MainPage.ClearedInputRefused | src/components/MainPage.tsx:190-195 | A cleared number input, the empty string, is refused. |
| MainPage.ValidateTable | src/components/MainPage.tsx:189-196 | Each failing field carries its own message. |
| MainPage.TableSubmittableNumbers | src/components/MainPage.tsx:189-196 | A form with finite numbers submits iff all three are at least 1. |
| MainPage.InitialTableSubmittable | src/components/MainPage.tsx:181-187 | The initial values 1, 2, 1 pass every validator. |
| MainPage.Suggest | src/components/MainPage.tsx:90-94 | With tables loaded, the table number becomes one more than their count. With none it is kept. Nothing else changes. |
| MainPage.SuggestionPasses | src/components/MainPage.tsx:90-94 | A suggested table number always passes its validator; with no tables it stays the initial 1. |
| MainPage.SubmitTable | src/components/MainPage.tsx:110-136 | An ok reply to a valid form resets it and suggests again from the reloaded count. Anything else keeps the values. |
| MainPage.TablePayload | src/components/MainPage.tsx:113-119 | The posted body carries the table number, capacity and comments under the form's keys. |
| MainPage.SubmittableNumbersPassServer | src/components/MainPage.tsx:189-196 | Finite numbers the form lets through also pass the server's truthiness and NaN checks. |
| MainPage.TableCountIgnored | src/components/MainPage.tsx:185 | The server builds the same draft whatever `numberTables` the form sends. |
| Js.TrimIsSlice | src/components/Reservation.tsx:41 | `trim()` returns a slice of the string, with only white space cut from either end, and non-blank ends when non-empty. |
| Js.TrimIdempotent | backend/models/Reservation.js:31-34 | Trimming twice trims nothing more. |
| Js.NatToStringRoundTrip | src/components/MainPage.tsx:178 | The decimal digits of `n` read back as `n`. |
| Js.NumberEndingInZ | backend/routes/table.js:54 | `Number(s)` is NaN for every string ending in Z. |
| Js.ParseIntOfFinite | backend/routes/table.js:61-62 | `parseInt` of a finite number reads the integer prefix of its string form; in plain decimal (magnitude 0 or from 10^-6 up to 10^21) that truncates it toward zero. |
| Js.IntegerPrefixRange | backend/routes/table.js:61-62 | In plain decimal the integer prefix is the truncation; in exponent notation it is a single digit 1..9 carrying the sign of the number. |
| Js.LargeDecadeScales | backend/routes/table.js:62 | The mantissa and exponent `String` writes for a number of at least 10^21 multiply back to the number. |
| Js.SmallDecadeScales | backend/routes/table.js:62 | The mantissa and negative exponent `String` writes for a number below 10^-6 multiply back to the number. |
| Js.Length | src/components/Reservation.tsx:41 | `.length` lies between the number of characters and twice it, and equals it when no character is above U+FFFF. |
| Js.AstralLength | src/components/Reservation.tsx:41 | One character above U+FFFF has length 2. |
| Js.PadStart | src/components/MainPage.tsx:178 | `padStart` reaches the width with the filler on the left and keeps the string at the right end. |
| Js.ToLower | backend/models/Reservation.js:10 | Lower-casing maps each letter `A`..`Z` to its lower-case letter (32 code points on) and leaves every other character as it is, keeping the length. |
| Dates.CivilFromDays | backend/routes/reservation.js:79-81 | The calendar date of a day number is valid and maps back to that day number. |
| Dates.IsoRoundTrip | backend/routes/reservation.js:76 | `new Date(d.toISOString())` is `d`, whatever the local zone. |
| Dates.ParseDateTime | backend/routes/reservation.js:92 | A date and time of day in ISO form parse to the instant they write. |
| Dates.SameLocalDay | backend/scripts/deleteTodayEntries.js:15-19 | An instant lies in the local day starting at `setHours(0,0,0,0)` of `u` iff it has `u`'s local calendar date. |
| Dates.NextLocalMidnight | backend/scripts/deleteTodayEntries.js:18-19 | One day after a local midnight is the next local midnight, on the next calendar date. |
| Dates.StartOfLocalDay | backend/scripts/deleteTodayEntries.js:15-16 | Local midnight is at most the instant, less than a day before it, and lands on a day boundary of the local clock. |
| Dates.LocalCivil | backend/routes/reservation.js:79-81 | The local calendar date is valid, and its day contains the instant on the local clock. |
| Seqs.FilterSubsequence | src/utils/reservationUtils.js:10 | A filter keeps the relative order of what it keeps. |
| Seqs.FilterIdempotent | src/utils/reservationUtils.js:10 | Filtering twice with one predicate changes nothing the second time. |
| Seqs.SortBy | backend/utils/mongodb.js:31-33 | The result is sorted by the key and is a permutation of the input. |
| Seqs.SortByIdempotent | backend/utils/mongodb.js:61 | Sorting a sorted listing again changes nothing. |

## Left out

- Network, process and console I/O. Connecting to MongoDB and Redis, the server and Express wiring, TLS, environment variables and logging are left out; connectivity is an `up` flag on the store and the cache.
- The wall clock, the local time zone and generated ids are parameters: `now`, `tz`, `id`. The time zone is a fixed offset, so daylight-saving transitions within one computation are not modelled.
- Floating point. JavaScript numbers are exact reals plus NaN and the infinities, so double rounding and overflow are not modelled. `String(x)` switches to exponent notation below 10^-6 and from 10^21, as JavaScript does, but writes the exact digits of the real rather than the shortest digits that identify a double.
- `new Date(string)` accepts only ECMAScript's Date Time String Format. The implementation-defined fallback formats are treated as invalid dates.
- `JSON.stringify` and `JSON.parse` are treated as inverse to each other. Cached values are the lists themselves.
- Stable-sort tie order in Mongo listings is not promised. The model sorts stably by insertion order, but contracts state only sortedness and permutation.
- Concurrency. Each handler is one atomic step, so races between requests are not modelled, and neither is a failure between the insert and the re-read in reservation create.
- `insertTable`, `getAllTables`, `getTableByNumber` and `insertWalkIn` are imported by name by the table and walk-in routes (backend/routes/table.js:2-6, backend/routes/walkin.js:2-6), but backend/utils/mongodb.js exports none of them. An ES module importing a name its source does not export fails when the modules are linked, so api.js, which imports both routers (api.js:7-8), cannot start as the code stands. The model takes the handlers as they would behave once the helpers exist: the four helpers are parameters of the handlers (`Inserter`, `Lister`, `Finder`), with concrete counterparts `Store.InsertTable` and `Store.InsertWalkIn`. `getTableByNumber` has no counterpart, as the table schema has no number to look up.
- Arrays as query or body values (such as repeated query parameters) are not part of the `Js.Value` model.
- A client-supplied `_id` in the TypeScript POST body is not modelled; the stored id is the generated one.
- The PATCH error's `details: error.message` is not modelled; its 500 carries only the fixed message.
- The floor plan's fetch is modelled as the window it asks for (`FloorPlan.FetchWindow`) plus the server's range answer (`ReservationRoutes.RangeOfIsoBounds`). The HTTP round trip between them and the list state it sets are not modelled.
- The front end's DELETE calls target `/reservations/delete/:id` and `/walkins/delete/:id`, which no router shown defines. The model takes the reply's `ok` as an input.
- The booking form posts to `/api/reservations`, whose server route is not shown. The model relates the body only to the TypeScript POST (`ReservationForm.PayloadRefusedByTypedRoute`).
- Date objects passed through `String`-typed paths are not modelled (the routes never pass one).
- Rendering, React state plumbing, the service worker, the fetch wrappers of the main page, `formattedDate` (src/components/MainPage.tsx:142-162) and the UI-only components are left out.
- The booking form's date and time pickers are not validated by the form, and the model does not validate them either.
- Js.ToLower: lower-cases ASCII letters only; full Unicode case mapping is not modelled.
- MainPage.PositiveError: null or undefined would make `valueOf()` throw; the model reads them as 0 and refuses them. Mantine's number input never holds either.
- Store.WalkInsByDateRange: states the answer only for Date bounds, the only kind the walk-in route passes. Null bounds select nothing, but this is not stated.
- Occupancy.InvalidTimestampSelectsNothing: holds by the definition of the filter alone, so it adds no proof of its own.
- Wire.ReservationJsonFields: a stored null `tableNum` and an absent one serialise alike, as absent; JSON would send `null` for the first. The floor plan reads both through `!res.tableNum`, so it cannot tell them apart either.
- ReservationForm.Validate: the name and phone verdicts are stated as a non-blank span in both directions only for strings with no character above U+FFFF. For other strings only the sufficient direction is stated, because `.length` counts such a character twice (`ReservationForm.AstralNameAccepted`).
- ReservationForm.FirstNameError: the exact condition is on UTF-16 units (`Js.Length`); the contract states it as a non-blank span in both directions only without characters above U+FFFF.
- ReservationForm.LastNameError: as `ReservationForm.FirstNameError`.
- ReservationForm.PhoneError: as `ReservationForm.FirstNameError`.
- TableRoutes.CreateFractionalCapacityFails: covers capacities from 10^-6 up to 1 only. Below 10^-6 the table is stored instead (`TableRoutes.CreateTinyCapacityStored`).
- Wire.ReservationJson: keeps only the fields the front end reads (id, name, size, table number, start, end).

## Findings

| source | as written | input that shows it | evidently intended | confidence | as-written member | corrected member |
|---|---|---|---|---|---|---|
| backend/routes/reservation.js:126-157 | PATCH updates the store but does not refresh the cached listing written by GET / and by create | GET / at t0 with a cold cache; PATCH reservation `id` to table 4 at t1; GET / at t2 ≤ t0 + 300 s still lists the old table | refresh the cached listing after a successful update, as create does at lines 117-118 | medium, not executed | ReservationRoutes.PatchLeavesListingStale | ReservationRoutes.PatchRefreshingCache |
| src/components/FloorPlan.tsx:40-49 | the day's bounds use the fixed offset -07:00, which is correct only during Pacific daylight time | a browser on UTC-8 (Pacific standard time) selects a day; a party at 23:00 local time that day falls outside the fetched window, and one at 23:00 the evening before falls inside | the bounds of the selected local day | medium, not executed | FloorPlan.StandardTimeMissesLateParty | FloorPlan.LocalDayWindow |

=== FILE: cache.dfy ===
/** The Redis listing cache: one entry per kind of record under the key
    `"restaurant:" + type + ":all"`, holding the JSON of a list with an expiry.
    Client errors are swallowed — a failed read is a miss and a failed write
    reports false — so the cache can never make a handler fail. Values are
    kept as the list itself: JSON encoding and decoding are taken to be
    inverse to each other. */
module Cache {
  import opened Wrappers
  import Models

  /** The prefix every key of this application carries in Redis. */
  const Prefix: string := "restaurant:"

  /** The expiry, in seconds, `cacheResult` uses when none is given. */
  const DefaultTtl: int := 300

  datatype Entry = Entry(value: seq<Models.Reservation>, expiresAt: int)

  /** The Redis server: whether it answers, and its live and expired entries. */
  datatype Store = Store(up: bool, entries: map<string, Entry>)

  /** The key under which the list of one kind of record is cached. */
  function Key(kind: string): (k: string)
    ensures |k| == |Prefix| + |kind| + 4
    ensures k[..|Prefix|] == Prefix && k[|Prefix|..|Prefix| + |kind|] == kind
  {
    Prefix + kind + ":all"
  }

  /** Distinct kinds never share a key. */
  lemma KeyInjective(a: string, b: string)
    requires Key(a) == Key(b)
    ensures a == b
  {
    assert |a| == |b|;
    assert a == Key(a)[|Prefix|..|Prefix| + |a|];
  }

  /** An entry is still served at `now` up to and including its expiry instant. */
  predicate Live(e: Entry, now: int) {
    now <= e.expiresAt
  }

  /** `fetchFromCache(type)`: the cached list, or None on a missing or expired
      key and on any client error. */
  function Fetch(c: Store, kind: string, now: int): (r: Option<seq<Models.Reservation>>)
    ensures r.Some? <==> c.up && Key(kind) in c.entries && Live(c.entries[Key(kind)], now)
    ensures r.Some? ==> r.value == c.entries[Key(kind)].value
  {
    if c.up && Key(kind) in c.entries && Live(c.entries[Key(kind)], now) then Some(c.entries[Key(kind)].value)
    else None
  }

  /** `cacheResult(type, blob, expiration)`: store the list for `expiration`
      seconds and report true; report false and change nothing when the client
      fails, including Redis refusing an expiry that is not positive. */
  function Put(c: Store, kind: string, blob: seq<Models.Reservation>, expiration: int, now: int): (out: (bool, Store))
    ensures out.0 <==> c.up && expiration > 0
    ensures !out.0 ==> out.1 == c
    ensures out.0 ==> out.1 == c.(entries := c.entries[Key(kind) := Entry(blob, now + expiration * 1000)])
  {
    if c.up && expiration > 0 then (true, c.(entries := c.entries[Key(kind) := Entry(blob, now + expiration * 1000)]))
    else (false, c)
  }

  /** After a successful write, reads of that kind return the written list
      until the expiry has passed, and reads of every other kind are unchanged. */
  lemma FetchAfterPut(c: Store, kind: string, blob: seq<Models.Reservation>, expiration: int, now: int, later: int, other: string)
    requires Put(c, kind, blob, expiration, now).0
    requires now <= later <= now + expiration * 1000
    requires other != kind
    ensures Fetch(Put(c, kind, blob, expiration, now).1, kind, later) == Some(blob)
    ensures Fetch(Put(c, kind, blob, expiration, now).1, other, later) == Fetch(c, other, later)
  {
    if Key(other) == Key(kind) {
      KeyInjective(other, kind);
    }
  }

  /** Once the expiry of a written entry has passed, reads of that kind miss
      again, whatever was cached before the write. */
  lemma ExpiredIsMiss(c: Store, kind: string, blob: seq<Models.Reservation>, expiration: int, now: int, later: int)
    requires Put(c, kind, blob, expiration, now).0
    requires later > now + expiration * 1000
    ensures Fetch(Put(c, kind, blob, expiration, now).1, kind, later).None?
  {}
}

=== FILE: dates.dfy ===
/** Instants as integer milliseconds since 1970-01-01T00:00:00Z, the proleptic
    Gregorian calendar, `Date.prototype.toISOString`, and the parser behind
    `new Date(string)` for the Date Time String Format of ECMA-262 (section
    21.4.1.32): `YYYY[-MM[-DD]][THH:mm[:ss[.sss]][Z|+HH:mm|-HH:mm]]`, with
    the six-digit signed years of section 21.4.1.32.1. A date-only form is
    read as UTC, a date-time form without an offset as local time. */
module Dates {
  import opened Wrappers
  import Js
  import Seqs

  const MsPerSecond: int := 1000
  const MsPerMinute: int := 60_000
  const MsPerHour: int := 3_600_000
  const MsPerDay: int := 86_400_000

  /** The largest distance from the epoch a Date may hold (TimeClip, section 21.4.1.31 of ECMA-262). */
  const MaxTime: int := 8_640_000_000_000_000

  predicate InRange(t: int) {
    -MaxTime <= t <= MaxTime
  }

  // ---------------------------------------------------------------------
  // Arithmetic helpers

  /** Division and remainder are determined by any quotient/remainder pair. */
  lemma DivMod(a: int, b: int, q: int, r: int)
    requires b > 0 && 0 <= r < b && a == q * b + r
    ensures a / b == q && a % b == r
  {
    var k := q - a / b;
    assert k * b == a % b - r;
    if k >= 1 {
      MulAtLeast(k, b);
    } else if k <= -1 {
      MulAtLeast(-k, b);
    }
  }

  lemma MulAtLeast(k: int, b: int)
    requires k >= 1 && b > 0
    ensures k * b >= b
  {}

  // ---------------------------------------------------------------------
  // Calendar

  datatype Civil = Civil(year: int, month: int, day: int)

  predicate IsLeapYear(y: int) {
    y % 4 == 0 && (y % 100 != 0 || y % 400 == 0)
  }

  function DaysInMonth(y: int, m: int): int
    requires 1 <= m <= 12
  {
    if m == 2 then (if IsLeapYear(y) then 29 else 28)
    else if m == 4 || m == 6 || m == 9 || m == 11 then 30
    else 31
  }

  predicate ValidCivil(c: Civil) {
    1 <= c.month <= 12 && 1 <= c.day <= DaysInMonth(c.year, c.month)
  }

  // The arithmetic below counts years from March 1, so that the leap day is the
  // last day of a year, and groups years into 400-year eras of 146097 days.

  /** Days from the start of an era to the start of its `yoe`-th March-based year. */
  function YearStart(yoe: int): int
    requires 0 <= yoe <= 400
  {
    365 * yoe + yoe / 4 - yoe / 100 + yoe / 400
  }

  /** Days from March 1 to the first day of month `mp`, counting March as 0 and February as 11. */
  function MonthStart(mp: int): int
    requires 0 <= mp <= 11
  {
    [0, 31, 61, 92, 122, 153, 184, 214, 245, 275, 306, 337][mp]
  }

  /** The day number (days since 1970-01-01) of a calendar date. */
  function DaysFromCivil(c: Civil): int
    requires 1 <= c.month <= 12
  {
    var y := if c.month <= 2 then c.year - 1 else c.year;
    var mp := if c.month > 2 then c.month - 3 else c.month + 9;
    (y / 400) * 146097 + YearStart(y % 400) + MonthStart(mp) + c.day - 1 - 719468
  }

  /** The March-based year of an era that contains its day `doe`. */
  function YearOfEra(doe: int, yoe: int): (r: int)
    requires 0 <= yoe <= 399 && YearStart(yoe) <= doe < YearStart(400)
    ensures yoe <= r <= 399 && YearStart(r) <= doe < YearStart(r + 1)
    decreases 399 - yoe
  {
    if doe < YearStart(yoe + 1) then yoe else YearOfEra(doe, yoe + 1)
  }

  /** The month (counted from March) that contains day `doy` of a March-based year. */
  function MonthOfYear(doy: int, mp: int): (r: int)
    requires 0 <= mp <= 11 && MonthStart(mp) <= doy
    ensures mp <= r <= 11 && MonthStart(r) <= doy
    ensures r < 11 ==> doy < MonthStart(r + 1)
    decreases 11 - mp
  {
    if mp == 11 || doy < MonthStart(mp + 1) then mp else MonthOfYear(doy, mp + 1)
  }

  /** A March-based year has 366 days exactly when the calendar year holding its February is a leap year. */
  lemma YearLength(era: int, yoe: int)
    requires 0 <= yoe <= 399
    ensures YearStart(yoe + 1) - YearStart(yoe) == if IsLeapYear(era * 400 + yoe + 1) then 366 else 365
  {
    EraResidues(era, yoe + 1);
    StepQuotient(yoe, 4);
    StepQuotient(yoe, 100);
    StepQuotient(yoe, 400);
  }

  /** Whole eras do not change a year's residues modulo 4, 100 and 400. */
  lemma EraResidues(era: int, x: int)
    ensures (era * 400 + x) % 4 == x % 4
    ensures (era * 400 + x) % 100 == x % 100
    ensures (era * 400 + x) % 400 == x % 400
  {
    assert (era * 100 + x / 4) * 4 == era * 400 + x / 4 * 4;
    DivMod(era * 400 + x, 4, era * 100 + x / 4, x % 4);
    assert (era * 4 + x / 100) * 100 == era * 400 + x / 100 * 100;
    DivMod(era * 400 + x, 100, era * 4 + x / 100, x % 100);
    DivMod(era * 400 + x, 400, era + x / 400, x % 400);
  }

  /** A quotient by `b` steps up by one exactly at multiples of `b`. */
  lemma StepQuotient(x: int, b: int)
    requires b > 0
    ensures (x + 1) / b - x / b == if (x + 1) % b == 0 then 1 else 0
  {
    if x % b == b - 1 {
      DivMod(x + 1, b, x / b + 1, 0);
    } else {
      DivMod(x + 1, b, x / b, x % b + 1);
    }
  }

  /** The calendar date of day number `z` (days since 1970-01-01): a valid
      date whose day number is `z` again. */
  function CivilFromDays(z: int): (c: Civil)
    ensures ValidCivil(c)
    ensures DaysFromCivil(c) == z
  {
    var shifted := z + 719468;
    CivilOfEra(shifted / 146097, shifted % 146097)
  }

  /** The calendar date of day `doe` of the 400-year era `era` (eras start on March 1 of year 0). */
  function CivilOfEra(era: int, doe: int): (c: Civil)
    requires 0 <= doe < 146097
    ensures ValidCivil(c)
    ensures DaysFromCivil(c) == era * 146097 + doe - 719468
  {
    var yoe := YearOfEra(doe, 0);
    var doy := doe - YearStart(yoe);
    CivilOfMonth(era, yoe, doy, MonthOfYear(doy, 0))
  }

  /** The calendar date of day `doy` of year `yoe` of an era, which falls in month `mp`. */
  function CivilOfMonth(era: int, yoe: int, doy: int, mp: int): (c: Civil)
    requires 0 <= yoe <= 399 && 0 <= doy < YearStart(yoe + 1) - YearStart(yoe)
    requires 0 <= mp <= 11 && MonthStart(mp) <= doy && (mp < 11 ==> doy < MonthStart(mp + 1))
    ensures ValidCivil(c)
    ensures DaysFromCivil(c) == era * 146097 + YearStart(yoe) + doy - 719468
  {
    var m := if mp < 10 then mp + 3 else mp - 9;
    var c := Civil(era * 400 + yoe + (if m <= 2 then 1 else 0), m, doy - MonthStart(mp) + 1);
    CivilOfMonthFacts(era, yoe, doy, mp, c);
    c
  }

  lemma CivilOfMonthFacts(era: int, yoe: int, doy: int, mp: int, c: Civil)
    requires 0 <= yoe <= 399 && 0 <= doy < YearStart(yoe + 1) - YearStart(yoe)
    requires 0 <= mp <= 11 && MonthStart(mp) <= doy && (mp < 11 ==> doy < MonthStart(mp + 1))
    requires c.month == (if mp < 10 then mp + 3 else mp - 9)
    requires c.year == era * 400 + yoe + (if c.month <= 2 then 1 else 0)
    requires c.day == doy - MonthStart(mp) + 1
    ensures ValidCivil(c)
    ensures DaysFromCivil(c) == era * 146097 + YearStart(yoe) + doy - 719468
  {
    YearLength(era, yoe);
    var y := if c.month <= 2 then c.year - 1 else c.year;
    assert y == era * 400 + yoe;
    DivMod(y, 400, era, yoe);
  }

  // ---------------------------------------------------------------------
  // Formatting

  function Pow10(n: nat): (p: nat)
    ensures p >= 1
  {
    if n == 0 then 1 else 10 * Pow10(n - 1)
  }

  /** Exactly `width` decimal digits of `n`, zero-padded on the left (`padStart(width, "0")`). */
  function Pad(n: nat, width: nat): (s: string)
    ensures |s| == width && Js.AllDigits(s, 10)
  {
    if width == 0 then "" else Pad(n / 10, width - 1) + [Js.DigitChar(n % 10)]
  }

  /** Reading back `width` padded digits of a number below 10^width gives the number. */
  lemma {:induction false} PadValue(n: nat, width: nat)
    requires n < Pow10(width)
    ensures Js.DigitsValue(Pad(n, width), 10) == n
  {
    if width > 0 {
      PadValue(n / 10, width - 1);
      var s := Pad(n, width);
      assert s[..|s| - 1] == Pad(n / 10, width - 1);
    }
  }

  /** The year as `toISOString` writes it: four digits, or a sign and six digits outside 0..9999. */
  function YearString(y: int): string {
    if 0 <= y <= 9999 then Pad(y, 4)
    else if y < 0 then "-" + Pad(-y, 6)
    else "+" + Pad(y, 6)
  }

  /** `YYYY-MM-DD`. */
  function DateString(c: Civil): string
    requires c.month >= 1 && c.day >= 1
  {
    YearString(c.year) + ("-" + (Pad(c.month, 2) + ("-" + Pad(c.day, 2))))
  }

  /** `THH:mm:ss.sssZ` for a time of day in milliseconds. */
  function TimeString(ms: int): string
    requires 0 <= ms < MsPerDay
  {
    "T" + (Pad(ms / MsPerHour, 2) + (":" + (Pad(ms / MsPerMinute % 60, 2)
      + (":" + (Pad(ms / MsPerSecond % 60, 2) + ("." + (Pad(ms % MsPerSecond, 3) + "Z")))))))
  }

  /** `Date.prototype.toISOString`. */
  function ToIsoString(t: int): string
    requires InRange(t)
  {
    DateString(CivilFromDays(t / MsPerDay)) + TimeString(t % MsPerDay)
  }

  /** Every ISO string ends in the zone designator Z. */
  lemma IsoEndsWithZ(t: int)
    requires InRange(t)
    ensures |ToIsoString(t)| > 0 && ToIsoString(t)[|ToIsoString(t)| - 1] == 'Z'
  {
  }

  /** `String(n)` of a number with exactly `width` digits is its padded form. */
  lemma {:induction false} NatToStringIsPad(n: nat, width: nat)
    requires width >= 1 && n < Pow10(width)
    requires width == 1 || Pow10(width - 1) <= n
    ensures Js.NatToString(n) == Pad(n, width)
  {
    if width > 1 {
      var p := Pow10(width - 2);
      assert Pow10(width) == 10 * (10 * p);
      assert 10 * p <= n;
      DivMod(n, 10, n / 10, n % 10);
      assert p <= n / 10 < 10 * p;
      NatToStringIsPad(n / 10, width - 1);
    }
  }

  /** `String(n).padStart(2, "0")` for a month or day number is its two-digit form. */
  lemma TwoDigits(n: nat)
    requires n < 100
    ensures Js.PadStart(Js.NatToString(n), 2, '0') == Pad(n, 2)
  {
    if n < 10 {
      NatToStringIsPad(n, 1);
      assert Pad(n, 2) == Pad(0, 1) + [Js.DigitChar(n)];
    } else {
      NatToStringIsPad(n, 2);
    }
  }

  /** A run of decimal digits holds no letter T. */
  lemma DigitsHaveNoT(p: string)
    requires Js.AllDigits(p, 10)
    ensures 'T' !in p
  {
    assert !Js.IsDigitIn('T', 10);
    assert forall i :: 0 <= i < |p| ==> p[i] != 'T';
  }

  /** A calendar date as `toISOString` writes it holds no letter T. */
  lemma DateStringHasNoT(c: Civil)
    requires c.month >= 1 && c.day >= 1
    ensures 'T' !in DateString(c)
  {
    DigitsHaveNoT(Pad(c.month, 2));
    DigitsHaveNoT(Pad(c.day, 2));
    if 0 <= c.year <= 9999 {
      DigitsHaveNoT(Pad(c.year, 4));
    } else {
      DigitsHaveNoT(Pad(if c.year < 0 then -c.year else c.year, 6));
    }
  }

  /** Milliseconds after midnight of the clock time `h:m`. */
  function ClockMs(h: nat, m: nat): int {
    h * MsPerHour + m * MsPerMinute
  }

  /** The fields of the time of day `h:m:00.000`. */
  lemma ClockFields(h: nat, m: nat)
    requires h < 24 && m < 60
    ensures var ms := ClockMs(h, m);
            && 0 <= ms < MsPerDay
            && ms / MsPerHour == h && ms / MsPerMinute % 60 == m
            && ms / MsPerSecond % 60 == 0 && ms % MsPerSecond == 0
  {
    var ms := h * MsPerHour + m * MsPerMinute;
    DivMod(ms, MsPerHour, h, m * MsPerMinute);
    DivMod(ms, MsPerMinute, h * 60 + m, 0);
    DivMod(h * 60 + m, 60, h, m);
    DivMod(ms, MsPerSecond, (h * 60 + m) * 60, 0);
    DivMod((h * 60 + m) * 60, 60, h * 60 + m, 0);
  }

  /** The seconds and milliseconds of a whole minute. */
  lemma ZeroSecondsSuffix()
    ensures ":" + Pad(0, 2) + "." + Pad(0, 3) + "Z" == ":00.000Z"
  {
    assert Pad(0, 1) == "0";
    assert Pad(0, 2) == Pad(0, 1) + "0";
    assert Pad(0, 3) == Pad(0, 2) + "0";
  }

  /** An ISO string separates its date from its time with the letter T. */
  lemma IsoHasT(t: int)
    requires InRange(t)
    ensures 'T' in ToIsoString(t)
  {
    var day := DateString(CivilFromDays(t / MsPerDay));
    assert ToIsoString(t)[|day|] == 'T';
  }

  /** `${year}-${MM}-${DD}`, with the month and day padded to two digits, is
      the date as `toISOString` writes it for every year of four digits. */
  lemma FourDigitDate(c: Civil)
    requires ValidCivil(c) && 1000 <= c.year <= 9999
    ensures Js.IntToString(c.year) + "-" + Js.PadStart(Js.NatToString(c.month), 2, '0')
              + "-" + Js.PadStart(Js.NatToString(c.day), 2, '0') == DateString(c)
  {
    YearDigits(c.year);
    TwoDigits(c.month);
    TwoDigits(c.day);
    JoinDate(Js.IntToString(c.year), Js.PadStart(Js.NatToString(c.month), 2, '0'), Js.PadStart(Js.NatToString(c.day), 2, '0'));
  }

  /** A year of four digits is written the same by `String(year)` and by `toISOString`. */
  lemma YearDigits(year: int)
    requires 1000 <= year <= 9999
    ensures Js.IntToString(year) == Pad(year, 4) == YearString(year)
  {
    assert Pow10(3) == 1000 && Pow10(4) == 10000;
    NatToStringIsPad(year, 4);
  }

  lemma JoinDate(y: string, m: string, d: string)
    ensures y + "-" + m + "-" + d == y + ("-" + (m + ("-" + d)))
  {
    Seqs.Regroup(y, "-", m, "-", d);
  }

  /** `THH:mm:00.000Z` is the time-of-day string of that hour and minute. */
  lemma ClockTimeString(h: nat, m: nat)
    requires h < 24 && m < 60
    ensures 0 <= ClockMs(h, m) < MsPerDay
    ensures TimeString(ClockMs(h, m)) == "T" + (Pad(h, 2) + ":" + Pad(m, 2)) + ":00.000Z"
  {
    var ms := ClockMs(h, m);
    ClockFields(h, m);
    assert ms / MsPerHour == h && ms / MsPerMinute % 60 == m;
    assert ms / MsPerSecond % 60 == 0 && ms % MsPerSecond == 0;
    TimeStringOf(ms, h, m, 0, 0);
    ZeroSecondsSuffix();
    Seqs.Regroup("T", Pad(h, 2), ":", Pad(m, 2), "");
  }

  /** `TimeString` in terms of the fields it writes. */
  lemma TimeStringOf(ms: int, h: nat, m: nat, sec: nat, milli: nat)
    requires 0 <= ms < MsPerDay
    requires ms / MsPerHour == h && ms / MsPerMinute % 60 == m
    requires ms / MsPerSecond % 60 == sec && ms % MsPerSecond == milli
    ensures TimeString(ms) == "T" + Pad(h, 2) + ":" + Pad(m, 2) + (":" + Pad(sec, 2) + "." + Pad(milli, 3) + "Z")
  {
  }

  // ---------------------------------------------------------------------
  // Parsing

  /** Where the parsed fields are anchored: UTC, local time, or an explicit offset in minutes. */
  datatype Zone = Utc | Local | Offset(minutes: int)

  datatype Fields = Fields(date: Civil, hour: int, minute: int, second: int, ms: int, zone: Zone)

  /** Exactly `n` decimal digits at the front of `s`, and the rest of `s`. */
  function Fixed(s: string, n: nat): Option<(nat, string)> {
    if |s| >= n && Js.AllDigits(s[..n], 10) then Some((Js.DigitsValue(s[..n], 10), s[n..])) else None
  }

  /** The rest of `s` after the character `c`, if `s` starts with it. */
  function Skip(s: string, c: char): Option<string> {
    if |s| > 0 && s[0] == c then Some(s[1..]) else None
  }

  /** `YYYY`, `+YYYYYY` or `-YYYYYY` (but not `-000000`). */
  function ParseYear(s: string): Option<(int, string)> {
    if |s| > 0 && (s[0] == '+' || s[0] == '-') then
      var p :- Fixed(s[1..], 6);
      if s[0] == '-' && p.0 == 0 then None
      else Some((if s[0] == '-' then -(p.0 as int) else p.0 as int, p.1))
    else
      var p :- Fixed(s, 4);
      Some((p.0 as int, p.1))
  }

  /** `YYYY`, `YYYY-MM` or `YYYY-MM-DD`; a missing month or day is 1. */
  function ParseDatePart(s: string): Option<(Civil, string)> {
    var y :- ParseYear(s);
    if |y.1| > 0 && y.1[0] == '-' then
      var m :- Fixed(y.1[1..], 2);
      if |m.1| > 0 && m.1[0] == '-' then
        var d :- Fixed(m.1[1..], 2);
        Some((Civil(y.0, m.0, d.0), d.1))
      else Some((Civil(y.0, m.0, 1), m.1))
    else Some((Civil(y.0, 1, 1), y.1))
  }

  /** The zone designator that must end a date-time: none (local time), `Z`, or `+HH:mm`/`-HH:mm`. */
  function ParseZone(s: string): Option<Zone> {
    if |s| == 0 then Some(Local)
    else if s == "Z" then Some(Utc)
    else if s[0] == '+' || s[0] == '-' then
      var h :- Fixed(s[1..], 2);
      var r :- Skip(h.1, ':');
      var m :- Fixed(r, 2);
      if |m.1| != 0 || h.0 > 23 || m.0 > 59 then None
      else Some(Offset((if s[0] == '-' then -1 else 1) * (h.0 * 60 + m.0)))
    else None
  }

  /** `HH:mm[:ss[.sss]]` followed by the zone designator. */
  function ParseTimePart(s: string, date: Civil): Option<Fields> {
    var h :- Fixed(s, 2);
    var r :- Skip(h.1, ':');
    var mi :- Fixed(r, 2);
    if |mi.1| > 0 && mi.1[0] == ':' then
      var sec :- Fixed(mi.1[1..], 2);
      if |sec.1| > 0 && sec.1[0] == '.' then
        var ms :- Fixed(sec.1[1..], 3);
        var z :- ParseZone(ms.1);
        Some(Fields(date, h.0, mi.0, sec.0, ms.0, z))
      else
        var z :- ParseZone(sec.1);
        Some(Fields(date, h.0, mi.0, sec.0, 0, z))
    else
      var z :- ParseZone(mi.1);
      Some(Fields(date, h.0, mi.0, 0, 0, z))
  }

  /** The fields of a Date Time String Format string; date-only forms are UTC. */
  function ParseFields(s: string): Option<Fields> {
    var d :- ParseDatePart(s);
    if |d.1| == 0 then Some(Fields(d.0, 0, 0, 0, 0, Utc))
    else if d.1[0] == 'T' then ParseTimePart(d.1[1..], d.0)
    else None
  }

  /** Field values inside their ranges; `24:00` is allowed only as `24:00:00.000`. */
  predicate ValidFields(f: Fields) {
    ValidCivil(f.date) && 0 <= f.hour <= 24 && 0 <= f.minute <= 59 && 0 <= f.second <= 59
    && 0 <= f.ms <= 999 && (f.hour == 24 ==> f.minute == 0 && f.second == 0 && f.ms == 0)
  }

  /** The instant the fields denote, given the local time zone's offset from UTC `tz` (ms). */
  function FieldsInstant(f: Fields, tz: int): int
    requires ValidFields(f)
  {
    var local := DaysFromCivil(f.date) * MsPerDay + f.hour * MsPerHour + f.minute * MsPerMinute
      + f.second * MsPerSecond + f.ms;
    match f.zone
    case Utc => local
    case Local => local - tz
    case Offset(minutes) => local - minutes * MsPerMinute
  }

  /** `new Date(s).getTime()` for a string: None where JavaScript yields an invalid Date (NaN). */
  function ParseDate(s: string, tz: int): Option<int> {
    var f :- ParseFields(s);
    if !ValidFields(f) then None
    else
      var t := FieldsInstant(f, tz);
      if InRange(t) then Some(t) else None
  }

  /** A string that starts with neither a digit nor a sign is not a date. */
  lemma NotStartingAsDate(s: string, tz: int)
    requires |s| > 0 && !('0' <= s[0] <= '9') && s[0] != '+' && s[0] != '-'
    ensures ParseDate(s, tz) == None
  {
    assert Fixed(s, 4) == None by {
      if |s| >= 4 {
        assert s[..4][0] == s[0];
      }
    }
  }

  /** How every string the parser accepts begins: a four-digit year, or a sign
      and a six-digit year, followed by nothing, by `-` or by `T`. */
  lemma DateStringStart(s: string, tz: int) returns (k: nat)
    requires ParseDate(s, tz).Some?
    ensures 0 < k <= |s|
    ensures (s[0] == '+' || s[0] == '-') ==> k == 7 && Js.AllDigits(s[1..k], 10)
    ensures !(s[0] == '+' || s[0] == '-') ==> k == 4 && Js.AllDigits(s[..k], 10)
    ensures k < |s| ==> s[k] == '-' || s[k] == 'T'
  {
    var y := ParseYear(s).value;
    if s[0] == '+' || s[0] == '-' {
      k := 7;
      assert s[1..][..6] == s[1..7] && s[1..][6..] == s[7..];
    } else {
      k := 4;
      assert s[4..] == y.1;
    }
    assert y.1 == s[k..];
    if |y.1| > 0 && y.1[0] != '-' {
      assert ParseDatePart(s).value.1 == y.1;
    }
  }

  /** A date-only string with a signed six-digit year names a year whose
      first instant a `Date` can hold. */
  lemma SignedYearInRange(s: string, tz: int)
    requires ParseDate(s, tz).Some?
    requires |s| == 7 && (s[0] == '+' || s[0] == '-') && Js.AllDigits(s[1..], 10)
    ensures s[0] == '+' ==> Js.DigitsValue(s[1..], 10) < 275761
    ensures s[0] == '-' ==> Js.DigitsValue(s[1..], 10) <= 271820
  {
    var n := Js.DigitsValue(s[1..], 10);
    var year := if s[0] == '-' then -(n as int) else n as int;
    assert s[1..][..6] == s[1..] && s[1..][6..] == [];
    assert ParseYear(s) == Some((year, []));
    var f := Fields(Civil(year, 1, 1), 0, 0, 0, 0, Utc);
    assert ParseFields(s) == Some(f);
    var days := DaysFromCivil(f.date);
    assert FieldsInstant(f, tz) == days * MsPerDay;
    NewYearBounds(year);
  }

  /** The day number of January 1 of `year`, to within the leap days of one era. */
  lemma NewYearBounds(year: int)
    ensures var q := (year - 1) / 400;
            365 * (year - 1) + 97 * q - 719162 <= DaysFromCivil(Civil(year, 1, 1))
            <= 365 * (year - 1) + 97 * q - 719065
  {
    var y := year - 1;
    var q, r := y / 400, y % 400;
    var lo := r / 4 - r / 100 + r / 400;
    assert 0 <= lo <= 97;
    assert YearStart(r) == 365 * r + lo;
  }

  /** A number written with `|p|` decimal digits is below 10^|p|. */
  lemma {:induction false} DigitsBelow(p: string)
    requires Js.AllDigits(p, 10)
    ensures Js.DigitsValue(p, 10) < Pow10(|p|)
  {
    if |p| > 0 {
      DigitsBelow(p[..|p| - 1]);
    }
  }

  /** A date-only string of four digits is a year between 0 and 9999. */
  lemma FourDigitYear(s: string)
    requires |s| == 4 && Js.AllDigits(s, 10)
    ensures Js.DigitsValue(s, 10) <= 9999
  {
    DigitsBelow(s);
    assert Pow10(4) == 10000;
  }

  /** TimeClip of a number (section 21.4.1.31 of ECMA-262). */
  function TimeClip(n: Js.Number): Option<int> {
    match n
    case Finite(x) => var t := Js.Truncate(x); if InRange(t) then Some(t) else None
    case _ => None
  }

  /** `new Date(v).getTime()` for one argument: strings are parsed, other
      primitives converted to a number of milliseconds; objects convert to the
      string "[object Object]", which is not a date. */
  function DateOf(v: Js.Value, tz: int): Option<int> {
    match v
    case Str(s) => ParseDate(s, tz)
    case Obj => ParseDate(Js.ToString(v), tz)
    case _ => TimeClip(Js.ToNumber(v))
  }

  // ---------------------------------------------------------------------
  // Round trip: what toISOString writes, the parser reads back.

  lemma FixedPad(n: nat, width: nat, rest: string)
    requires n < Pow10(width)
    ensures Fixed(Pad(n, width) + rest, width) == Some((n, rest))
  {
    var s := Pad(n, width) + rest;
    assert s[..width] == Pad(n, width);
    assert s[width..] == rest;
    PadValue(n, width);
  }

  lemma ParseYearString(y: int, rest: string)
    requires -999999 <= y <= 999999
    ensures ParseYear(YearString(y) + rest) == Some((y, rest))
  {
    if 0 <= y <= 9999 {
      ParseFourDigitYear(y, rest);
    } else {
      ParseSignedYear(y, rest);
    }
  }

  lemma ParseFourDigitYear(y: nat, rest: string)
    requires y <= 9999
    ensures ParseYear(Pad(y, 4) + rest) == Some((y, rest))
  {
    var s := Pad(y, 4) + rest;
    assert Fixed(s, 4) == Some((y, rest)) by { FixedPad(y, 4, rest); }
    assert s[0] != '+' && s[0] != '-' by {
      Js.DecimalDigitRange(Pad(y, 4)[0]);
      assert s[0] == Pad(y, 4)[0];
    }
  }

  lemma ParseSignedYear(y: int, rest: string)
    requires -999999 <= y <= 999999 && !(0 <= y <= 9999)
    ensures ParseYear(YearString(y) + rest) == Some((y, rest))
  {
    assert Pow10(6) == 1000000;
    if y < 0 {
      assert YearString(y) + rest == ['-'] + (Pad(-y, 6) + rest);
      ParseSignedDigits('-', -y, rest);
    } else {
      assert YearString(y) + rest == ['+'] + (Pad(y, 6) + rest);
      ParseSignedDigits('+', y, rest);
    }
  }

  lemma ParseSignedDigits(sign: char, n: nat, rest: string)
    requires n < Pow10(6) && (sign == '+' || (sign == '-' && n != 0))
    ensures ParseYear([sign] + (Pad(n, 6) + rest)) == Some((if sign == '-' then -(n as int) else n as int, rest))
  {
    var s := [sign] + (Pad(n, 6) + rest);
    assert s[1..] == Pad(n, 6) + rest;
    FixedPad(n, 6, rest);
  }

  lemma ParseDateString(c: Civil, rest: string)
    requires ValidCivil(c) && -999999 <= c.year <= 999999
    requires |rest| == 0 || rest[0] != '-'
    ensures ParseDatePart(DateString(c) + rest) == Some((c, rest))
  {
    var dd := Pad(c.day, 2) + rest;
    var mm := Pad(c.month, 2) + ("-" + dd);
    var s := YearString(c.year) + ("-" + mm);
    assert DateString(c) + rest == s;
    ParseYearString(c.year, "-" + mm);
    FixedPad(c.month, 2, "-" + dd);
    FixedPad(c.day, 2, rest);
    assert ("-" + mm)[1..] == mm;
    assert ("-" + dd)[1..] == dd;
  }

  lemma ParseTimeString(ms: int, date: Civil)
    requires 0 <= ms < MsPerDay
    ensures ParseTimePart(TimeString(ms)[1..], date)
            == Some(Fields(date, ms / MsPerHour, ms / MsPerMinute % 60, ms / MsPerSecond % 60, ms % MsPerSecond, Utc))
  {
    var h, mi, sec, milli := ms / MsPerHour, ms / MsPerMinute % 60, ms / MsPerSecond % 60, ms % MsPerSecond;
    var r4 := Pad(milli, 3) + "Z";
    var r3 := Pad(sec, 2) + ("." + r4);
    var r2 := Pad(mi, 2) + (":" + r3);
    var r1 := Pad(h, 2) + (":" + r2);
    assert TimeString(ms)[1..] == r1;
    FixedPad(h, 2, ":" + r2);
    FixedPad(mi, 2, ":" + r3);
    FixedPad(sec, 2, "." + r4);
    FixedPad(milli, 3, "Z");
    assert (":" + r2)[1..] == r2;
    assert (":" + r3)[1..] == r3;
    assert ("." + r4)[1..] == r4;
  }

  /** The years an in-range instant can fall in fit the six-digit extended format. */
  lemma YearBound(t: int)
    requires InRange(t)
    ensures -999999 <= CivilFromDays(t / MsPerDay).year <= 999999
  {
    var z := t / MsPerDay;
    assert -100_000_001 <= z <= 100_000_000;
    var shifted := z + 719468;
    var era := shifted / 146097;
    assert -700 <= era <= 700;
  }

  /** The time-of-day fields `toISOString` writes add back up to the time of day. */
  lemma TimeOfDayFields(ms: int)
    requires 0 <= ms < MsPerDay
    ensures 0 <= ms / MsPerHour <= 23 && 0 <= ms / MsPerMinute % 60 <= 59 && 0 <= ms / MsPerSecond % 60 <= 59
    ensures ms == ms / MsPerHour * MsPerHour + ms / MsPerMinute % 60 * MsPerMinute
                  + ms / MsPerSecond % 60 * MsPerSecond + ms % MsPerSecond
  {
    var s := ms / MsPerSecond;
    var m := s / 60;
    assert ms / MsPerMinute == m;
    assert ms / MsPerHour == m / 60;
  }

  /** The fields read from a date and a time of day written as `toISOString`
      writes them are valid and denote that moment of that UTC day. */
  lemma DateTimeFields(c: Civil, ms: int, tz: int) returns (f: Fields)
    requires ValidCivil(c) && -999999 <= c.year <= 999999 && 0 <= ms < MsPerDay
    ensures ParseFields(DateString(c) + TimeString(ms)) == Some(f)
    ensures ValidFields(f) && FieldsInstant(f, tz) == DaysFromCivil(c) * MsPerDay + ms
  {
    var time := TimeString(ms);
    assert time[0] == 'T';
    ParseDateString(c, time);
    ParseTimeString(ms, c);
    f := Fields(c, ms / MsPerHour, ms / MsPerMinute % 60, ms / MsPerSecond % 60, ms % MsPerSecond, Utc);
    TimeOfDayFields(ms);
  }

  /** A date followed by a time of day, both written as `toISOString` writes
      them, parses to that moment of that UTC day when it is in range. */
  lemma ParseDateTime(c: Civil, ms: int, tz: int)
    requires ValidCivil(c) && -999999 <= c.year <= 999999 && 0 <= ms < MsPerDay
    ensures ParseDate(DateString(c) + TimeString(ms), tz)
            == var t := DaysFromCivil(c) * MsPerDay + ms; if InRange(t) then Some(t) else None
  {
    var f := DateTimeFields(c, ms, tz);
    ParseDateOfFields(DateString(c) + TimeString(ms), f, tz);
  }

  lemma ParseDateOfFields(s: string, f: Fields, tz: int)
    requires ParseFields(s) == Some(f) && ValidFields(f)
    ensures ParseDate(s, tz) == if InRange(FieldsInstant(f, tz)) then Some(FieldsInstant(f, tz)) else None
  {
  }

  /** `new Date(d.toISOString())` is `d` again, whatever the local time zone. */
  lemma IsoRoundTrip(t: int, tz: int)
    requires InRange(t)
    ensures ParseDate(ToIsoString(t), tz) == Some(t)
  {
    YearBound(t);
    ParseDateTime(CivilFromDays(t / MsPerDay), t % MsPerDay, tz);
  }

  // ---------------------------------------------------------------------
  // Local time on a clock `tz` milliseconds ahead of UTC (a fixed offset)

  /** The local calendar date of `t`: `getFullYear()`, `getMonth() + 1`, `getDate()`. */
  function LocalCivil(t: int, tz: int): (c: Civil)
    ensures ValidCivil(c)
    ensures DaysFromCivil(c) * MsPerDay <= t + tz < DaysFromCivil(c) * MsPerDay + MsPerDay
  {
    CivilFromDays((t + tz) / MsPerDay)
  }

  /** Local midnight starting the day that contains `t` (`setHours(0, 0, 0, 0)`). */
  function StartOfLocalDay(t: int, tz: int): (r: int)
    ensures r <= t < r + MsPerDay
    ensures (r + tz) % MsPerDay == 0
  {
    (t + tz) / MsPerDay * MsPerDay - tz
  }

  /** One day after local midnight is the next local midnight, on the next calendar date. */
  lemma NextLocalMidnight(t: int, tz: int)
    ensures var today := StartOfLocalDay(t, tz);
            StartOfLocalDay(today + MsPerDay, tz) == today + MsPerDay
            && DaysFromCivil(LocalCivil(today + MsPerDay, tz)) == DaysFromCivil(LocalCivil(today, tz)) + 1
  {
    var z := (t + tz) / MsPerDay;
    var today := StartOfLocalDay(t, tz);
    DivMod(today + tz, MsPerDay, z, 0);
    DivMod(today + MsPerDay + tz, MsPerDay, z + 1, 0);
  }

  /** Instants in the local day of `u` have its calendar date. */
  lemma WithinLocalDay(t: int, u: int, tz: int)
    requires StartOfLocalDay(u, tz) <= t < StartOfLocalDay(u, tz) + MsPerDay
    ensures (t + tz) / MsPerDay == (u + tz) / MsPerDay
  {
    var q := (u + tz) / MsPerDay;
    var d := StartOfLocalDay(u, tz);
    DivMod(t + tz, MsPerDay, q, t - d);
  }

  /** Instants with the calendar date of `u` lie in its local day. */
  lemma DateWithinLocalDay(t: int, u: int, tz: int)
    requires DaysFromCivil(LocalCivil(t, tz)) == DaysFromCivil(LocalCivil(u, tz))
    ensures StartOfLocalDay(u, tz) <= t < StartOfLocalDay(u, tz) + MsPerDay
  {
    var days := DaysFromCivil(LocalCivil(u, tz));
    DivMod(u + tz, MsPerDay, days, u + tz - days * MsPerDay);
  }

  /** The local day that starts at `StartOfLocalDay(u, tz)` holds exactly the
      instants with the same local calendar date as `u`. */
  lemma SameLocalDay(t: int, u: int, tz: int)
    ensures StartOfLocalDay(u, tz) <= t < StartOfLocalDay(u, tz) + MsPerDay <==> LocalCivil(t, tz) == LocalCivil(u, tz)
  {
    if StartOfLocalDay(u, tz) <= t < StartOfLocalDay(u, tz) + MsPerDay {
      WithinLocalDay(t, u, tz);
    }
    if LocalCivil(t, tz) == LocalCivil(u, tz) {
      DateWithinLocalDay(t, u, tz);
    }
  }
}

=== FILE: delete_today.dfy ===
/** The daily clean-up script: it removes the reservations that start, and
    the walk-ins that joined the list, on the current local calendar day. The
    window runs from local midnight up to, but not including, the next one.
    The clock and the local offset are parameters; a fixed offset stands for
    the machine's time zone. */
module DeleteToday {
  import Dates
  import Seqs
  import opened Wrappers
  import opened Models
  import opened Store

  /** How the script ends: its exit code, the database it leaves behind, and
      the two counts it reports (zero when it fails). */
  datatype Run = Run(exitCode: int, db: Db, reservationsDeleted: nat, walkInsDeleted: nat)

  /** Local midnight starting today, and the next local midnight. */
  function Window(now: int, tz: int): (w: (int, int))
    ensures w.1 == w.0 + Dates.MsPerDay
    ensures w.0 <= now < w.1
  {
    var today := Dates.StartOfLocalDay(now, tz);
    (today, today + Dates.MsPerDay)
  }

  /** Without a database connection the script exits with code 1 and deletes
      nothing; otherwise it deletes both windows and exits normally. */
  function DeleteTodayEntries(db: Db, now: int, tz: int): (out: Run)
    ensures out.exitCode == (if db.up then 0 else 1)
    ensures !db.up ==> out == Run(1, db, 0, 0)
    ensures out.db.tables == db.tables && out.db.up == db.up
    ensures db.up ==>
              && out.db.reservations == Seqs.Filter(db.reservations, StartsOutside(Window(now, tz).0, Window(now, tz).1))
              && out.db.walkIns == Seqs.Filter(db.walkIns, AddedOutside(Window(now, tz).0, Window(now, tz).1))
              && out.reservationsDeleted + |out.db.reservations| == |db.reservations|
              && out.walkInsDeleted + |out.db.walkIns| == |db.walkIns|
    ensures Valid(db) ==> Valid(out.db)
  {
    if !db.up then Run(1, db, 0, 0)
    else
      var (lo, hi) := Window(now, tz);
      assert Valid(db) ==> Valid(DeleteWalkInsAdded(DeleteReservationsStarting(db, lo, hi).1, lo, hi).1) by {
        if Valid(db) { DeletesKeepValid(db, lo, hi); }
      }
      var reservations := DeleteReservationsStarting(db, lo, hi);
      var walkIns := DeleteWalkInsAdded(reservations.1, lo, hi);
      Run(0, walkIns.1, reservations.0.value, walkIns.0.value)
  }

  /** A reservation survives exactly when it does not start on today's local
      calendar date; likewise a walk-in and the date it joined the list. */
  lemma DeletesExactlyToday(db: Db, now: int, tz: int, r: Reservation, w: WalkIn)
    requires db.up
    ensures var out := DeleteTodayEntries(db, now, tz);
            && (r in out.db.reservations <==>
                  r in db.reservations && Dates.LocalCivil(r.startTime, tz) != Dates.LocalCivil(now, tz))
            && (w in out.db.walkIns <==>
                  w in db.walkIns && Dates.LocalCivil(w.timeAddedToWaitlist, tz) != Dates.LocalCivil(now, tz))
  {
    ReservationSurvives(db, now, tz, r);
    WalkInSurvives(db, now, tz, w);
  }

  lemma ReservationSurvives(db: Db, now: int, tz: int, r: Reservation)
    requires db.up
    ensures r in DeleteTodayEntries(db, now, tz).db.reservations <==>
              r in db.reservations && Dates.LocalCivil(r.startTime, tz) != Dates.LocalCivil(now, tz)
  {
    var (lo, hi) := Window(now, tz);
    Seqs.FilterMembership(db.reservations, StartsOutside(lo, hi), r);
    Dates.SameLocalDay(r.startTime, now, tz);
  }

  lemma WalkInSurvives(db: Db, now: int, tz: int, w: WalkIn)
    requires db.up
    ensures w in DeleteTodayEntries(db, now, tz).db.walkIns <==>
              w in db.walkIns && Dates.LocalCivil(w.timeAddedToWaitlist, tz) != Dates.LocalCivil(now, tz)
  {
    var (lo, hi) := Window(now, tz);
    Seqs.FilterMembership(db.walkIns, AddedOutside(lo, hi), w);
    Dates.SameLocalDay(w.timeAddedToWaitlist, now, tz);
  }

  /** The window includes today's midnight and excludes tomorrow's: a
      reservation at 00:00 today goes, one at 00:00 tomorrow stays. */
  lemma WindowIsHalfOpen(db: Db, now: int, tz: int, r: Reservation)
    requires db.up && r in db.reservations
    ensures var (today, tomorrow) := Window(now, tz);
            && (r.startTime == today ==> r !in DeleteTodayEntries(db, now, tz).db.reservations)
            && (r.startTime == tomorrow ==> r in DeleteTodayEntries(db, now, tz).db.reservations)
  {
    var (lo, hi) := Window(now, tz);
    Seqs.FilterMembership(db.reservations, StartsOutside(lo, hi), r);
  }

  /** A second run on the same day deletes nothing more. */
  lemma SecondRunDeletesNothing(db: Db, now: int, later: int, tz: int)
    requires Window(later, tz) == Window(now, tz)
    ensures var once := DeleteTodayEntries(db, now, tz);
            var twice := DeleteTodayEntries(once.db, later, tz);
            && twice.db == once.db
            && twice.reservationsDeleted == 0 && twice.walkInsDeleted == 0
  {
    var (lo, hi) := Window(now, tz);
    Seqs.FilterIdempotent(db.reservations, StartsOutside(lo, hi));
    Seqs.FilterIdempotent(db.walkIns, AddedOutside(lo, hi));
  }
}

=== FILE: floor_plan.dfy ===
/** The floor plan page: the day window it asks the server for, the
    reservations and walk-ins it lists as unassigned, and how it updates its
    lists after a delete. The window is built from the date part of the
    selected day's ISO string and the fixed offset `-07:00`. */
module FloorPlan {
  import opened Wrappers
  import Js
  import Dates
  import Seqs
  import Models
  import Wire

  // ---------------------------------------------------------------------
  // The day window

  /** `s.split('T')[0]`: everything before the first T. */
  function DateOnly(s: string): (r: string)
    ensures |r| <= |s| && r == s[..|r|]
    ensures 'T' !in r
    ensures |r| < |s| ==> s[|r|] == 'T'
  {
    if |s| == 0 || s[0] == 'T' then [] else [s[0]] + DateOnly(s[1..])
  }

  /** Cutting at the first T of `a + b`, when `a` holds none and `b` starts with one, gives `a`. */
  lemma DateOnlyConcat(a: string, b: string)
    requires 'T' !in a && |b| > 0 && b[0] == 'T'
    ensures DateOnly(a + b) == a
  {
    var r := DateOnly(a + b);
    assert r == (a + b)[..|a|] == a;
  }

  const StartSuffix: string := "T00:00:00-07:00"
  const EndSuffix: string := "T23:59:59.999-07:00"

  /** The first and the last millisecond of the day named by `date`, read at
      UTC-7; None when either string is not a date, for then `toISOString`
      throws and nothing is fetched. */
  function DayBounds(date: string, tz: int): Option<(int, int)> {
    match (Dates.ParseDate(date + StartSuffix, tz), Dates.ParseDate(date + EndSuffix, tz))
    case (Some(lo), Some(hi)) => Some((lo, hi))
    case _ => None
  }

  /** The window fetched for the selected day `currDate`: the date part of its
      ISO string, that is its UTC date, read at UTC-7. */
  function FetchWindow(currDate: int, tz: int): Option<(int, int)>
    requires Dates.InRange(currDate)
  {
    DayBounds(DateOnly(Dates.ToIsoString(currDate)), tz)
  }

  /** The two-digit numerals the suffixes are made of. */
  lemma Numerals()
    ensures Dates.Pad(0, 2) == "00" && Dates.Pad(7, 2) == "07" && Dates.Pad(23, 2) == "23"
    ensures Dates.Pad(59, 2) == "59" && Dates.Pad(999, 3) == "999"
  {
    assert Dates.Pad(0, 1) == "0";
    assert Dates.Pad(2, 1) == "2" && Dates.Pad(5, 1) == "5" && Dates.Pad(9, 1) == "9";
    assert Dates.Pad(99, 2) == "99";
  }

  /** The zone designator both suffixes end with. */
  lemma PacificZone()
    ensures Dates.ParseZone("-07:00") == Some(Dates.Offset(-420))
  {
    var r := Dates.Pad(0, 2);
    Numerals();
    assert "-07:00"[1..] == Dates.Pad(7, 2) + (":" + r);
    Dates.FixedPad(7, 2, ":" + r);
    Dates.FixedPad(0, 2, "");
    assert (":" + r)[1..] == r + "";
  }

  /** `HH:mm:ss` followed by a signed zone. */
  lemma SecondsTimePart(h: nat, mi: nat, sec: nat, zs: string, c: Dates.Civil)
    requires h < 100 && mi < 100 && sec < 100
    requires |zs| > 0 && zs[0] == '-' && Dates.ParseZone(zs).Some?
    ensures Dates.ParseTimePart(Dates.Pad(h, 2) + (":" + (Dates.Pad(mi, 2) + (":" + (Dates.Pad(sec, 2) + zs)))), c)
            == Some(Dates.Fields(c, h, mi, sec, 0, Dates.ParseZone(zs).value))
  {
    var r2 := Dates.Pad(sec, 2) + zs;
    var r1 := Dates.Pad(mi, 2) + (":" + r2);
    Dates.FixedPad(h, 2, ":" + r1);
    Dates.FixedPad(mi, 2, ":" + r2);
    Dates.FixedPad(sec, 2, zs);
    assert (":" + r1)[1..] == r1;
    assert (":" + r2)[1..] == r2;
  }

  /** `HH:mm:ss.sss` followed by a signed zone. */
  lemma MillisTimePart(h: nat, mi: nat, sec: nat, ms: nat, zs: string, c: Dates.Civil)
    requires h < 100 && mi < 100 && sec < 100 && ms < 1000
    requires |zs| > 0 && zs[0] == '-' && Dates.ParseZone(zs).Some?
    ensures Dates.ParseTimePart(Dates.Pad(h, 2) + (":" + (Dates.Pad(mi, 2) + (":" + (Dates.Pad(sec, 2) + ("." + (Dates.Pad(ms, 3) + zs)))))), c)
            == Some(Dates.Fields(c, h, mi, sec, ms, Dates.ParseZone(zs).value))
  {
    var r3 := Dates.Pad(ms, 3) + zs;
    var r2 := Dates.Pad(sec, 2) + ("." + r3);
    var r1 := Dates.Pad(mi, 2) + (":" + r2);
    Dates.FixedPad(h, 2, ":" + r1);
    Dates.FixedPad(mi, 2, ":" + r2);
    Dates.FixedPad(sec, 2, "." + r3);
    Dates.FixedPad(ms, 3, zs);
    MillisFields(Dates.Pad(h, 2) + (":" + r1), c, h, mi, sec, ms, r1, r2, r3, zs);
  }

  /** The four fixed-width numbers of a time with milliseconds, read off in turn. */
  lemma MillisFields(s: string, c: Dates.Civil, h: nat, mi: nat, sec: nat, ms: nat,
                     r1: string, r2: string, r3: string, zs: string)
    requires Dates.Fixed(s, 2) == Some((h, ":" + r1))
    requires Dates.Fixed(r1, 2) == Some((mi, ":" + r2))
    requires Dates.Fixed(r2, 2) == Some((sec, "." + r3))
    requires Dates.Fixed(r3, 3) == Some((ms, zs))
    requires Dates.ParseZone(zs).Some?
    ensures Dates.ParseTimePart(s, c) == Some(Dates.Fields(c, h, mi, sec, ms, Dates.ParseZone(zs).value))
  {
    assert (":" + r1)[1..] == r1;
    assert (":" + r2)[1..] == r2;
    assert ("." + r3)[1..] == r3;
  }

  lemma MidnightFields(c: Dates.Civil)
    ensures Dates.ParseTimePart(StartSuffix[1..], c) == Some(Dates.Fields(c, 0, 0, 0, 0, Dates.Offset(-420)))
  {
    assert StartSuffix[1..] == "00" + (":" + ("00" + (":" + ("00" + "-07:00"))));
    Numerals();
    PacificZone();
    SecondsTimePart(0, 0, 0, "-07:00", c);
  }

  lemma LastMillisecondFields(c: Dates.Civil)
    ensures Dates.ParseTimePart(EndSuffix[1..], c) == Some(Dates.Fields(c, 23, 59, 59, 999, Dates.Offset(-420)))
  {
    assert EndSuffix[1..] == "23" + (":" + ("59" + (":" + ("59" + ("." + ("999" + "-07:00"))))));
    Numerals();
    PacificZone();
    MillisTimePart(23, 59, 59, 999, "-07:00", c);
  }

  /** The instant a Pacific-daylight clock (UTC-7) shows at the start of
      UTC day number `d`: 07:00 UTC of that day. */
  function PacificMidnight(d: int): int {
    d * Dates.MsPerDay + 7 * Dates.MsPerHour
  }

  /** The first and last millisecond of UTC day `d` on a UTC-7 clock, when a
      Date can hold both. */
  function PacificDay(d: int): (w: Option<(int, int)>)
    ensures w.Some? ==> w.value.0 == PacificMidnight(d) && w.value.1 - w.value.0 == 86_399_999
  {
    var lo := PacificMidnight(d);
    var hi := lo + Dates.MsPerDay - 1;
    if Dates.InRange(lo) && Dates.InRange(hi) then Some((lo, hi)) else None
  }

  /** The two bounds of a calendar date are its midnight and its last
      millisecond on a UTC-7 clock, whatever the local time zone. */
  lemma DayBoundsOfDate(c: Dates.Civil, tz: int)
    requires Dates.ValidCivil(c) && -999999 <= c.year <= 999999
    ensures DayBounds(Dates.DateString(c), tz) == PacificDay(Dates.DaysFromCivil(c))
  {
    Dates.ParseDateString(c, StartSuffix);
    Dates.ParseDateString(c, EndSuffix);
    MidnightFields(c);
    LastMillisecondFields(c);
  }

  /** The date part of an ISO string is the UTC date of the instant. */
  lemma DateOnlyOfIso(t: int)
    requires Dates.InRange(t)
    ensures DateOnly(Dates.ToIsoString(t)) == Dates.DateString(Dates.CivilFromDays(t / Dates.MsPerDay))
  {
    var c := Dates.CivilFromDays(t / Dates.MsPerDay);
    Dates.DateStringHasNoT(c);
    DateOnlyConcat(Dates.DateString(c), Dates.TimeString(t % Dates.MsPerDay));
  }

  /** The fetched window is the UTC-7 day of the UTC date of `currDate`:
      86,399,999 ms from first to last millisecond. */
  lemma FetchWindowOf(currDate: int, tz: int)
    requires Dates.InRange(currDate)
    ensures FetchWindow(currDate, tz) == PacificDay(currDate / Dates.MsPerDay)
  {
    var c := Dates.CivilFromDays(currDate / Dates.MsPerDay);
    assert FetchWindow(currDate, tz) == DayBounds(Dates.DateString(c), tz) by {
      DateOnlyOfIso(currDate);
    }
    assert -999999 <= c.year <= 999999 by {
      Dates.YearBound(currDate);
    }
    DayBoundsOfDate(c, tz);
  }

  /** A fetched window always spans 86,399,999 ms from first to last millisecond. */
  lemma FetchWindowSpan(currDate: int, tz: int)
    requires Dates.InRange(currDate)
    ensures FetchWindow(currDate, tz).Some? ==> FetchWindow(currDate, tz).value.1 - FetchWindow(currDate, tz).value.0 == 86_399_999
  {
    FetchWindowOf(currDate, tz);
  }

  /** Windows of consecutive dates tile the time line: the next date's window
      starts one millisecond after this date's ends. */
  lemma ConsecutiveWindowsAdjacent(d: int, tz: int)
    requires -100_000_000 <= d && d + 1 <= 100_000_000
    ensures var today := DayBounds(Dates.DateString(Dates.CivilFromDays(d)), tz);
            var tomorrow := DayBounds(Dates.DateString(Dates.CivilFromDays(d + 1)), tz);
            today.Some? && tomorrow.Some? ==> tomorrow.value.0 == today.value.1 + 1
  {
    Dates.YearBound(d * Dates.MsPerDay);
    Dates.YearBound((d + 1) * Dates.MsPerDay);
    assert d * Dates.MsPerDay / Dates.MsPerDay == d;
    assert (d + 1) * Dates.MsPerDay / Dates.MsPerDay == d + 1;
    DayBoundsOfDate(Dates.CivilFromDays(d), tz);
    DayBoundsOfDate(Dates.CivilFromDays(d + 1), tz);
  }

  // ---------------------------------------------------------------------
  // Which day that is

  /** The offset of a Pacific daylight-time clock (UTC-7), in ms. */
  const PacificDaylight: int := -7 * Dates.MsPerHour
  /** The offset of a Pacific standard-time clock (UTC-8), in ms. */
  const PacificStandard: int := -8 * Dates.MsPerHour

  /** The day selected when the page opens: local midnight of today, on a
      clock `tz` ms ahead of UTC. */
  function InitialDay(now: int, tz: int): (d: int)
    ensures (d + tz) % Dates.MsPerDay == 0
    ensures Dates.LocalCivil(d, tz) == Dates.LocalCivil(now, tz)
  {
    var d := Dates.StartOfLocalDay(now, tz);
    Dates.SameLocalDay(d, now, tz);
    d
  }

  /** The UTC day of a local midnight `currDate` on a clock `off` ms behind
      UTC starts `off` ms before it. */
  lemma MidnightDay(currDate: int, off: int)
    requires 0 <= off < Dates.MsPerDay && (currDate - off) % Dates.MsPerDay == 0
    ensures PacificMidnight(currDate / Dates.MsPerDay) == currDate - off + 7 * Dates.MsPerHour
  {
    var k := (currDate - off) / Dates.MsPerDay;
    Dates.DivMod(currDate - off, Dates.MsPerDay, k, 0);
    Dates.DivMod(currDate, Dates.MsPerDay, k, off);
  }

  /** The fetched window runs from the UTC-7 midnight `lo` of the UTC date of `currDate`. */
  lemma WindowFrom(currDate: int, tz: int, lo: int)
    requires Dates.InRange(currDate) && PacificMidnight(currDate / Dates.MsPerDay) == lo
    requires Dates.InRange(lo) && Dates.InRange(lo + Dates.MsPerDay - 1)
    ensures FetchWindow(currDate, tz) == Some((lo, lo + Dates.MsPerDay - 1))
  {
    FetchWindowOf(currDate, tz);
  }

  /** On a UTC-7 clock the fetched window is exactly the selected local day. */
  lemma DaylightWindowIsLocalDay(currDate: int)
    requires (currDate + PacificDaylight) % Dates.MsPerDay == 0
    requires Dates.InRange(currDate) && Dates.InRange(currDate + Dates.MsPerDay - 1)
    ensures FetchWindow(currDate, PacificDaylight) == Some((currDate, currDate + Dates.MsPerDay - 1))
  {
    MidnightDay(currDate, 7 * Dates.MsPerHour);
    WindowFrom(currDate, PacificDaylight, currDate);
  }

  /** On a UTC-8 clock the fetched window starts an hour before the selected
      local day and ends an hour before its end. */
  lemma StandardWindowShifted(currDate: int)
    requires (currDate + PacificStandard) % Dates.MsPerDay == 0
    requires Dates.InRange(currDate - Dates.MsPerHour) && Dates.InRange(currDate + Dates.MsPerDay)
    ensures FetchWindow(currDate, PacificStandard)
            == Some((currDate - Dates.MsPerHour, currDate + Dates.MsPerDay - Dates.MsPerHour - 1))
  {
    MidnightDay(currDate, 8 * Dates.MsPerHour);
    WindowFrom(currDate, PacificStandard, currDate - Dates.MsPerHour);
  }

  /** A local midnight starts its own local day. */
  lemma MidnightStartsDay(currDate: int, tz: int)
    requires (currDate + tz) % Dates.MsPerDay == 0
    ensures Dates.StartOfLocalDay(currDate, tz) == currDate
  {
    var k := (currDate + tz) / Dates.MsPerDay;
    Dates.DivMod(currDate + tz, Dates.MsPerDay, k, 0);
  }

  /** In winter the window runs from 23:00 the evening before to just before
      23:00 on the selected day: a party at 23:00 on that day is not fetched,
      while one at 23:00 the evening before is. */
  lemma StandardTimeMissesLateParty(currDate: int)
    requires (currDate + PacificStandard) % Dates.MsPerDay == 0
    requires Dates.InRange(currDate - Dates.MsPerHour) && Dates.InRange(currDate + Dates.MsPerDay)
    ensures var late := currDate + 23 * Dates.MsPerHour;
            var eve := currDate - Dates.MsPerHour;
            && FetchWindow(currDate, PacificStandard) == Some((eve, late - 1))
            && Dates.LocalCivil(late, PacificStandard) == Dates.LocalCivil(currDate, PacificStandard)
            && Dates.LocalCivil(eve, PacificStandard) != Dates.LocalCivil(currDate, PacificStandard)
  {
    StandardWindowShifted(currDate);
    MidnightStartsDay(currDate, PacificStandard);
    Dates.SameLocalDay(currDate + 23 * Dates.MsPerHour, currDate, PacificStandard);
    Dates.SameLocalDay(currDate - Dates.MsPerHour, currDate, PacificStandard);
  }

  /** The window the page means to fetch: the first and last millisecond of
      the local day holding `currDate`, whatever the clock's offset. */
  function LocalDayWindow(currDate: int, tz: int): (w: (int, int))
    ensures w.1 - w.0 == Dates.MsPerDay - 1
    ensures w.0 <= currDate <= w.1
  {
    var lo := Dates.StartOfLocalDay(currDate, tz);
    (lo, lo + Dates.MsPerDay - 1)
  }

  /** The intended window holds exactly the instants of the selected local date. */
  lemma LocalDayWindowExact(currDate: int, t: int, tz: int)
    ensures var w := LocalDayWindow(currDate, tz);
            w.0 <= t <= w.1 <==> Dates.LocalCivil(t, tz) == Dates.LocalCivil(currDate, tz)
  {
    Dates.SameLocalDay(t, currDate, tz);
  }

  /** In daylight time the fetched window is the intended one. */
  lemma DaylightAgreesWithLocalDay(currDate: int)
    requires (currDate + PacificDaylight) % Dates.MsPerDay == 0
    requires Dates.InRange(currDate) && Dates.InRange(currDate + Dates.MsPerDay - 1)
    ensures FetchWindow(currDate, PacificDaylight) == Some(LocalDayWindow(currDate, PacificDaylight))
  {
    assert LocalDayWindow(currDate, PacificDaylight) == (currDate, currDate + Dates.MsPerDay - 1) by {
      MidnightStartsDay(currDate, PacificDaylight);
    }
    DaylightWindowIsLocalDay(currDate);
  }

  // ---------------------------------------------------------------------
  // The lists

  /** `!res.tableNum`: no table, or a falsy table number such as 0. */
  predicate Unseated(o: Js.Object) {
    !Js.Truthy(Js.Get(o, "tableNum"))
  }

  /** The sidebar's unassigned reservations or walk-ins. */
  function Unassigned(list: seq<Js.Object>): (r: seq<Js.Object>)
    ensures forall o :: o in r <==> o in list && Unseated(o)
    ensures Seqs.Subsequence(r, list)
  {
    var r := Seqs.Filter(list, Unseated);
    forall o ensures o in r <==> o in list && Unseated(o) {
      Seqs.FilterMembership(list, Unseated, o);
    }
    Seqs.FilterSubsequence(list, Unseated);
    r
  }

  /** A reservation the table-assignment PATCH puts on table 0 still shows as unassigned. */
  lemma TableZeroUnassigned(r: Models.Reservation, list: seq<Js.Object>)
    requires Dates.InRange(r.startTime) && Dates.InRange(r.endTime)
    requires r.tableNum == Some(Js.Finite(0.0))
    requires Wire.ReservationJson(r) in list
    ensures Wire.ReservationJson(r) in Unassigned(list)
  {
    Wire.ReservationJsonFields(r);
  }

  /** A reservation seated at a non-zero table number is not unassigned. */
  lemma SeatedNotUnassigned(r: Models.Reservation, list: seq<Js.Object>, n: real)
    requires Dates.InRange(r.startTime) && Dates.InRange(r.endTime)
    requires r.tableNum == Some(Js.Finite(n)) && n != 0.0
    ensures Wire.ReservationJson(r) !in Unassigned(list)
  {
    Wire.ReservationJsonFields(r);
  }

  /** Entries whose `_id` is not `id` (`x._id !== id`). */
  function Other(id: string): Js.Object -> bool {
    o => Js.Get(o, "_id") != Js.Str(id)
  }

  /** `handleDeleteReservation` / `handleDeleteWalkin`: the local list after
      the DELETE request; a response that is not ok throws before the update. */
  function AfterDelete(list: seq<Js.Object>, id: string, ok: bool): (r: seq<Js.Object>)
    ensures !ok ==> r == list
    ensures ok ==> Seqs.Subsequence(r, list)
    ensures ok ==> forall o :: o in r <==> o in list && Js.Get(o, "_id") != Js.Str(id)
  {
    if ok then
      var r := Seqs.Filter(list, Other(id));
      forall o ensures o in r <==> o in list && Js.Get(o, "_id") != Js.Str(id) {
        Seqs.FilterMembership(list, Other(id), o);
      }
      Seqs.FilterSubsequence(list, Other(id));
      r
    else list
  }

  /** Deleting an id that no entry carries leaves the list as it was. */
  lemma DeleteAbsentId(list: seq<Js.Object>, id: string, ok: bool)
    requires forall i :: 0 <= i < |list| ==> Js.Get(list[i], "_id") != Js.Str(id)
    ensures AfterDelete(list, id, ok) == list
  {
    if ok {
      Seqs.FilterAll(list, Other(id));
    }
  }

  /** Deleting the same id twice is deleting it once. */
  lemma DeleteTwice(list: seq<Js.Object>, id: string)
    ensures AfterDelete(AfterDelete(list, id, true), id, true) == AfterDelete(list, id, true)
  {
    Seqs.FilterIdempotent(list, Other(id));
  }
}

=== FILE: http.dfy ===
/** What a route handler sends back: a status code and a JSON body. */
module Http {
  import Models

  const Ok: int := 200
  const Created: int := 201
  const BadRequest: int := 400
  const NotFound: int := 404
  const Conflict: int := 409
  const ServerError: int := 500

  /** The JSON bodies the handlers send: documents, lists of documents, or `{ error: message }`. */
  datatype Body =
    | Reservations(reservations: seq<Models.Reservation>)
    | OneReservation(reservation: Models.Reservation)
    | WalkIns(walkIns: seq<Models.WalkIn>)
    | OneWalkIn(walkIn: Models.WalkIn)
    | Tables(tables: seq<Models.Table>)
    | OneTable(table: Models.Table)
    | Error(message: string)

  datatype Response = Response(status: int, body: Body)

  function Fail(status: int, message: string): Response {
    Response(status, Error(message))
  }
}

=== FILE: js.dfy ===
/** JavaScript values as the handlers and forms receive them, and the coercions
    they apply: truthiness (`!x`, `x || d`), `Number(x)`/`isNaN(x)`, `parseInt(x)`,
    template-literal string conversion, `trim()` and `toLowerCase()`. */
module Js {
  import opened Wrappers

  /** A JavaScript number. Finite values are exact reals (no double rounding). */
  datatype Number = NaN | Infinity(negative: bool) | Finite(value: real)

  /** A JavaScript value as found in a parsed JSON body or a form field.
      `Obj` stands for any plain (non-array) object; its contents never matter here. */
  datatype Value = Undefined | Null | Bool(b: bool) | Num(n: Number) | Str(s: string) | Obj

  /** A JSON object such as a request body: a missing key reads as `undefined`. */
  type Object = map<string, Value>

  function Get(o: Object, key: string): Value {
    if key in o then o[key] else Undefined
  }

  /** JavaScript truthiness: `!v` is `!Truthy(v)`. */
  predicate Truthy(v: Value) {
    match v
    case Undefined => false
    case Null => false
    case Bool(b) => b
    case Num(n) => n.Infinity? || (n.Finite? && n.value != 0.0)
    case Str(s) => |s| > 0
    case Obj => true
  }

  /** `a || b`: the left operand when it is truthy, otherwise the right one. */
  function Or(a: Value, b: Value): Value {
    if Truthy(a) then a else b
  }

  /** `Number.isNaN` / `isNaN` applied to a number. */
  predicate IsNaNNumber(n: Number) {
    n.NaN?
  }

  /** The relational operator `a < b` on numbers: false whenever NaN is involved. */
  predicate LessThan(a: Number, b: Number) {
    match (a, b)
    case (NaN, _) => false
    case (_, NaN) => false
    case (Infinity(na), Infinity(nb)) => na && !nb
    case (Infinity(na), Finite(_)) => na
    case (Finite(_), Infinity(nb)) => !nb
    case (Finite(x), Finite(y)) => x < y
  }

  // ---------------------------------------------------------------------
  // White space and trimming

  /** ECMAScript WhiteSpace and LineTerminator code points (the `\s` class). */
  predicate IsSpace(c: char) {
    var n := c as int;
    n == 0x09 || n == 0x0A || n == 0x0B || n == 0x0C || n == 0x0D || n == 0x20
    || n == 0xA0 || n == 0x1680 || (0x2000 <= n <= 0x200A) || n == 0x2028
    || n == 0x2029 || n == 0x202F || n == 0x205F || n == 0x3000 || n == 0xFEFF
  }

  /** `s` without its leading white space. */
  function TrimStart(s: string): (r: string)
    ensures |r| <= |s| && r == s[|s| - |r|..]
    ensures forall i :: 0 <= i < |s| - |r| ==> IsSpace(s[i])
    ensures |r| > 0 ==> !IsSpace(r[0])
  {
    if |s| > 0 && IsSpace(s[0]) then
      var r := TrimStart(s[1..]);
      assert forall i :: 1 <= i < |s| - |r| ==> IsSpace(s[i]) by {
        forall i | 1 <= i < |s| - |r| ensures IsSpace(s[i]) {
          assert s[i] == s[1..][i - 1];
        }
      }
      r
    else s
  }

  /** `s` without its trailing white space. */
  function TrimEnd(s: string): (r: string)
    ensures |r| <= |s| && r == s[..|r|]
    ensures forall i :: |r| <= i < |s| ==> IsSpace(s[i])
    ensures |r| > 0 ==> !IsSpace(r[|r| - 1])
  {
    if |s| > 0 && IsSpace(s[|s| - 1]) then
      var r := TrimEnd(s[..|s| - 1]);
      assert forall i :: |r| <= i < |s| - 1 ==> IsSpace(s[i]) by {
        forall i | |r| <= i < |s| - 1 ensures IsSpace(s[i]) {
          assert s[i] == s[..|s| - 1][i];
        }
      }
      r
    else s
  }

  /** `String.prototype.trim`. */
  function Trim(s: string): string {
    TrimEnd(TrimStart(s))
  }

  /** `r` is `s[i..j]`, and everything before `i` and from `j` on is white space. */
  predicate SliceAt(s: string, r: string, i: int, j: int) {
    && 0 <= i <= j <= |s| && r == s[i..j]
    && (forall k :: 0 <= k < i ==> IsSpace(s[k]))
    && (forall k :: j <= k < |s| ==> IsSpace(s[k]))
  }

  /** `s[i..j]` is what `trim()` keeps. */
  predicate TrimmedAt(s: string, i: int, j: int) {
    SliceAt(s, Trim(s), i, j)
  }

  /** Trimming removes exactly the white space at both ends: the result is a
      slice of the input that neither starts nor ends with white space, and
      everything cut off is white space. */
  lemma TrimIsSlice(s: string)
    ensures exists i, j :: TrimmedAt(s, i, j)
    ensures |Trim(s)| > 0 ==> !IsSpace(Trim(s)[0]) && !IsSpace(Trim(s)[|Trim(s)| - 1])
  {
    var i, j := TrimCuts(s);
    TrimEnds(s);
  }

  /** Where `trim()` cuts, found from the two passes. */
  lemma TrimCuts(s: string) returns (i: nat, j: nat)
    ensures TrimmedAt(s, i, j)
  {
    var t := TrimStart(s);
    var r := TrimEnd(t);
    StartSlice(s);
    EndSlice(t);
    i, j := |s| - |t|, |s| - |t| + |r|;
    SliceOfSlice(s, t, |s| - |t|, |s|, r, 0, |r|);
    assert Trim(s) == r;
  }

  /** What `trim()` keeps neither starts nor ends with white space. */
  lemma TrimEnds(s: string)
    ensures |Trim(s)| > 0 ==> !IsSpace(Trim(s)[0]) && !IsSpace(Trim(s)[|Trim(s)| - 1])
  {
    var t := TrimStart(s);
    var r := TrimEnd(t);
    if |r| > 0 {
      assert r[0] == t[0];
    }
  }

  lemma {:induction false} StartSlice(s: string)
    ensures SliceAt(s, TrimStart(s), |s| - |TrimStart(s)|, |s|)
  {
    var r := TrimStart(s);
    assert r == s[|s| - |r|..];
  }

  lemma {:induction false} EndSlice(t: string)
    ensures SliceAt(t, TrimEnd(t), 0, |TrimEnd(t)|)
  {
    var r := TrimEnd(t);
    assert r == t[..|r|];
  }

  /** A slice of a slice, with white space around each, is a slice with white space around it. */
  lemma SliceOfSlice(s: string, t: string, i: int, j: int, r: string, i2: int, j2: int)
    requires SliceAt(s, t, i, j) && SliceAt(t, r, i2, j2)
    ensures SliceAt(s, r, i + i2, i + j2)
  {
    assert r == s[i + i2..i + j2] by {
      forall k | 0 <= k < |r| ensures r[k] == s[i + i2 + k] {
        assert r[k] == t[i2 + k];
      }
    }
    forall k | 0 <= k < i + i2 ensures IsSpace(s[k]) {
      if k >= i {
        assert s[k] == t[k - i];
      }
    }
    forall k | i + j2 <= k < |s| ensures IsSpace(s[k]) {
      if k < j {
        assert s[k] == t[k - i];
      }
    }
  }

  /** Trimming twice trims nothing more. */
  lemma TrimIdempotent(s: string)
    ensures Trim(Trim(s)) == Trim(s)
  {
    var r := Trim(s);
    TrimIsSlice(s);
    assert TrimStart(r) == r;
    assert TrimEnd(r) == r;
  }

  // ---------------------------------------------------------------------
  // .length

  /** A character above U+FFFF, which a JavaScript string holds as two
      UTF-16 code units (a surrogate pair). */
  predicate IsAstral(c: char) {
    c as int > 0xFFFF
  }

  predicate NoAstral(s: string) {
    forall i :: 0 <= i < |s| ==> !IsAstral(s[i])
  }

  /** `s.length`: the number of UTF-16 code units, two for each character above U+FFFF. */
  function Length(s: string): (n: nat)
    ensures |s| <= n <= 2 * |s|
    ensures NoAstral(s) ==> n == |s|
  {
    if |s| == 0 then 0
    else
      assert NoAstral(s) ==> NoAstral(s[1..]) by {
        if NoAstral(s) {
          assert forall i :: 0 <= i < |s[1..]| ==> s[1..][i] == s[i + 1];
        }
      }
      (if IsAstral(s[0]) then 2 else 1) + Length(s[1..])
  }

  /** One character above U+FFFF has length 2. */
  lemma AstralLength(c: char)
    requires IsAstral(c)
    ensures Length([c]) == 2
  {
    assert [c][1..] == [];
  }

  // ---------------------------------------------------------------------
  // Digits

  /** The value of `c` as a digit in base `radix` (letters in either case), if it is one. */
  function DigitOf(c: char, radix: nat): Option<nat> {
    var v :=
      if '0' <= c <= '9' then c as int - '0' as int
      else if 'a' <= c <= 'z' then c as int - 'a' as int + 10
      else if 'A' <= c <= 'Z' then c as int - 'A' as int + 10
      else 36;
    if v < radix then Some(v) else None
  }

  predicate IsDigitIn(c: char, radix: nat) {
    DigitOf(c, radix).Some?
  }

  predicate AllDigits(s: string, radix: nat) {
    forall i :: 0 <= i < |s| ==> IsDigitIn(s[i], radix)
  }

  /** The number written by the digits `s` in base `radix`, most significant first. */
  function DigitsValue(s: string, radix: nat): nat
    requires AllDigits(s, radix)
    decreases |s|
  {
    if |s| == 0 then 0
    else DigitsValue(s[..|s| - 1], radix) * radix + DigitOf(s[|s| - 1], radix).value
  }

  /** The longest prefix of `s` made of base-`radix` digits. */
  function DigitPrefix(s: string, radix: nat): (p: string)
    ensures |p| <= |s| && p == s[..|p|]
    ensures AllDigits(p, radix)
    ensures |p| < |s| ==> !IsDigitIn(s[|p|], radix)
  {
    if |s| > 0 && IsDigitIn(s[0], radix) then [s[0]] + DigitPrefix(s[1..], radix) else []
  }

  /** The digit prefix of `a + b` is `a` itself when `a` is all digits and `b` does not start with one. */
  lemma {:induction false} DigitPrefixOfConcat(a: string, b: string, radix: nat)
    requires AllDigits(a, radix)
    requires |b| > 0 ==> !IsDigitIn(b[0], radix)
    ensures DigitPrefix(a + b, radix) == a
    decreases |a|
  {
    if |a| > 0 {
      assert (a + b)[0] == a[0];
      assert (a + b)[1..] == a[1..] + b;
      DigitPrefixOfConcat(a[1..], b, radix);
      assert [a[0]] + a[1..] == a;
    }
  }

  function DigitChar(d: nat): char
    requires d < 10
  {
    ('0' as int + d) as char
  }

  /** Decimal digits of `n` without leading zeros (`String(n)` for a natural number). */
  function NatToString(n: nat): (s: string)
    ensures |s| > 0 && AllDigits(s, 10)
    ensures |s| > 1 ==> s[0] != '0'
    decreases n
  {
    if n < 10 then [DigitChar(n)] else NatToString(n / 10) + [DigitChar(n % 10)]
  }

  /** Reading back the decimal digits of `n` gives `n`. */
  lemma {:induction false} NatToStringRoundTrip(n: nat)
    ensures DigitsValue(NatToString(n), 10) == n
  {
    var s := NatToString(n);
    if n >= 10 {
      NatToStringRoundTrip(n / 10);
      assert s[..|s| - 1] == NatToString(n / 10);
    }
  }

  /** `String(i)` for an integer `i`. */
  function IntToString(i: int): string {
    if i < 0 then "-" + NatToString(-i) else NatToString(i)
  }

  // ---------------------------------------------------------------------
  // Number(...)

  /** `m` times ten to the power `e`, one factor of ten at a time. */
  function Scale(m: real, e: int): real
    decreases if e < 0 then -e else e
  {
    if e == 0 then m
    else if e > 0 then 10.0 * Scale(m, e - 1)
    else Scale(m, e + 1) / 10.0
  }

  /** An optional exponent part `e[+-]digits` that must make up the whole of `s`. */
  function ExponentPart(s: string): Option<int> {
    if |s| == 0 then Some(0)
    else if s[0] != 'e' && s[0] != 'E' then None
    else
      var t := s[1..];
      var negative := |t| > 0 && t[0] == '-';
      var u := if |t| > 0 && (t[0] == '-' || t[0] == '+') then t[1..] else t;
      if |u| > 0 && AllDigits(u, 10) then
        var magnitude: int := DigitsValue(u, 10);
        Some(if negative then -magnitude else magnitude)
      else None
  }

  /** StrUnsignedDecimalLiteral: `Infinity`, `12`, `12.`, `12.5`, `.5`, each with an optional exponent. */
  function UnsignedDecimal(t: string): Number {
    if t == "Infinity" then Infinity(false)
    else
      var ip := DigitPrefix(t, 10);
      var rest := t[|ip|..];
      var hasDot := |rest| > 0 && rest[0] == '.';
      var fp := if hasDot then DigitPrefix(rest[1..], 10) else [];
      var tail := if hasDot then rest[1 + |fp|..] else rest;
      if |ip| + |fp| == 0 then NaN
      else
        match ExponentPart(tail)
        case None => NaN
        case Some(e) =>
          var mantissa := DigitsValue(ip, 10) as real + Scale(DigitsValue(fp, 10) as real, -|fp|);
          Finite(Scale(mantissa, e))
  }

  function Negate(n: Number): Number {
    match n
    case NaN => NaN
    case Infinity(neg) => Infinity(!neg)
    case Finite(x) => Finite(-x)
  }

  /** The base a `0x`, `0o` or `0b` prefix (either case) announces. */
  function RadixMark(c: char): Option<nat> {
    if c == 'x' || c == 'X' then Some(16)
    else if c == 'o' || c == 'O' then Some(8)
    else if c == 'b' || c == 'B' then Some(2)
    else None
  }

  /** `Number(s)` for a string: white space around the literal is ignored and
      the empty string is 0; `0x`/`0o`/`0b` literals carry no sign. */
  function StringToNumber(s: string): Number {
    var t := Trim(s);
    if |t| == 0 then Finite(0.0)
    else if |t| >= 2 && t[0] == '0' && RadixMark(t[1]).Some? then
      var radix := RadixMark(t[1]).value;
      var digits := t[2..];
      if |digits| > 0 && AllDigits(digits, radix) then Finite(DigitsValue(digits, radix) as real) else NaN
    else if t[0] == '-' then Negate(UnsignedDecimal(t[1..]))
    else if t[0] == '+' then UnsignedDecimal(t[1..])
    else UnsignedDecimal(t)
  }

  /** `Number(v)`, the numeric coercion behind `isNaN(v)` and relational comparison. */
  function ToNumber(v: Value): Number {
    match v
    case Undefined => NaN
    case Null => Finite(0.0)
    case Bool(b) => Finite(if b then 1.0 else 0.0)
    case Num(n) => n
    case Str(s) => StringToNumber(s)
    case Obj => NaN
  }

  /** An optional exponent part cannot end in the letter Z. */
  lemma ExponentPartEndingInZ(s: string)
    requires |s| > 0 && s[|s| - 1] == 'Z'
    ensures ExponentPart(s) == None
  {
    if s[0] == 'e' || s[0] == 'E' {
      var t := s[1..];
      var u := if |t| > 0 && (t[0] == '-' || t[0] == '+') then t[1..] else t;
      if |u| > 0 {
        assert u[|u| - 1] == 'Z';
        assert !IsDigitIn(u[|u| - 1], 10);
      }
    }
  }

  /** A run of digits at the front of `s` stops before a last character that
      is not a digit. */
  lemma DigitsStopBefore(p: string, s: string, radix: nat)
    requires AllDigits(p, radix) && |p| <= |s| && p == s[..|p|]
    requires |s| > 0 && !IsDigitIn(s[|s| - 1], radix)
    ensures |p| < |s|
  {
    assert forall i :: 0 <= i < |p| ==> IsDigitIn(s[i], radix) by {
      forall i | 0 <= i < |p| ensures IsDigitIn(s[i], radix) {
        assert s[i] == p[i];
      }
    }
  }

  /** No unsigned decimal literal ends in the letter Z. */
  lemma UnsignedDecimalEndingInZ(u: string)
    requires |u| > 0 && u[|u| - 1] == 'Z'
    ensures UnsignedDecimal(u) == NaN
  {
    assert u != "Infinity" by { assert "Infinity"[7] == 'y'; }
    var ip := DigitPrefix(u, 10);
    assert !IsDigitIn('Z', 10);
    DigitsStopBefore(ip, u, 10);
    var rest := u[|ip|..];
    assert rest[|rest| - 1] == 'Z';
    var hasDot := |rest| > 0 && rest[0] == '.';
    if hasDot {
      var r1 := rest[1..];
      assert |r1| > 0 && r1[|r1| - 1] == 'Z';
      var fp := DigitPrefix(r1, 10);
      DigitsStopBefore(fp, r1, 10);
      var tail := rest[1 + |fp|..];
      assert tail == r1[|fp|..];
      ExponentPartEndingInZ(tail);
    } else {
      ExponentPartEndingInZ(rest);
    }
  }

  /** Trimming a string whose last character is Z leaves a non-empty string
      that still ends in Z. */
  lemma TrimEndingInZ(s: string)
    requires |s| > 0 && s[|s| - 1] == 'Z'
    ensures |Trim(s)| > 0 && Trim(s)[|Trim(s)| - 1] == 'Z'
  {
    var t := TrimStart(s);
    assert !IsSpace('Z');
    assert !IsSpace(s[|s| - 1]);
    assert t[|t| - 1] == 'Z';
    assert TrimEnd(t) == t;
  }

  /** `Number(s)` is NaN for any string whose last character is Z, as every
      string produced by `toISOString()` is. */
  lemma NumberEndingInZ(s: string)
    requires |s| > 0 && s[|s| - 1] == 'Z'
    ensures StringToNumber(s) == NaN
  {
    var t := Trim(s);
    TrimEndingInZ(s);
    if |t| >= 2 && t[0] == '0' && RadixMark(t[1]).Some? {
      var radix := RadixMark(t[1]).value;
      assert !IsDigitIn('Z', radix);
      var digits := t[2..];
      assert |digits| > 0 ==> !IsDigitIn(digits[|digits| - 1], radix);
    } else if t[0] == '-' || t[0] == '+' {
      if |t| > 1 {
        UnsignedDecimalEndingInZ(t[1..]);
      }
    } else {
      UnsignedDecimalEndingInZ(t);
    }
  }

  /** `Number(s)` is NaN for a word: a string that starts with a lower-case
      letter and does not end in white space. */
  lemma WordIsNaN(s: string)
    requires |s| > 0 && 'a' <= s[0] <= 'z' && !IsSpace(s[|s| - 1])
    ensures StringToNumber(s) == NaN
  {
    WordIsTrimmed(s);
    WordIsNotDecimal(s);
    assert s[0] != '0' && s[0] != '-' && s[0] != '+';
  }

  lemma WordIsTrimmed(s: string)
    requires |s| > 0 && 'a' <= s[0] <= 'z' && !IsSpace(s[|s| - 1])
    ensures Trim(s) == s
  {
    LetterStartIsTrimmed(s);
  }

  lemma WordIsNotDecimal(t: string)
    requires |t| > 0 && 'a' <= t[0] <= 'z'
    ensures UnsignedDecimal(t) == NaN
  {
    assert t != "Infinity" by { assert "Infinity"[0] == 'I'; }
    assert DigitPrefix(t, 10) == [] by { assert !IsDigitIn(t[0], 10); }
    assert t[0..] == t;
  }

  /** A decimal digit is not white space. */
  lemma DigitIsNotSpace(c: char)
    requires IsDigitIn(c, 10)
    ensures !IsSpace(c) && RadixMark(c).None? && c != '-' && c != '+'
  {
    assert '0' <= c <= '9';
  }

  lemma DigitStartIsNotInfinity(t: string)
    requires |t| > 0 && IsDigitIn(t[0], 10)
    ensures t != "Infinity"
  {
    assert !IsDigitIn("Infinity"[0], 10);
  }

  /** A run of decimal digits reads as the number it writes. */
  lemma UnsignedDecimalOfDigits(t: string)
    requires |t| > 0 && AllDigits(t, 10)
    ensures UnsignedDecimal(t) == Finite(DigitsValue(t, 10) as real)
  {
    DigitStartIsNotInfinity(t);
    DigitPrefixOfConcat(t, [], 10);
    assert t + [] == t;
    WholeDecimal(t, DigitsValue(t, 10) as real);
  }

  /** The value of a literal that is all integer part. */
  lemma WholeDecimal(t: string, v: real)
    requires t != "Infinity" && |t| > 0 && DigitPrefix(t, 10) == t && v == DigitsValue(t, 10) as real
    ensures UnsignedDecimal(t) == Finite(v)
  {
    var rest := t[|t|..];
    assert rest == [];
    assert ExponentPart(rest) == Some(0);
    assert DigitsValue([], 10) == 0;
  }

  /** Digits followed by `-` or `T` do not form a decimal literal. */
  lemma UnsignedDecimalStopped(t: string, k: nat)
    requires 0 < k < |t| && AllDigits(t[..k], 10) && (t[k] == '-' || t[k] == 'T')
    ensures UnsignedDecimal(t) == NaN
  {
    assert IsDigitIn(t[..k][0], 10);
    DigitStartIsNotInfinity(t);
    assert t == t[..k] + t[k..];
    assert !IsDigitIn(t[k], 10);
    DigitPrefixOfConcat(t[..k], t[k..], 10);
  }

  /** `Number(s)` of a run of decimal digits is the number they write. */
  lemma NumberOfNumeral(s: string)
    requires |s| > 0 && AllDigits(s, 10)
    ensures StringToNumber(s) == Finite(DigitsValue(s, 10) as real)
  {
    DigitIsNotSpace(s[0]);
    DigitIsNotSpace(s[|s| - 1]);
    TrimmedAlready(s);
    if |s| >= 2 {
      DigitIsNotSpace(s[1]);
    }
    UnsignedDecimalOfDigits(s);
  }

  /** `Number(s)` of a sign followed by decimal digits. */
  lemma NumberOfSignedNumeral(s: string)
    requires |s| > 1 && (s[0] == '+' || s[0] == '-') && AllDigits(s[1..], 10)
    ensures var n := DigitsValue(s[1..], 10) as real;
            StringToNumber(s) == Finite(if s[0] == '-' then -n else n)
  {
    assert IsDigitIn(s[1..][|s| - 2], 10);
    DigitIsNotSpace(s[|s| - 1]);
    TrimmedAlready(s);
    UnsignedDecimalOfDigits(s[1..]);
  }

  /** `Number(s)` is NaN when the digits at the start of `s` (after an
      optional sign) are followed by `-` or `T`, as in a date string. */
  lemma NumberOfStoppedNumeral(s: string, k: nat)
    requires var j := if |s| > 0 && (s[0] == '+' || s[0] == '-') then 1 else 0;
             j < k < |s| && AllDigits(s[j..k], 10)
    requires s[k] == '-' || s[k] == 'T'
    ensures StringToNumber(s) == NaN
  {
    if s[0] == '+' || s[0] == '-' {
      SignedNumeralStopped(s, k);
    } else {
      UnsignedNumeralStopped(s, k);
    }
  }

  lemma SignedNumeralStopped(s: string, k: nat)
    requires 1 < k < |s| && (s[0] == '+' || s[0] == '-') && AllDigits(s[1..k], 10)
    requires s[k] == '-' || s[k] == 'T'
    ensures StringToNumber(s) == NaN
  {
    var j := TrimmedPrefix(s, k);
    var t := s[..j];
    assert t[1..][..k - 1] == s[1..k];
    assert t[1..][k - 1] == s[k];
    UnsignedDecimalStopped(t[1..], k - 1);
    assert t[0] == s[0];
  }

  lemma UnsignedNumeralStopped(s: string, k: nat)
    requires 0 < k < |s| && AllDigits(s[..k], 10)
    requires s[k] == '-' || s[k] == 'T'
    ensures StringToNumber(s) == NaN
  {
    assert IsDigitIn(s[..k][0], 10);
    DigitIsNotSpace(s[0]);
    var j := TrimmedPrefix(s, k);
    var t := s[..j];
    assert t[..k] == s[..k];
    if k >= 2 {
      assert IsDigitIn(s[..k][1], 10);
      DigitIsNotSpace(s[1]);
    }
    assert RadixMark(t[1]).None?;
    UnsignedDecimalStopped(t, k);
  }

  /** Trimming a string that starts with a non-blank keeps a prefix of it,
      through every non-blank character. */
  lemma TrimmedPrefix(s: string, k: nat) returns (j: nat)
    requires k < |s| && !IsSpace(s[0]) && !IsSpace(s[k])
    ensures k < j <= |s| && Trim(s) == s[..j]
  {
    var i: nat;
    i, j := TrimCuts(s);
    assert SliceAt(s, Trim(s), i, j);
  }

  /** `trim()` leaves alone a string that neither starts nor ends with white space. */
  lemma TrimmedAlready(s: string)
    requires |s| > 0 && !IsSpace(s[0]) && !IsSpace(s[|s| - 1])
    ensures Trim(s) == s
  {
    assert TrimStart(s) == s;
  }

  /** The global `isNaN(v)`. */
  predicate IsNaN(v: Value) {
    ToNumber(v).NaN?
  }

  // ---------------------------------------------------------------------
  // String(...)

  /** Up to `count` decimal digits of the fraction `f`, dropping trailing zeros. */
  function FractionDigits(f: real, count: nat): string
    requires 0.0 <= f < 1.0
    decreases count
  {
    if count == 0 || f == 0.0 then ""
    else
      var d := (f * 10.0).Floor;
      [DigitChar(d)] + FractionDigits(f * 10.0 - d as real, count - 1)
  }

  /** The part of `String(x)` after the integer digits: empty for a whole
      number, otherwise a '.' and the fraction digits. */
  function FractionSuffix(f: real): (r: string)
    requires 0.0 <= f < 1.0
    ensures |r| == 0 || r[0] == '.'
  {
    if f == 0.0 then "" else "." + FractionDigits(f, 20)
  }

  /** The digits of the integer part of `x`, then its fraction. */
  function PlainToString(x: real): string
    requires x >= 0.0
  {
    NatToString(x.Floor) + FractionSuffix(x - x.Floor as real)
  }

  /** The magnitudes `String(x)` writes without an exponent: zero, and
      everything from 10^-6 up to, but not including, 10^21. */
  predicate IsPlainMagnitude(y: real) {
    y == 0.0 || 0.000001 <= y < 1000000000000000000000.0
  }

  /** `y` as `m` times ten to the power `e`, with `m` in [1, 10), for y >= 1. */
  function LargeDecade(y: real): (r: (real, nat))
    requires y >= 1.0
    ensures 1.0 <= r.0 < 10.0
    decreases y.Floor
  {
    if y < 10.0 then (y, 0)
    else
      var (m, e) := LargeDecade(y / 10.0);
      (m, e + 1)
  }

  /** `y` as `m` times ten to the power `-e`, with `m` in [1, 10), for 0 < y < 1. */
  function SmallDecade(y: real): (r: (real, nat))
    requires 0.0 < y < 1.0
    ensures 1.0 <= r.0 < 10.0 && r.1 >= 1
    decreases (1.0 / y).Floor
  {
    var z := y * 10.0;
    if z >= 1.0 then (z, 1)
    else
      assert 1.0 / z == (1.0 / y) / 10.0;
      var (m, e) := SmallDecade(z);
      (m, e + 1)
  }

  /** The decade is exact: the mantissa times ten to the exponent gives `y` back. */
  lemma {:induction false} LargeDecadeScales(y: real)
    requires y >= 1.0
    ensures Scale(LargeDecade(y).0, LargeDecade(y).1) == y
    decreases y.Floor
  {
    if y >= 10.0 {
      LargeDecadeScales(y / 10.0);
    }
  }

  lemma {:induction false} SmallDecadeScales(y: real)
    requires 0.0 < y < 1.0
    ensures Scale(SmallDecade(y).0, -(SmallDecade(y).1 as int)) == y
    decreases (1.0 / y).Floor
  {
    var z := y * 10.0;
    if z < 1.0 {
      assert 1.0 / z == (1.0 / y) / 10.0;
      SmallDecadeScales(z);
    }
  }

  /** Exponent notation: the mantissa in plain decimal, an `e`, the sign and the exponent's digits. */
  function ExponentToString(m: real, e: int): (r: string)
    requires 1.0 <= m < 10.0
  {
    PlainToString(m) + ExponentTail(e)
  }

  /** The exponent part of exponent notation: `e`, the sign and the digits. */
  function ExponentTail(e: int): (r: string)
    ensures |r| > 0 && r[0] == 'e'
  {
    if e < 0 then "e-" + NatToString(-e) else "e+" + NatToString(e)
  }

  /** `String(x)` for a finite non-negative number: plain decimal, or
      exponent notation outside [10^-6, 10^21). */
  function NonNegativeToString(x: real): string
    requires x >= 0.0
  {
    if IsPlainMagnitude(x) then PlainToString(x)
    else if x >= 1.0 then ExponentToString(LargeDecade(x).0, LargeDecade(x).1)
    else ExponentToString(SmallDecade(x).0, -(SmallDecade(x).1 as int))
  }

  /** The integer before the first '.' or 'e' of `String(y)`: the integer
      part of a plain magnitude, the mantissa's one digit otherwise. */
  function LeadingInteger(y: real): nat
    requires y >= 0.0
  {
    if IsPlainMagnitude(y) then y.Floor
    else if y >= 1.0 then LargeDecade(y).0.Floor
    else SmallDecade(y).0.Floor
  }

  /** `String(n)`: integers print as their decimal digits, fractions after a '.'. */
  function NumberToString(n: Number): string {
    match n
    case NaN => "NaN"
    case Infinity(neg) => if neg then "-Infinity" else "Infinity"
    case Finite(x) => if x < 0.0 then "-" + NonNegativeToString(-x) else NonNegativeToString(x)
  }

  /** The conversion a template literal `${v}` applies. */
  function ToString(v: Value): string {
    match v
    case Undefined => "undefined"
    case Null => "null"
    case Bool(b) => if b then "true" else "false"
    case Num(n) => NumberToString(n)
    case Str(s) => s
    case Obj => "[object Object]"
  }

  /** `s.padStart(width, fill)` for a one-character filler. */
  function PadStart(s: string, width: nat, fill: char): (r: string)
    ensures |r| == if |s| < width then width else |s|
    ensures r[|r| - |s|..] == s
    ensures forall i :: 0 <= i < |r| - |s| ==> r[i] == fill
    decreases width
  {
    if |s| >= width then s else [fill] + PadStart(s, width - 1, fill)
  }

  // ---------------------------------------------------------------------
  // parseInt(...)

  /** The number written by the leading base-`radix` digits of `s`, if there is at least one. */
  function LeadingDigits(s: string, radix: nat): Option<nat> {
    var d := DigitPrefix(s, radix);
    if |d| == 0 then None else Some(DigitsValue(d, radix))
  }

  /** The unsigned part of `parseInt`: hexadecimal after `0x`/`0X`, decimal otherwise. */
  function ParseUnsigned(body: string): Option<nat> {
    if |body| >= 2 && body[0] == '0' && (body[1] == 'x' || body[1] == 'X') then LeadingDigits(body[2..], 16)
    else LeadingDigits(body, 10)
  }

  /** `parseInt(s)` with no radix: leading white space, an optional sign, then
      the longest run of decimal digits (hexadecimal after `0x`); NaN (None)
      when there is no digit at all. */
  function ParseIntString(s: string): Option<int> {
    var t := TrimStart(s);
    if |t| > 0 && t[0] == '-' then
      match ParseUnsigned(t[1..])
      case None => None
      case Some(m) => Some(-(m as int))
    else if |t| > 0 && t[0] == '+' then ParseUnsigned(t[1..])
    else ParseUnsigned(t)
  }

  /** `parseInt(v)`: the argument is first converted to a string. */
  function ParseInt(v: Value): Option<int> {
    ParseIntString(ToString(v))
  }

  /** `parseInt` reads no number from a word: a string that starts with a lower-case letter. */
  lemma ParseIntOfWord(s: string)
    requires |s| > 0 && 'a' <= s[0] <= 'z'
    ensures ParseIntString(s) == None
  {
    LetterStartIsTrimmed(s);
    LetterStartHasNoDigits(s);
    assert s[0] != '-' && s[0] != '+' && s[0] != '0';
  }

  lemma LetterStartIsTrimmed(s: string)
    requires |s| > 0 && 'a' <= s[0] <= 'z'
    ensures TrimStart(s) == s
  {
    assert !IsSpace(s[0]);
  }

  lemma LetterStartHasNoDigits(s: string)
    requires |s| > 0 && 'a' <= s[0] <= 'z'
    ensures LeadingDigits(s, 10) == None
  {
    assert !IsDigitIn(s[0], 10);
  }

  /** The integer part of `x`, rounding toward zero. */
  function Truncate(x: real): int {
    if x >= 0.0 then x.Floor else -((-x).Floor)
  }

  /** `parseInt` reads back a decimal numeral, with or without a minus sign,
      that is followed by nothing or by a fraction part. */
  lemma ParseIntOfNegativeNumeral(k: nat, rest: string)
    requires |rest| == 0 || rest[0] == '.' || rest[0] == 'e'
    ensures ParseIntString("-" + (NatToString(k) + rest)) == Some(-(k as int))
  {
    UnsignedNumeral(k, rest);
    ParseIntSigned(NatToString(k) + rest, k);
  }

  lemma ParseIntOfNumeral(k: nat, rest: string)
    requires |rest| == 0 || rest[0] == '.' || rest[0] == 'e'
    ensures ParseIntString(NatToString(k) + rest) == Some(k as int)
  {
    var body := NatToString(k) + rest;
    UnsignedNumeral(k, rest);
    DecimalDigitRange(NatToString(k)[0]);
    assert body[0] == NatToString(k)[0];
    ParseIntUnsigned(body);
  }

  /** A minus sign negates what the unsigned reader reads after it. */
  lemma ParseIntSigned(body: string, m: nat)
    requires ParseUnsigned(body) == Some(m)
    ensures ParseIntString("-" + body) == Some(-(m as int))
  {
    var s := "-" + body;
    TrimStartNoSpace(s);
    assert s[1..] == body;
  }

  lemma ParseIntUnsigned(body: string)
    requires |body| > 0 && '0' <= body[0] <= '9'
    ensures ParseIntString(body) == ParseUnsigned(body)
  {
    TrimStartNoSpace(body);
  }

  lemma TrimStartNoSpace(s: string)
    requires |s| > 0 && (s[0] == '-' || '0' <= s[0] <= '9')
    ensures TrimStart(s) == s
  {
    assert !IsSpace(s[0]);
  }

  lemma DecimalDigitRange(c: char)
    requires IsDigitIn(c, 10)
    ensures '0' <= c <= '9'
  {
  }

  /** The unsigned reader reads back a decimal numeral followed by nothing or a fraction part. */
  lemma UnsignedNumeral(k: nat, rest: string)
    requires |rest| == 0 || rest[0] == '.' || rest[0] == 'e'
    ensures ParseUnsigned(NatToString(k) + rest) == Some(k)
  {
    var digits := NatToString(k);
    var b := digits + rest;
    assert DigitOf('.', 10).None? && DigitOf('e', 10).None? && DigitOf('x', 10).None? && DigitOf('X', 10).None?;
    assert !(|b| >= 2 && b[0] == '0' && (b[1] == 'x' || b[1] == 'X')) by {
      if |b| >= 2 && b[0] == '0' {
        assert b[0] == digits[0];
        assert |digits| == 1;
        assert b[1] == rest[0];
      }
    }
    DigitPrefixOfConcat(digits, rest, 10);
    NatToStringRoundTrip(k);
  }

  /** The integer `parseInt` reads from `String(x)`: `x` truncated toward zero
      when it prints in plain decimal, and otherwise the signed leading digit
      of its exponent notation. */
  function IntegerPrefix(x: real): int {
    if x < 0.0 then -(LeadingInteger(-x) as int) else LeadingInteger(x)
  }

  /** In plain decimal the integer prefix is `x` truncated toward zero; in
      exponent notation it is one digit, carrying the sign of `x`. */
  lemma IntegerPrefixRange(x: real)
    ensures IsPlainMagnitude(if x < 0.0 then -x else x) ==> IntegerPrefix(x) == Truncate(x)
    ensures !IsPlainMagnitude(if x < 0.0 then -x else x) ==>
              if x < 0.0 then -9 <= IntegerPrefix(x) <= -1 else 1 <= IntegerPrefix(x) <= 9
  {
    if x < 0.0 {
      var y := -x;
      NegativePrefix(x, y);
      if !IsPlainMagnitude(y) {
        assert 1 <= LeadingInteger(y) <= 9 by { MantissaDigit(y); }
      }
    } else if !IsPlainMagnitude(x) {
      MantissaDigit(x);
    }
  }

  /** In exponent notation the leading integer is the mantissa's one digit. */
  lemma MantissaDigit(y: real)
    requires y >= 0.0 && !IsPlainMagnitude(y)
    ensures 1 <= LeadingInteger(y) <= 9
  {
  }

  /** `parseInt` of a number reads the leading integer of its string form:
      `parseInt(2.9) == 2` and `parseInt(-2.9) == -2` truncate toward zero,
      while `parseInt(5e-7) == 5` and `parseInt(1e21) == 1`. */
  lemma ParseIntOfFinite(x: real)
    ensures ParseInt(Num(Finite(x))) == Some(IntegerPrefix(x))
    ensures IsPlainMagnitude(if x < 0.0 then -x else x) ==> ParseInt(Num(Finite(x))) == Some(Truncate(x))
  {
    IntegerPrefixRange(x);
    if x < 0.0 {
      ParseIntOfNegative(x);
    } else {
      ParseIntOfNonNegative(x);
    }
  }

  /** `String(x)` of a negative number: a minus sign, then its magnitude. */
  lemma NegativeToString(x: real, y: real)
    requires x < 0.0 && y == -x
    ensures ToString(Num(Finite(x))) == "-" + NonNegativeToString(y)
  {
    assert ToString(Num(Finite(x))) == NumberToString(Finite(x));
    assert NumberToString(Finite(x)) == "-" + NonNegativeToString(-x);
  }

  /** `String(x)` of a non-negative number: the digits of its integer part, then its fraction. */
  lemma NonNegativeToStringOf(x: real)
    requires x >= 0.0
    ensures ToString(Num(Finite(x))) == NonNegativeToString(x)
  {
  }

  /** `String(y)` is the digits of its leading integer followed by nothing,
      a fraction or an exponent. */
  lemma MagnitudeDigits(y: real) returns (k: nat, r: string)
    requires y >= 0.0
    ensures k == LeadingInteger(y) && (|r| == 0 || r[0] == '.' || r[0] == 'e')
    ensures NonNegativeToString(y) == NatToString(k) + r
  {
    if IsPlainMagnitude(y) {
      k := y.Floor;
      r := FractionSuffix(y - k as real);
      assert NonNegativeToString(y) == PlainToString(y) && LeadingInteger(y) == k;
    } else if y >= 1.0 {
      var d := LargeDecade(y);
      assert NonNegativeToString(y) == ExponentToString(d.0, d.1) && LeadingInteger(y) == d.0.Floor;
      k, r := ExponentDigits(d.0, d.1);
    } else {
      var d := SmallDecade(y);
      assert NonNegativeToString(y) == ExponentToString(d.0, -(d.1 as int)) && LeadingInteger(y) == d.0.Floor;
      k, r := ExponentDigits(d.0, -(d.1 as int));
    }
  }

  /** Exponent notation starts with the mantissa's one digit, then a fraction or the exponent. */
  lemma ExponentDigits(m: real, e: int) returns (k: nat, r: string)
    requires 1.0 <= m < 10.0
    ensures k == m.Floor && |r| > 0 && (r[0] == '.' || r[0] == 'e')
    ensures ExponentToString(m, e) == NatToString(k) + r
  {
    k := m.Floor;
    var f := FractionSuffix(m - k as real);
    r := f + ExponentTail(e);
    SuffixHead(NatToString(k), f, ExponentTail(e));
  }

  /** A fraction (possibly empty) followed by an exponent starts with `.` or `e`. */
  lemma SuffixHead(a: string, f: string, t: string)
    requires |f| == 0 || f[0] == '.'
    requires |t| > 0 && t[0] == 'e'
    ensures (a + f) + t == a + (f + t)
    ensures |f + t| > 0 && ((f + t)[0] == '.' || (f + t)[0] == 'e')
  {
  }

  /** `parseInt(v)` is read off the string `v` converts to. */
  lemma ParseIntVia(v: Value, s: string)
    requires ToString(v) == s
    ensures ParseInt(v) == ParseIntString(s)
  {
  }

  /** The unsigned part of `parseInt` reads the integer part of a magnitude. */
  lemma MagnitudeUnsigned(y: real) returns (k: nat)
    requires y >= 0.0
    ensures k == LeadingInteger(y) && ParseUnsigned(NonNegativeToString(y)) == Some(k)
  {
    var r;
    k, r := MagnitudeDigits(y);
    UnsignedNumeral(k, r);
  }

  lemma ParseIntOfNegative(x: real)
    requires x < 0.0
    ensures ParseInt(Num(Finite(x))).Some? && ParseInt(Num(Finite(x))).value == IntegerPrefix(x)
  {
    var y := -x;
    var k := NegativeMagnitude(x, y);
    NegativePrefix(x, y);
  }

  lemma NegativePrefix(x: real, y: real)
    requires x < 0.0 && y == -x
    ensures IntegerPrefix(x) == -(LeadingInteger(y) as int)
  {
  }

  /** `parseInt` of a negative number, with its magnitude `y` named. */
  lemma NegativeMagnitude(x: real, y: real) returns (k: nat)
    requires x < 0.0 && y == -x
    ensures k == LeadingInteger(y) && ParseInt(Num(Finite(x))) == Some(-(k as int))
  {
    NegativeToString(x, y);
    k := MinusMagnitudeParses(y);
    ParseIntVia(Num(Finite(x)), "-" + NonNegativeToString(y));
  }

  /** A minus sign before the string of a magnitude parses to minus its integer part. */
  lemma MinusMagnitudeParses(y: real) returns (k: nat)
    requires y >= 0.0
    ensures k == LeadingInteger(y) && ParseIntString("-" + NonNegativeToString(y)) == Some(-(k as int))
  {
    k := MagnitudeUnsigned(y);
    ParseIntSigned(NonNegativeToString(y), k);
  }

  lemma ParseIntOfNonNegative(x: real)
    requires x >= 0.0
    ensures ParseInt(Num(Finite(x))) == Some(IntegerPrefix(x))
  {
    var k, r := MagnitudeDigits(x);
    NonNegativeToStringOf(x);
    ParseIntVia(Num(Finite(x)), NatToString(k) + r);
    ParseIntOfNumeral(k, r);
  }

  // ---------------------------------------------------------------------
  // toLowerCase()

  /** Lower-cases ASCII letters and leaves every other character alone. */
  function ToLower(s: string): (r: string)
    ensures |r| == |s|
    ensures forall i :: 0 <= i < |s| ==> !('A' <= r[i] <= 'Z')
    ensures forall i :: 0 <= i < |s| ==> ('A' <= s[i] <= 'Z' || r[i] == s[i])
    ensures forall i :: 0 <= i < |s| && 'A' <= s[i] <= 'Z' ==> r[i] == (s[i] as int + 32) as char
    decreases |s|
  {
    if |s| == 0 then ""
    else
      var c := s[0];
      var d := if 'A' <= c <= 'Z' then (c as int - 'A' as int + 'a' as int) as char else c;
      [d] + ToLower(s[1..])
  }
}

=== FILE: main_page.dfy ===
/** The floor plan's main page: the row of evening time slots, and the
    add-table form with its validators and suggested table number. */
module MainPage {
  import opened Wrappers
  import Js
  import Dates
  import TableRoutes

  // ---------------------------------------------------------------------
  // Time slots

  /** How many slots the page offers. */
  const SlotCount: nat := 21

  /** The slot selected when the page opens. */
  const InitialSlot: nat := 0

  /** Minutes after midnight of slot `i`: every quarter hour from 17:00. */
  function SlotMinutes(i: nat): (m: nat)
    ensures m >= 17 * 60 && (m - 17 * 60) % 15 == 0
    ensures i < SlotCount ==> m <= 22 * 60
  {
    17 * 60 + i * 15
  }

  /** The hour on a twelve-hour dial: cut by twelve only above 12, so midnight is 0. */
  function Hour12(hours: nat): nat {
    if hours > 12 then hours - 12 else hours
  }

  /** "pm" from noon on. */
  function Period(hours: nat): string {
    if hours >= 12 then "pm" else "am"
  }

  /** `${hour12}:${minutes.toString().padStart(2, "0")}${period}`. */
  function Label(hour12: nat, minutes: nat, period: string): string {
    Js.NatToString(hour12) + (":" + (Js.PadStart(Js.NatToString(minutes), 2, '0') + period))
  }

  /** The label of a time of day given in minutes after midnight. */
  function ClockLabel(total: nat): string
    requires total < 24 * 60
  {
    Label(Hour12(total / 60), total % 60, Period(total / 60))
  }

  /** The value of a decimal digit character. */
  function DigitValue(c: char): nat
    requires Js.IsDigitIn(c, 10)
  {
    Js.DigitOf(c, 10).value
  }

  /** The parts of a label: its hour digits, its two minute digits and the
      first letter of its period, or None when `s` is not shaped like one. */
  function LabelFields(s: string): (r: Option<(string, char, char, char)>)
    ensures r.Some? ==> Js.AllDigits(r.value.0, 10) && Js.IsDigitIn(r.value.1, 10) && Js.IsDigitIn(r.value.2, 10)
  {
    var hs := Js.DigitPrefix(s, 10);
    var n := |hs|;
    if n == 0 || |s| != n + 5 || s[n] != ':' || !Js.IsDigitIn(s[n + 1], 10) || !Js.IsDigitIn(s[n + 2], 10)
       || (s[n + 3] != 'a' && s[n + 3] != 'p') || s[n + 4] != 'm' then None
    else Some((hs, s[n + 1], s[n + 2], s[n + 3]))
  }

  /** Minutes after midnight of `h:m` in the morning (`p` is 'a') or the afternoon. */
  function DayMinutes(h: nat, p: char, m: nat): nat {
    (if p == 'a' then h else if h == 12 then 12 else h + 12) * 60 + m
  }

  /** Reads a label back to minutes after midnight. */
  function ReadLabel(s: string): Option<nat> {
    match LabelFields(s)
    case None => None
    case Some((hs, a, b, p)) => Some(DayMinutes(Js.DigitsValue(hs, 10), p, DigitValue(a) * 10 + DigitValue(b)))
  }

  /** Where the parts of `a:bc` sit. */
  lemma Slices(a: string, b: string, c: string)
    ensures var s := a + (":" + (b + c));
            && |s| == |a| + 1 + |b| + |c| && s[|a|] == ':'
            && s[|a| + 1..|a| + 1 + |b|] == b && s[|a| + 1 + |b|..] == c
  {
  }

  /** A string shaped like a label splits into its hour digits, minute digits and period. */
  lemma ReadShaped(hs: string, mm: string, p: char)
    requires |hs| > 0 && Js.AllDigits(hs, 10) && |mm| == 2 && Js.AllDigits(mm, 10)
    requires p == 'a' || p == 'p'
    ensures LabelFields(hs + (":" + (mm + [p, 'm']))) == Some((hs, mm[0], mm[1], p))
  {
    var s := hs + (":" + (mm + [p, 'm']));
    assert Js.DigitPrefix(s, 10) == hs by {
      assert !Js.IsDigitIn(':', 10);
      Js.DigitPrefixOfConcat(hs, ":" + (mm + [p, 'm']), 10);
    }
    var n := |hs|;
    assert s[n + 1] == mm[0] && s[n + 2] == mm[1] && s[n + 3] == p && s[n + 4] == 'm';
  }

  /** Two padded digits read as the number they pad. */
  lemma TwoDigitValue(m: nat)
    requires m < 100
    ensures var mm := Dates.Pad(m, 2); DigitValue(mm[0]) * 10 + DigitValue(mm[1]) == m
  {
    Dates.PadValue(m, 2);
    var mm := Dates.Pad(m, 2);
    assert mm[..1] == [mm[0]] && mm[..1][..0] == [];
  }

  /** Reading a string whose parts are known. */
  lemma ReadFields(s: string, hs: string, a: char, b: char, p: char)
    requires LabelFields(s) == Some((hs, a, b, p))
    ensures Js.AllDigits(hs, 10) && Js.IsDigitIn(a, 10) && Js.IsDigitIn(b, 10)
    ensures ReadLabel(s) == Some(DayMinutes(Js.DigitsValue(hs, 10), p, DigitValue(a) * 10 + DigitValue(b)))
  {
  }

  /** The parts of a label read back as written: `p` is the first letter of its period. */
  lemma LabelParts(hour12: nat, minutes: nat, p: char)
    requires minutes < 60 && (p == 'a' || p == 'p')
    ensures ReadLabel(Label(hour12, minutes, [p, 'm'])) == Some(DayMinutes(hour12, p, minutes))
  {
    var hs := Js.NatToString(hour12);
    var mm := Dates.Pad(minutes, 2);
    var s := hs + (":" + (mm + [p, 'm']));
    assert ReadLabel(s) == Some(DayMinutes(hour12, p, minutes)) by {
      ReadShaped(hs, mm, p);
      ReadFields(s, hs, mm[0], mm[1], p);
      TwoDigitValue(minutes);
      Js.NatToStringRoundTrip(hour12);
    }
    assert Label(hour12, minutes, [p, 'm']) == s by {
      Dates.TwoDigits(minutes);
    }
  }

  /** The first letter of the period of `hours`. */
  function PeriodLetter(hours: nat): (c: char)
    ensures Period(hours) == [c, 'm']
  {
    if hours >= 12 then 'p' else 'a'
  }

  /** The twelve-hour dial and the period give back the time of day. */
  lemma ClockMinutes(total: nat)
    requires total < 24 * 60
    ensures DayMinutes(Hour12(total / 60), PeriodLetter(total / 60), total % 60) == total
  {
    assert total == total / 60 * 60 + total % 60;
  }

  /** Every label reads back as the time it was made from, so distinct times
      have distinct labels. */
  lemma LabelRoundTrip(total: nat)
    requires total < 24 * 60
    ensures ReadLabel(ClockLabel(total)) == Some(total)
  {
    var hours, minutes := total / 60, total % 60;
    var p := PeriodLetter(hours);
    LabelParts(Hour12(hours), minutes, p);
    ClockMinutes(total);
  }

  /** A label ends with its period. */
  lemma LabelPeriod(hour12: nat, minutes: nat, period: string)
    ensures var s := Label(hour12, minutes, period);
            |s| >= |period| && s[|s| - |period|..] == period
  {
    var s := Label(hour12, minutes, period);
    var head := Js.NatToString(hour12) + ":" + Js.PadStart(Js.NatToString(minutes), 2, '0');
    assert s == head + period;
  }

  /** The labels of the slot buttons. */
  function Times(): (r: seq<string>)
    ensures |r| == SlotCount
    ensures forall i :: 0 <= i < |r| ==> r[i] == ClockLabel(SlotMinutes(i))
  {
    seq(SlotCount, i requires 0 <= i < SlotCount => ClockLabel(SlotMinutes(i)))
  }

  /** Each slot label reads back as its slot's time. */
  lemma SlotLabelReadsBack(i: nat)
    requires i < SlotCount
    ensures ReadLabel(Times()[i]) == Some(SlotMinutes(i))
  {
    LabelRoundTrip(SlotMinutes(i));
  }

  /** No two slots share a label. */
  lemma SlotLabelsDistinct(i: nat, j: nat)
    requires i < SlotCount && j < SlotCount && i != j
    ensures Times()[i] != Times()[j]
  {
    SlotLabelReadsBack(i);
    SlotLabelReadsBack(j);
  }

  /** Every slot is an evening slot. */
  lemma SlotLabelsPm(i: nat)
    requires i < SlotCount
    ensures var s := Times()[i]; |s| >= 2 && s[|s| - 2..] == "pm"
  {
    var m := SlotMinutes(i);
    assert m / 60 >= 12;
    LabelPeriod(Hour12(m / 60), m % 60, Period(m / 60));
  }

  /** Consecutive slots are a quarter hour apart, from 5:00pm to 10:00pm. */
  lemma SlotsStepByQuarterHours(i: nat)
    requires i + 1 < SlotCount
    ensures SlotMinutes(i + 1) == SlotMinutes(i) + 15
    ensures SlotMinutes(0) == 17 * 60 && SlotMinutes(SlotCount - 1) == 22 * 60
  {
  }

  /** Zero minutes are written "00". */
  lemma ZeroMinutes()
    ensures Js.PadStart(Js.NatToString(0), 2, '0') == "00"
  {
    assert Js.NatToString(0) == "0";
    assert Js.PadStart("0", 1, '0') == "0";
  }

  /** Five o'clock on the hour, in the afternoon. */
  lemma FiveLabel()
    ensures Label(5, 0, "pm") == "5:00pm"
  {
    assert Js.NatToString(5) == "5";
    ZeroMinutes();
  }

  /** Ten o'clock on the hour, in the afternoon. */
  lemma TenLabel()
    ensures Label(10, 0, "pm") == "10:00pm"
  {
    assert Js.NatToString(10) == "10" by {
      assert Js.NatToString(1) == "1" && Js.NatToString(0) == "0";
    }
    ZeroMinutes();
  }

  /** The slot that starts selected reads "5:00pm". */
  lemma FirstLabel()
    ensures Times()[InitialSlot] == "5:00pm"
  {
    assert SlotMinutes(0) / 60 == 17 && SlotMinutes(0) % 60 == 0;
    FiveLabel();
  }

  /** The last slot reads "10:00pm". */
  lemma LastLabel()
    ensures Times()[SlotCount - 1] == "10:00pm"
  {
    assert SlotMinutes(20) / 60 == 22 && SlotMinutes(20) % 60 == 0;
    TenLabel();
  }

  // ---------------------------------------------------------------------
  // The add-table form

  /** The form's fields; only `tableNum`, `maxCapacity` and `comments` have
      inputs, `numberTables` keeps its initial value. */
  datatype TableValues = TableValues(tableNum: Js.Value, maxCapacity: Js.Value, numberTables: Js.Value, comments: string)

  const TableNumNotPositive: string := "Table number must be positive"
  const CapacityNotPositive: string := "Table capacity must be positive"
  const CountNotPositive: string := "Must create a positive number of tables"

  function InitialTable(): TableValues {
    TableValues(Js.Num(Js.Finite(1.0)), Js.Num(Js.Finite(2.0)), Js.Num(Js.Finite(1.0)), "")
  }

  /** `value.valueOf() < 1 ? message : null`. */
  function PositiveError(v: Js.Value, message: string): (r: Option<string>)
    ensures v.Num? && v.n.Finite? ==> (r.None? <==> v.n.value >= 1.0)
    ensures r.Some? ==> r.value == message
  {
    if Js.LessThan(Js.ToNumber(v), Js.Finite(1.0)) then Some(message) else None
  }

  /** A cleared number input holds the empty string, which counts as 0 and is refused. */
  lemma ClearedInputRefused(message: string)
    ensures PositiveError(Js.Str(""), message) == Some(message)
  {
  }

  datatype TableErrors = TableErrors(tableNum: Option<string>, maxCapacity: Option<string>, numberTables: Option<string>)

  function ValidateTable(v: TableValues): (e: TableErrors)
    ensures e.tableNum.Some? ==> e.tableNum.value == TableNumNotPositive
    ensures e.maxCapacity.Some? ==> e.maxCapacity.value == CapacityNotPositive
    ensures e.numberTables.Some? ==> e.numberTables.value == CountNotPositive
  {
    TableErrors(PositiveError(v.tableNum, TableNumNotPositive), PositiveError(v.maxCapacity, CapacityNotPositive),
                PositiveError(v.numberTables, CountNotPositive))
  }

  predicate TableSubmittable(v: TableValues) {
    var e := ValidateTable(v);
    e.tableNum.None? && e.maxCapacity.None? && e.numberTables.None?
  }

  /** A form with finite numbers passes exactly when all three are at least 1. */
  lemma TableSubmittableNumbers(t: real, c: real, n: real, comments: string)
    ensures TableSubmittable(TableValues(Js.Num(Js.Finite(t)), Js.Num(Js.Finite(c)), Js.Num(Js.Finite(n)), comments))
            <==> t >= 1.0 && c >= 1.0 && n >= 1.0
  {
  }

  /** The initial values pass every validator. */
  lemma InitialTableSubmittable()
    ensures TableSubmittable(InitialTable())
  {
  }

  /** Once the tables are loaded, the form proposes the next table number:
      one more than the number of tables. With no tables the value is kept. */
  function Suggest(v: TableValues, tableCount: nat): (r: TableValues)
    ensures tableCount > 0 ==> r.tableNum == Js.Num(Js.Finite((tableCount + 1) as real))
    ensures tableCount == 0 ==> r == v
    ensures r.maxCapacity == v.maxCapacity && r.numberTables == v.numberTables && r.comments == v.comments
  {
    if tableCount > 0 then v.(tableNum := Js.Num(Js.Finite((tableCount + 1) as real))) else v
  }

  /** A suggested table number always passes its validator, and so does the
      form's initial 1 when there are no tables. */
  lemma SuggestionPasses(tableCount: nat)
    ensures ValidateTable(Suggest(InitialTable(), tableCount)).tableNum.None?
    ensures tableCount == 0 ==> Suggest(InitialTable(), tableCount).tableNum == Js.Num(Js.Finite(1.0))
  {
  }

  /** The form after submitting: an ok reply resets it and reloads the tables,
      which proposes the next number again; anything else keeps the values. */
  function SubmitTable(v: TableValues, ok: bool, tableCountAfter: nat): (r: TableValues)
    ensures !ok || !TableSubmittable(v) ==> r == v
    ensures ok && TableSubmittable(v) ==> r == Suggest(InitialTable(), tableCountAfter)
  {
    if TableSubmittable(v) && ok then Suggest(InitialTable(), tableCountAfter) else v
  }

  /** The JSON body the form posts: `JSON.stringify(values)` read back by the server. */
  function TablePayload(v: TableValues): (o: Js.Object)
    ensures Js.Get(o, "tableNum") == v.tableNum && Js.Get(o, "maxCapacity") == v.maxCapacity
    ensures Js.Get(o, "comments") == Js.Str(v.comments)
  {
    map["tableNum" := v.tableNum, "maxCapacity" := v.maxCapacity,
        "numberTables" := v.numberTables, "comments" := Js.Str(v.comments)]
  }

  /** What the form lets through with numbers the server's checks let through
      too: finite numbers of at least 1 are truthy and not NaN. */
  lemma SubmittableNumbersPassServer(t: real, c: real, n: real, comments: string)
    requires TableSubmittable(TableValues(Js.Num(Js.Finite(t)), Js.Num(Js.Finite(c)), Js.Num(Js.Finite(n)), comments))
    ensures TableRoutes.CreateCheck(TablePayload(TableValues(Js.Num(Js.Finite(t)), Js.Num(Js.Finite(c)), Js.Num(Js.Finite(n)), comments))).None?
  {
  }

  /** The server builds its record from `tableNum`, `maxCapacity` and
      `comments` alone: however many tables the form asks for, one is created. */
  lemma TableCountIgnored(v: TableValues, count: Js.Value)
    ensures TableRoutes.Draft(TablePayload(v)) == TableRoutes.Draft(TablePayload(v.(numberTables := count)))
  {
  }
}

=== FILE: models.dfy ===
/** The three Mongoose collections — reservations, walk-ins and tables — as
    records, their schema invariants, and how Mongoose turns a plain object into
    a stored document: each schema path is cast to its declared type, setters
    (`lowercase`, `trim`) and defaults are applied, validators (`required`,
    `min`, `enum`) run, and keys the schema does not declare are dropped. */
module Models {
  import opened Wrappers
  import Js
  import Dates

  // ---------------------------------------------------------------------
  // Values handed to Mongoose

  /** A value in a document or query handed to Mongoose: a JSON value, or a
      JavaScript `Date` holding a valid instant. */
  datatype DocValue = Json(v: Js.Value) | Date(time: int)

  /** A plain object handed to a model constructor or a query. */
  type Doc = map<string, DocValue>

  function Field(d: Doc, path: string): DocValue {
    if path in d then d[path] else Json(Js.Undefined)
  }

  /** A request body handed to Mongoose as it is: every key keeps its JSON value. */
  function JsonDoc(o: Js.Object): (d: Doc)
    ensures forall path :: Field(d, path) == Json(Js.Get(o, path))
  {
    map k | k in o :: Json(o[k])
  }

  /** Why Mongoose refused a document: a value that does not cast to the
      path's type, or a validator that failed. */
  datatype Rejection = CastError(path: string) | ValidationError(path: string)

  predicate IsHexDigit(c: char) {
    '0' <= c <= '9' || 'a' <= c <= 'f' || 'A' <= c <= 'F'
  }

  function LowerHexDigit(c: char): (d: char)
    requires IsHexDigit(c)
    ensures '0' <= d <= '9' || 'a' <= d <= 'f'
  {
    if 'A' <= c <= 'F' then (c as int - 'A' as int + 'a' as int) as char else c
  }

  /** The canonical text of an ObjectId: 24 lower-case hexadecimal digits. */
  predicate IsObjectId(s: string) {
    |s| == 24 && forall i :: 0 <= i < |s| ==> ('0' <= s[i] <= '9' || 'a' <= s[i] <= 'f')
  }

  /** Casting a value to an ObjectId, as `findById` does with its argument:
      the value's string form must be 24 hexadecimal digits, in either case. */
  function CastObjectId(v: Js.Value): (r: Option<string>)
    ensures r.Some? ==> IsObjectId(r.value)
    ensures r.Some? <==> |Js.ToString(v)| == 24 && forall i :: 0 <= i < 24 ==> IsHexDigit(Js.ToString(v)[i])
  {
    var s := Js.ToString(v);
    if |s| == 24 && forall i :: 0 <= i < 24 ==> IsHexDigit(s[i]) then
      Some(seq(24, i requires 0 <= i < 24 => LowerHexDigit(s[i])))
    else None
  }

  /** An ObjectId's canonical text casts to itself. */
  lemma CastObjectIdCanonical(id: string)
    requires IsObjectId(id)
    ensures CastObjectId(Js.Str(id)) == Some(id)
  {
    assert forall i :: 0 <= i < 24 ==> IsHexDigit(id[i]) && LowerHexDigit(id[i]) == id[i];
    assert seq(24, i requires 0 <= i < 24 => LowerHexDigit(id[i])) == id;
  }

  // ---------------------------------------------------------------------
  // Casting a single path; None stands for null or absent

  /** A `String` path: null/undefined stay absent, primitives become their
      string form, a plain object does not cast. */
  function CastString(v: DocValue, path: string): (r: Result<Option<string>, Rejection>)
    ensures v.Json? && v.v.Str? ==> r == Success(Some(v.v.s))
    ensures v == Json(Js.Obj) ==> r.Failure?
  {
    match v
    case Json(Undefined) => Success(None)
    case Json(Null) => Success(None)
    case Json(Obj) => Failure(CastError(path))
    case Json(x) => Success(Some(Js.ToString(x)))
    case Date(_) => Failure(CastError(path))
  }

  /** A `Number` path: the empty string and null/undefined stay absent,
      strings and booleans go through `Number(...)`, and NaN does not cast. */
  function CastNumber(v: DocValue, path: string): (r: Result<Option<Js.Number>, Rejection>)
    ensures r.Success? && r.value.Some? ==> !r.value.value.NaN?
    ensures v.Json? && v.v.Num? && !v.v.n.NaN? ==> r == Success(Some(v.v.n))
    ensures v == Json(Js.Num(Js.NaN)) ==> r.Failure?
  {
    match v
    case Json(Undefined) => Success(None)
    case Json(Null) => Success(None)
    case Json(Str(s)) =>
      if s == "" then Success(None)
      else
        var n := Js.StringToNumber(s);
        if n.NaN? then Failure(CastError(path)) else Success(Some(n))
    case Json(Bool(b)) => Success(Some(Js.Finite(if b then 1.0 else 0.0)))
    case Json(Num(n)) => if n.NaN? then Failure(CastError(path)) else Success(Some(n))
    case Json(Obj) => Failure(CastError(path))
    case Date(t) => Success(Some(Js.Finite(t as real)))
  }

  /** A string Mongoose reads as milliseconds rather than as a date: a number
      outside the years a `Date` can hold. */
  predicate IsMillisecondString(s: string) {
    var n := Js.StringToNumber(s);
    !n.NaN? && (!Js.LessThan(n, Js.Finite(275761.0)) || Js.LessThan(n, Js.Finite(-271820.0)))
  }

  /** A `Date` path: null, undefined and "" stay absent, booleans do not cast,
      numbers are milliseconds, strings are parsed (or read as milliseconds,
      see IsMillisecondString); an invalid instant does not cast. */
  function CastDate(v: DocValue, path: string, tz: int): (r: Result<Option<int>, Rejection>)
    ensures r.Success? && r.value.Some? ==> Dates.InRange(r.value.value)
    ensures v.Date? && Dates.InRange(v.time) ==> r == Success(Some(v.time))
    ensures v.Json? && v.v.Bool? ==> r.Failure?
  {
    match v
    case Json(Undefined) => Success(None)
    case Json(Null) => Success(None)
    case Json(Bool(_)) => Failure(CastError(path))
    case Json(Num(n)) => Instant(Dates.TimeClip(n), path)
    case Json(Str(s)) =>
      if s == "" then Success(None)
      else if IsMillisecondString(s) then Instant(Dates.TimeClip(Js.StringToNumber(s)), path)
      else Instant(Dates.ParseDate(s, tz), path)
    case Json(Obj) => Failure(CastError(path))
    case Date(t) => Instant(if Dates.InRange(t) then Some(t) else None, path)
  }

  /** A string ending in Z, as every `toISOString()` result does, is never
      read as milliseconds: a `Date` path casts it by parsing it as a date. */
  lemma CastDateOfZoned(s: string, path: string, tz: int)
    requires |s| > 0 && s[|s| - 1] == 'Z'
    ensures CastDate(Json(Js.Str(s)), path, tz)
            == if Dates.ParseDate(s, tz).Some? then Success(Dates.ParseDate(s, tz)) else Failure(CastError(path))
  {
    Js.NumberEndingInZ(s);
  }

  /** A word (a string starting with a lower-case letter and not ending in
      white space) is neither milliseconds nor a date: a `Date` path does not cast it. */
  lemma CastDateOfWord(s: string, path: string, tz: int)
    requires |s| > 0 && 'a' <= s[0] <= 'z' && !Js.IsSpace(s[|s| - 1])
    ensures CastDate(Json(Js.Str(s)), path, tz) == Failure(CastError(path))
  {
    assert !IsMillisecondString(s) by { Js.WordIsNaN(s); }
    assert Dates.ParseDate(s, tz) == None by { Dates.NotStartingAsDate(s, tz); }
    assert CastDate(Json(Js.Str(s)), path, tz) == Instant(None, path);
  }

  /** An ISO string written by `toISOString()` casts back to its instant. */
  lemma CastDateOfIso(t: int, path: string, tz: int)
    requires Dates.InRange(t)
    ensures CastDate(Json(Js.Str(Dates.ToIsoString(t))), path, tz) == Success(Some(t))
  {
    Dates.IsoEndsWithZ(t);
    Dates.IsoRoundTrip(t, tz);
    CastDateOfZoned(Dates.ToIsoString(t), path, tz);
  }

  /** No string the date parser accepts is read as milliseconds: either it is
      no number at all, or it is a bare year inside the years a `Date` can hold. */
  lemma DateStringIsNotMillis(s: string, tz: int)
    requires Dates.ParseDate(s, tz).Some?
    ensures !IsMillisecondString(s)
  {
    var k := Dates.DateStringStart(s, tz);
    if k < |s| {
      assert s[0..k] == s[..k];
      Js.NumberOfStoppedNumeral(s, k);
    } else if s[0] == '+' || s[0] == '-' {
      BareSignedYearNotMillis(s, tz);
    } else {
      assert s[..k] == s;
      BareYearNotMillis(s);
    }
  }

  /** `±YYYYYY` alone, when it parses, is a year inside the range of `Date`. */
  lemma BareSignedYearNotMillis(s: string, tz: int)
    requires Dates.ParseDate(s, tz).Some?
    requires |s| == 7 && (s[0] == '+' || s[0] == '-') && Js.AllDigits(s[1..], 10)
    ensures !IsMillisecondString(s)
  {
    Dates.SignedYearInRange(s, tz);
    Js.NumberOfSignedNumeral(s);
    var n := Js.DigitsValue(s[1..], 10) as real;
    NumberInYears(s, if s[0] == '-' then -n else n);
  }

  /** `YYYY` alone is a year between 0 and 9999. */
  lemma BareYearNotMillis(s: string)
    requires |s| == 4 && Js.AllDigits(s, 10)
    ensures !IsMillisecondString(s)
  {
    Dates.FourDigitYear(s);
    Js.NumberOfNumeral(s);
    NumberInYears(s, Js.DigitsValue(s, 10) as real);
  }

  lemma NumberInYears(s: string, x: real)
    requires Js.StringToNumber(s) == Js.Finite(x) && -271820.0 <= x < 275761.0
    ensures !IsMillisecondString(s)
  {
  }

  /** Where `new Date(v)` gives a valid instant for a number or a string, a
      `Date` path casts `v` to that same instant. */
  lemma CastDateAgrees(v: Js.Value, path: string, tz: int)
    requires (v.Num? || v.Str?) && Dates.DateOf(v, tz).Some?
    ensures CastDate(Json(v), path, tz) == Success(Dates.DateOf(v, tz))
  {
    if v.Str? {
      DateStringIsNotMillis(v.s, tz);
    }
  }

  function Instant(t: Option<int>, path: string): (r: Result<Option<int>, Rejection>)
    requires t.Some? ==> Dates.InRange(t.value)
    ensures r.Success? <==> t.Some?
    ensures r.Success? ==> r.value == t
  {
    if t.Some? then Success(t) else Failure(CastError(path))
  }

  /** The `required` validator on a String path: present and not empty. */
  function RequiredString(v: Option<string>, path: string): (r: Result<string, Rejection>)
    ensures r.Success? <==> v.Some? && |v.value| > 0
    ensures r.Success? ==> r.value == v.value
  {
    if v.Some? && |v.value| > 0 then Success(v.value) else Failure(ValidationError(path))
  }

  function Required<T>(v: Option<T>, path: string): (r: Result<T, Rejection>)
    ensures r.Success? <==> v.Some?
    ensures r.Success? ==> r.value == v.value
  {
    if v.Some? then Success(v.value) else Failure(ValidationError(path))
  }

  /** A `Number` path declared `required: true, min: 1`. */
  predicate IsAtLeastOne(n: Js.Number) {
    !n.NaN? && !Js.LessThan(n, Js.Finite(1.0))
  }

  function RequiredAtLeastOne(v: Option<Js.Number>, path: string): (r: Result<Js.Number, Rejection>)
    ensures r.Success? <==> v.Some? && !Js.LessThan(v.value, Js.Finite(1.0))
    ensures r.Success? ==> r.value == v.value
  {
    if v.Some? && !Js.LessThan(v.value, Js.Finite(1.0)) then Success(v.value) else Failure(ValidationError(path))
  }

  predicate IsLowerCase(s: string) {
    forall i :: 0 <= i < |s| ==> !('A' <= s[i] <= 'Z')
  }

  predicate IsTrimmed(s: string) {
    Js.Trim(s) == s
  }

  /** `lowercase: true`: a present value is stored as its `toLowerCase()`. */
  function Lowered(v: Option<string>): (r: Option<string>)
    ensures r.Some? <==> v.Some?
    ensures r.Some? ==> IsLowerCase(r.value) && |r.value| == |v.value|
    ensures r.Some? ==> r.value == Js.ToLower(v.value)
  {
    if v.Some? then Some(Js.ToLower(v.value)) else None
  }

  /** `trim: true`: a present value is stored as its `trim()`. */
  function Trimmed(v: Option<string>): (r: Option<string>)
    ensures r.Some? <==> v.Some?
    ensures r.Some? ==> IsTrimmed(r.value)
    ensures r.Some? ==> r.value == Js.Trim(v.value)
  {
    if v.Some? then Js.TrimIdempotent(v.value); Some(Js.Trim(v.value)) else None
  }

  // ---------------------------------------------------------------------
  // Timestamps

  /** The two `Date` paths the `timestamps` option adds to each schema. */
  const TimestampPaths: set<string> := {"createdAt", "updatedAt"}

  /** The instant `timestamps` gives a new document. Both paths are cast like
      any `Date` path, and a value that does not cast fails validation. A
      `createdAt` that casts to an instant is kept; an unset one becomes `now`.
      `updatedAt` is then overwritten with the `createdAt` instant. */
  function Stamp(d: Doc, now: int, tz: int): (r: Result<int, Rejection>)
    ensures r.Success? <==> CastDate(Field(d, "createdAt"), "createdAt", tz).Success?
                            && CastDate(Field(d, "updatedAt"), "updatedAt", tz).Success?
    ensures r.Success? && CastDate(Field(d, "createdAt"), "createdAt", tz).value.Some?
            ==> Dates.InRange(r.value) && CastDate(Field(d, "createdAt"), "createdAt", tz) == Success(Some(r.value))
    ensures r.Success? && Field(d, "createdAt") in {Json(Js.Undefined), Json(Js.Null), Json(Js.Str(""))} ==> r.value == now
  {
    var created :- CastDate(Field(d, "createdAt"), "createdAt", tz);
    var updated :- CastDate(Field(d, "updatedAt"), "updatedAt", tz);
    Success(if created.Some? then created.value else now)
  }

  /** A document that carries neither timestamp is stamped with `now`. */
  lemma StampOfFresh(d: Doc, now: int, tz: int)
    requires "createdAt" !in d && "updatedAt" !in d
    ensures Stamp(d, now, tz) == Success(now)
  {
    assert Field(d, "createdAt") == Json(Js.Undefined) && Field(d, "updatedAt") == Json(Js.Undefined);
  }

  /** A `createdAt` written by `toISOString()` is kept as both timestamps'
      instant, whatever castable `updatedAt` came with it. */
  lemma StampKeepsIso(d: Doc, t: int, now: int, tz: int)
    requires Dates.InRange(t) && Field(d, "createdAt") == Json(Js.Str(Dates.ToIsoString(t)))
    requires CastDate(Field(d, "updatedAt"), "updatedAt", tz).Success?
    ensures Stamp(d, now, tz) == Success(t)
  {
    CastDateOfIso(t, "createdAt", tz);
  }

  /** A word as `createdAt` or as `updatedAt` does not cast, so validation fails. */
  lemma StampRefusesWord(d: Doc, s: string, now: int, tz: int)
    requires |s| > 0 && 'a' <= s[0] <= 'z' && !Js.IsSpace(s[|s| - 1])
    requires Field(d, "createdAt") == Json(Js.Str(s)) || Field(d, "updatedAt") == Json(Js.Str(s))
    ensures Stamp(d, now, tz).Failure?
  {
    CastDateOfWord(s, "createdAt", tz);
    CastDateOfWord(s, "updatedAt", tz);
  }

  // ---------------------------------------------------------------------
  // Reservation

  /** A stored reservation; `createdAt`/`updatedAt` come from the schema's `timestamps` option. */
  datatype Reservation = Reservation(
    id: string,
    name: string,
    email: Option<string>,
    phoneNumber: Option<string>,
    tableNum: Option<Js.Number>,
    size: Js.Number,
    startTime: int,
    endTime: int,
    comments: Option<string>,
    createdAt: int,
    updatedAt: int)

  /** The reservation schema's invariants. It does not relate `startTime` to `endTime`. */
  predicate ValidReservation(r: Reservation) {
    IsObjectId(r.id)
    && |r.name| > 0
    && (r.email.Some? ==> IsLowerCase(r.email.value))
    && (r.tableNum.Some? ==> !r.tableNum.value.NaN?)
    && IsAtLeastOne(r.size)
    && Dates.InRange(r.startTime) && Dates.InRange(r.endTime)
    && (r.comments.Some? ==> IsTrimmed(r.comments.value))
  }

  /** The paths the reservation schema declares; any other key is dropped. */
  const ReservationPaths: set<string> :=
    {"name", "email", "phoneNumber", "tableNum", "size", "startTime", "endTime", "comments"} + TimestampPaths

  /** `new Reservation(doc)` followed by validation on `save()`, with `id` as the generated `_id`. */
  function CastReservation(d: Doc, id: string, now: int, tz: int): (r: Result<Reservation, Rejection>)
    requires IsObjectId(id)
    ensures r.Success? ==> ValidReservation(r.value)
    ensures r.Success? ==> r.value.id == id && Stamp(d, now, tz) == Success(r.value.createdAt)
                           && r.value.updatedAt == r.value.createdAt
    ensures r.Success? ==> CastDate(Field(d, "startTime"), "startTime", tz) == Success(Some(r.value.startTime))
                           && CastDate(Field(d, "endTime"), "endTime", tz) == Success(Some(r.value.endTime))
    ensures r.Success? ==> (r.value.phoneNumber.None? <==> Field(d, "phoneNumber") in {Json(Js.Undefined), Json(Js.Null)})
  {
    var name :- CastString(Field(d, "name"), "name");
    var email :- CastString(Field(d, "email"), "email");
    var phone :- CastString(Field(d, "phoneNumber"), "phoneNumber");
    var tableNum :- CastNumber(Field(d, "tableNum"), "tableNum");
    var size :- CastNumber(Field(d, "size"), "size");
    var start :- CastDate(Field(d, "startTime"), "startTime", tz);
    var end :- CastDate(Field(d, "endTime"), "endTime", tz);
    var comments :- CastString(Field(d, "comments"), "comments");
    var stamp :- Stamp(d, now, tz);
    var n :- RequiredString(name, "name");
    var s :- RequiredAtLeastOne(size, "size");
    var st :- Required(start, "startTime");
    var et :- Required(end, "endTime");
    Success(Reservation(id, n, Lowered(email), phone, tableNum, s, st, et, Trimmed(comments), stamp, stamp))
  }

  /** Where each field of a cast reservation comes from. */
  lemma CastReservationFields(d: Doc, id: string, now: int, tz: int)
    requires IsObjectId(id) && CastReservation(d, id, now, tz).Success?
    ensures var r := CastReservation(d, id, now, tz).value;
            && CastString(Field(d, "name"), "name") == Success(Some(r.name))
            && CastString(Field(d, "email"), "email").Success?
            && r.email == Lowered(CastString(Field(d, "email"), "email").value)
            && CastString(Field(d, "phoneNumber"), "phoneNumber") == Success(r.phoneNumber)
            && CastNumber(Field(d, "tableNum"), "tableNum") == Success(r.tableNum)
            && CastNumber(Field(d, "size"), "size") == Success(Some(r.size))
            && CastString(Field(d, "comments"), "comments").Success?
            && r.comments == Trimmed(CastString(Field(d, "comments"), "comments").value)
  {
    var name := CastString(Field(d, "name"), "name");
    var email := CastString(Field(d, "email"), "email");
    var phone := CastString(Field(d, "phoneNumber"), "phoneNumber");
    var tableNum := CastNumber(Field(d, "tableNum"), "tableNum");
    var size := CastNumber(Field(d, "size"), "size");
    var start := CastDate(Field(d, "startTime"), "startTime", tz);
    var end := CastDate(Field(d, "endTime"), "endTime", tz);
    var comments := CastString(Field(d, "comments"), "comments");
    var stamp := Stamp(d, now, tz);
    assert name.Success? && email.Success? && phone.Success? && tableNum.Success? && size.Success?
           && start.Success? && end.Success? && comments.Success? && stamp.Success?;
    assert name.value.Some? && size.value.Some? && start.value.Some? && end.value.Some?;
    assert CastReservation(d, id, now, tz).value
           == Reservation(id, name.value.value, Lowered(email.value), phone.value, tableNum.value, size.value.value,
                          start.value.value, end.value.value, Trimmed(comments.value), stamp.value, stamp.value);
  }

  /** A document is saved exactly when every path casts, the name is a
      non-empty string, the size a number of at least 1, both times are
      present and the timestamps cast. */
  lemma CastReservationSucceeds(d: Doc, id: string, now: int, tz: int)
    requires IsObjectId(id)
    ensures var name := CastString(Field(d, "name"), "name");
            var size := CastNumber(Field(d, "size"), "size");
            var start := CastDate(Field(d, "startTime"), "startTime", tz);
            var end := CastDate(Field(d, "endTime"), "endTime", tz);
            CastReservation(d, id, now, tz).Success? <==>
              && name.Success? && name.value.Some? && |name.value.value| > 0
              && CastString(Field(d, "email"), "email").Success?
              && CastString(Field(d, "phoneNumber"), "phoneNumber").Success?
              && CastNumber(Field(d, "tableNum"), "tableNum").Success?
              && size.Success? && size.value.Some? && !Js.LessThan(size.value.value, Js.Finite(1.0))
              && start.Success? && start.value.Some? && end.Success? && end.value.Some?
              && CastString(Field(d, "comments"), "comments").Success?
              && Stamp(d, now, tz).Success?
  {
  }

  /** A document without a size, or with one below 1, is refused. */
  lemma CastReservationNeedsSize(d: Doc, id: string, now: int, tz: int)
    requires IsObjectId(id)
    requires var n := CastNumber(Field(d, "size"), "size");
             n.Success? && (n.value.None? || Js.LessThan(n.value.value, Js.Finite(1.0)))
    ensures CastReservation(d, id, now, tz).Failure?
  {
    assert RequiredAtLeastOne(CastNumber(Field(d, "size"), "size").value, "size").Failure?;
  }

  // ---------------------------------------------------------------------
  // WalkIn

  datatype WalkIn = WalkIn(
    id: string,
    name: string,
    phoneNumber: string,
    tableNum: Option<Js.Number>,
    size: Js.Number,
    timeAddedToWaitlist: int,
    startTime: Option<int>,
    endTime: Option<int>,
    comments: Option<string>,
    createdAt: int,
    updatedAt: int)

  /** The walk-in schema's invariants: name and phone number present, size at
      least 1; the seating window is optional and comments are kept as given. */
  predicate ValidWalkIn(w: WalkIn) {
    IsObjectId(w.id)
    && |w.name| > 0 && |w.phoneNumber| > 0
    && (w.tableNum.Some? ==> !w.tableNum.value.NaN?)
    && IsAtLeastOne(w.size)
    && Dates.InRange(w.timeAddedToWaitlist)
    && (w.startTime.Some? ==> Dates.InRange(w.startTime.value))
    && (w.endTime.Some? ==> Dates.InRange(w.endTime.value))
  }

  const WalkInPaths: set<string> :=
    {"name", "phoneNumber", "tableNum", "size", "timeAddedToWaitlist", "startTime", "endTime", "comments"} + TimestampPaths

  /** `new WalkIn(doc)` and `save()`: an undefined `timeAddedToWaitlist` defaults to `now`. */
  function CastWalkIn(d: Doc, id: string, now: int, tz: int): (r: Result<WalkIn, Rejection>)
    requires IsObjectId(id) && Dates.InRange(now)
    ensures r.Success? ==> ValidWalkIn(r.value)
    ensures r.Success? ==> r.value.id == id && Stamp(d, now, tz) == Success(r.value.createdAt)
                           && r.value.updatedAt == r.value.createdAt
    ensures r.Success? && Field(d, "timeAddedToWaitlist") == Json(Js.Undefined) ==> r.value.timeAddedToWaitlist == now
  {
    var name :- CastString(Field(d, "name"), "name");
    var phone :- CastString(Field(d, "phoneNumber"), "phoneNumber");
    var tableNum :- CastNumber(Field(d, "tableNum"), "tableNum");
    var size :- CastNumber(Field(d, "size"), "size");
    var added :- if Field(d, "timeAddedToWaitlist") == Json(Js.Undefined) then Success(Some(now))
                 else CastDate(Field(d, "timeAddedToWaitlist"), "timeAddedToWaitlist", tz);
    var start :- CastDate(Field(d, "startTime"), "startTime", tz);
    var end :- CastDate(Field(d, "endTime"), "endTime", tz);
    var comments :- CastString(Field(d, "comments"), "comments");
    var stamp :- Stamp(d, now, tz);
    var n :- RequiredString(name, "name");
    var p :- RequiredString(phone, "phoneNumber");
    var s :- RequiredAtLeastOne(size, "size");
    var a :- Required(added, "timeAddedToWaitlist");
    Success(WalkIn(id, n, p, tableNum, s, a, start, end, comments, stamp, stamp))
  }

  /** Where each field of a cast walk-in comes from. */
  lemma CastWalkInFields(d: Doc, id: string, now: int, tz: int)
    requires IsObjectId(id) && Dates.InRange(now) && CastWalkIn(d, id, now, tz).Success?
    ensures var w := CastWalkIn(d, id, now, tz).value;
            && CastString(Field(d, "name"), "name") == Success(Some(w.name))
            && CastString(Field(d, "phoneNumber"), "phoneNumber") == Success(Some(w.phoneNumber))
            && CastNumber(Field(d, "size"), "size") == Success(Some(w.size))
            && CastString(Field(d, "comments"), "comments") == Success(w.comments)
            && (Field(d, "timeAddedToWaitlist") != Json(Js.Undefined) ==>
                  CastDate(Field(d, "timeAddedToWaitlist"), "timeAddedToWaitlist", tz) == Success(Some(w.timeAddedToWaitlist)))
  {
    var name := CastString(Field(d, "name"), "name");
    var phone := CastString(Field(d, "phoneNumber"), "phoneNumber");
    var tableNum := CastNumber(Field(d, "tableNum"), "tableNum");
    var size := CastNumber(Field(d, "size"), "size");
    var added := if Field(d, "timeAddedToWaitlist") == Json(Js.Undefined) then Success(Some(now))
                 else CastDate(Field(d, "timeAddedToWaitlist"), "timeAddedToWaitlist", tz);
    var start := CastDate(Field(d, "startTime"), "startTime", tz);
    var end := CastDate(Field(d, "endTime"), "endTime", tz);
    var comments := CastString(Field(d, "comments"), "comments");
    var stamp := Stamp(d, now, tz);
    assert name.Success? && phone.Success? && tableNum.Success? && size.Success? && added.Success?
           && start.Success? && end.Success? && comments.Success? && stamp.Success?;
    assert name.value.Some? && phone.value.Some? && size.value.Some? && added.value.Some?;
    assert CastWalkIn(d, id, now, tz).value
           == WalkIn(id, name.value.value, phone.value.value, tableNum.value, size.value.value, added.value.value,
                     start.value, end.value, comments.value, stamp.value, stamp.value);
  }

  // ---------------------------------------------------------------------
  // Table

  /** The collections a table's `reservedTimes` may point into. */
  datatype RefModel = ReservationModel | WalkInModel

  function RefModelName(m: RefModel): string {
    match m
    case ReservationModel => "Reservation"
    case WalkInModel => "WalkIn"
  }

  /** The `enum` validator on `reservedTimesModel`. */
  function CastRefModel(v: Option<string>): (r: Result<Option<RefModel>, Rejection>)
    ensures r.Success? && r.value.Some? ==> v == Some(RefModelName(r.value.value))
    ensures r.Success? <==> v.None? || v.value in {"Reservation", "WalkIn"}
  {
    if v == Some("Reservation") then Success(Some(ReservationModel))
    else if v == Some("WalkIn") then Success(Some(WalkInModel))
    else if v.None? then Success(None)
    else Failure(ValidationError("reservedTimesModel"))
  }

  /** A stored table. The schema declares no table number. */
  datatype Table = Table(
    id: string,
    tableCapacity: Js.Number,
    reservedTimes: seq<string>,
    reservedTimesModel: Option<RefModel>,
    comments: Option<string>,
    createdAt: int,
    updatedAt: int)

  predicate ValidTable(t: Table) {
    IsObjectId(t.id)
    && IsAtLeastOne(t.tableCapacity)
    && (forall i :: 0 <= i < |t.reservedTimes| ==> IsObjectId(t.reservedTimes[i]))
    && (t.comments.Some? ==> IsTrimmed(t.comments.value))
  }

  const TablePaths: set<string> := {"tableCapacity", "reservedTimes", "reservedTimesModel", "comments"} + TimestampPaths

  /** `new Table(doc)` and `save()`. An array path defaults to the empty array;
      objects handed to Mongoose here never carry one. */
  function CastTable(d: Doc, id: string, now: int, tz: int): (r: Result<Table, Rejection>)
    requires IsObjectId(id)
    ensures r.Success? ==> ValidTable(r.value)
    ensures r.Success? ==> r.value.id == id && r.value.reservedTimes == []
    ensures r.Success? ==> Stamp(d, now, tz) == Success(r.value.createdAt) && r.value.updatedAt == r.value.createdAt
  {
    var capacity :- CastNumber(Field(d, "tableCapacity"), "tableCapacity");
    var model :- CastString(Field(d, "reservedTimesModel"), "reservedTimesModel");
    var comments :- CastString(Field(d, "comments"), "comments");
    var stamp :- Stamp(d, now, tz);
    var c :- RequiredAtLeastOne(capacity, "tableCapacity");
    var m :- CastRefModel(model);
    Success(Table(id, c, [], m, Trimmed(comments), stamp, stamp))
  }

  /** Where each field of a cast table comes from. */
  lemma CastTableFields(d: Doc, id: string, now: int, tz: int)
    requires IsObjectId(id) && CastTable(d, id, now, tz).Success?
    ensures var t := CastTable(d, id, now, tz).value;
            && CastNumber(Field(d, "tableCapacity"), "tableCapacity") == Success(Some(t.tableCapacity))
            && CastString(Field(d, "reservedTimesModel"), "reservedTimesModel").Success?
            && CastRefModel(CastString(Field(d, "reservedTimesModel"), "reservedTimesModel").value)
               == Success(t.reservedTimesModel)
            && CastString(Field(d, "comments"), "comments").Success?
            && t.comments == Trimmed(CastString(Field(d, "comments"), "comments").value)
            && Stamp(d, now, tz) == Success(t.createdAt) && t.updatedAt == t.createdAt
  {
    var capacity := CastNumber(Field(d, "tableCapacity"), "tableCapacity");
    var model := CastString(Field(d, "reservedTimesModel"), "reservedTimesModel");
    var comments := CastString(Field(d, "comments"), "comments");
    var stamp := Stamp(d, now, tz);
    assert capacity.Success? && model.Success? && comments.Success? && stamp.Success?;
    assert capacity.value.Some? && CastRefModel(model.value).Success?;
    assert CastTable(d, id, now, tz).value
           == Table(id, capacity.value.value, [], CastRefModel(model.value).value, Trimmed(comments.value),
                    stamp.value, stamp.value);
  }

  /** A document without a capacity, or with one below 1, is refused. */
  lemma CastTableNeedsCapacity(d: Doc, id: string, now: int, tz: int)
    requires IsObjectId(id)
    requires var n := CastNumber(Field(d, "tableCapacity"), "tableCapacity");
             n.Failure? || n.value.None? || Js.LessThan(n.value.value, Js.Finite(1.0))
    ensures CastTable(d, id, now, tz).Failure?
  {
  }

  // ---------------------------------------------------------------------
  // Strict mode: keys the schema does not declare are ignored

  lemma FieldUnchanged(d: Doc, k: string, v: DocValue, path: string)
    requires k != path
    ensures Field(d[k := v], path) == Field(d, path)
  {}

  /** A key outside the reservation schema, such as `phone`, has no effect on the stored reservation. */
  lemma ReservationIgnoresUndeclared(d: Doc, k: string, v: DocValue, id: string, now: int, tz: int)
    requires IsObjectId(id) && k !in ReservationPaths
    ensures CastReservation(d[k := v], id, now, tz) == CastReservation(d, id, now, tz)
  {
    forall p | p in ReservationPaths ensures Field(d[k := v], p) == Field(d, p) {
      FieldUnchanged(d, k, v, p);
    }
  }

  /** A key outside the walk-in schema has no effect on the stored walk-in. */
  lemma WalkInIgnoresUndeclared(d: Doc, k: string, v: DocValue, id: string, now: int, tz: int)
    requires IsObjectId(id) && Dates.InRange(now) && k !in WalkInPaths
    ensures CastWalkIn(d[k := v], id, now, tz) == CastWalkIn(d, id, now, tz)
  {
    forall p | p in WalkInPaths ensures Field(d[k := v], p) == Field(d, p) {
      FieldUnchanged(d, k, v, p);
    }
  }

  /** A key outside the table schema, such as `tableNumber`, has no effect on the stored table. */
  lemma TableIgnoresUndeclared(d: Doc, k: string, v: DocValue, id: string, now: int, tz: int)
    requires IsObjectId(id) && k !in TablePaths
    ensures CastTable(d[k := v], id, now, tz) == CastTable(d, id, now, tz)
  {
    forall p | p in TablePaths ensures Field(d[k := v], p) == Field(d, p) {
      FieldUnchanged(d, k, v, p);
    }
  }
}

=== FILE: occupancy.dfy ===
/** Which reservations occupy the floor at a given moment: the browser-side
    helper that reads each record's start and end with `new Date` and keeps
    those whose closed interval `[start, end]` contains the moment. A record
    or a moment that is not a valid date is never active: every comparison
    with NaN is false. */
module Occupancy {
  import opened Wrappers
  import Js
  import Dates
  import Seqs
  import Models
  import Wire

  /** `isReservationActiveAtTime(record, target)`, with `target` the instant
      of the Date passed, or None for an invalid Date. */
  predicate IsActiveAtTime(record: Js.Object, target: Option<int>, tz: int) {
    var start := Dates.DateOf(Js.Get(record, "startTime"), tz);
    var end := Dates.DateOf(Js.Get(record, "endTime"), tz);
    target.Some? && start.Some? && end.Some? && start.value <= target.value && target.value <= end.value
  }

  /** `getReservationsAtTime(records, timestamp)`. */
  function ReservationsAtTime(records: seq<Js.Object>, timestamp: Js.Value, tz: int): (r: seq<Js.Object>)
    ensures Seqs.Subsequence(r, records)
    ensures forall x :: x in r <==> x in records && IsActiveAtTime(x, Dates.DateOf(timestamp, tz), tz)
  {
    var target := Dates.DateOf(timestamp, tz);
    var active := (x: Js.Object) => IsActiveAtTime(x, target, tz);
    Seqs.FilterSubsequence(records, active);
    forall x ensures x in Seqs.Filter(records, active) <==> x in records && active(x) {
      Seqs.FilterMembership(records, active, x);
    }
    Seqs.Filter(records, active)
  }

  /** Both ends are included: a reservation occupies its table at the moment
      it starts and still at the moment it ends. */
  lemma BothEndsActive(record: Js.Object, tz: int)
    requires Dates.DateOf(Js.Get(record, "startTime"), tz).Some?
    requires Dates.DateOf(Js.Get(record, "endTime"), tz).Some?
    requires Dates.DateOf(Js.Get(record, "startTime"), tz).value <= Dates.DateOf(Js.Get(record, "endTime"), tz).value
    ensures IsActiveAtTime(record, Dates.DateOf(Js.Get(record, "startTime"), tz), tz)
    ensures IsActiveAtTime(record, Dates.DateOf(Js.Get(record, "endTime"), tz), tz)
  {
  }

  /** A record that ends before it starts is never active. */
  lemma InvertedNeverActive(record: Js.Object, target: Option<int>, tz: int)
    requires Dates.DateOf(Js.Get(record, "startTime"), tz).Some?
    requires Dates.DateOf(Js.Get(record, "endTime"), tz).Some?
    requires Dates.DateOf(Js.Get(record, "startTime"), tz).value > Dates.DateOf(Js.Get(record, "endTime"), tz).value
    ensures !IsActiveAtTime(record, target, tz)
  {
  }

  /** A timestamp that is not a date selects nothing. */
  lemma InvalidTimestampSelectsNothing(records: seq<Js.Object>, timestamp: Js.Value, tz: int)
    requires Dates.DateOf(timestamp, tz).None?
    ensures ReservationsAtTime(records, timestamp, tz) == []
  {
  }

  /** Selecting again at the same moment changes nothing. */
  lemma SelectionIdempotent(records: seq<Js.Object>, timestamp: Js.Value, tz: int)
    ensures ReservationsAtTime(ReservationsAtTime(records, timestamp, tz), timestamp, tz)
            == ReservationsAtTime(records, timestamp, tz)
  {
    var target := Dates.DateOf(timestamp, tz);
    Seqs.FilterIdempotent(records, (x: Js.Object) => IsActiveAtTime(x, target, tz));
  }

  /** For reservations as the server sends them, the selection is exactly the
      stored reservations whose `[startTime, endTime]` contains the moment. */
  lemma StoredReservationActive(r: Models.Reservation, t: int, tz: int)
    requires Dates.InRange(r.startTime) && Dates.InRange(r.endTime) && Dates.InRange(t)
    ensures IsActiveAtTime(Wire.ReservationJson(r), Some(t), tz) <==> r.startTime <= t <= r.endTime
  {
    Wire.ReservationJsonDates(r, tz);
  }

  /** The same, with the moment given as an ISO string. */
  lemma SelectStoredAt(r: Models.Reservation, records: seq<Js.Object>, t: int, tz: int)
    requires Dates.InRange(r.startTime) && Dates.InRange(r.endTime) && Dates.InRange(t)
    ensures Wire.ReservationJson(r) in ReservationsAtTime(records, Js.Str(Dates.ToIsoString(t)), tz)
            <==> Wire.ReservationJson(r) in records && r.startTime <= t <= r.endTime
  {
    Dates.IsoRoundTrip(t, tz);
    StoredReservationActive(r, t, tz);
  }
}

=== FILE: reservation_form.dfy ===
/** The public reservation form: its initial values, the validators the form
    runs before submitting, and what a submission does to the form. */
module ReservationForm {
  import opened Wrappers
  import Js
  import Models
  import Store
  import ReservationTsRoutes

  /** The form's fields. The date and time pickers and the party-size input
      hold arbitrary JavaScript values (`null` until chosen, `""` when the
      number input is cleared). */
  datatype Values = Values(
    firstname: string,
    lastname: string,
    email: string,
    phone: string,
    date: Js.Value,
    time: Js.Value,
    partySize: Js.Value,
    specialRequests: string)

  const FirstNameShort: string := "First name must be at least 2 characters"
  const LastNameShort: string := "Last name must be at least 2 characters"
  const EmailInvalid: string := "Invalid email"
  const PhoneInvalid: string := "Please enter a valid phone number"
  const PartySizeSmall: string := "Party size must be at least 1"

  /** The values the form opens with and returns to after a reset. */
  function Initial(): Values {
    Values("", "", "", "", Js.Null, Js.Null, Js.Num(Js.Finite(2.0)), "")
  }

  // ---------------------------------------------------------------------
  // Trimmed length

  /** `s` holds two non-blank characters, at `i` and `j`, that span at least `n` characters. */
  predicate NonBlankSpan(s: string, n: nat) {
    exists i, j :: 0 <= i <= j < |s| && !Js.IsSpace(s[i]) && !Js.IsSpace(s[j]) && j - i + 1 >= n
  }

  lemma LongTrimHasSpan(s: string, n: nat, a: int, b: int)
    requires n >= 1 && Js.TrimmedAt(s, a, b) && |Js.Trim(s)| >= n
    ensures NonBlankSpan(s, n)
  {
    Js.TrimEnds(s);
    var t := Js.Trim(s);
    assert t == s[a..b];
    assert s[a] == t[0] && s[b - 1] == t[|t| - 1];
    assert !Js.IsSpace(s[a]) && !Js.IsSpace(s[b - 1]) && (b - 1) - a + 1 >= n;
  }

  lemma SpanMakesLongTrim(s: string, n: nat, a: int, b: int)
    requires n >= 1 && Js.TrimmedAt(s, a, b) && NonBlankSpan(s, n)
    ensures |Js.Trim(s)| >= n
  {
    var i, j :| 0 <= i <= j < |s| && !Js.IsSpace(s[i]) && !Js.IsSpace(s[j]) && j - i + 1 >= n;
    assert a <= i && j < b;
  }

  /** `s.trim()` holds at least `n` characters exactly when the non-blank
      part of `s`, from its first to its last non-blank character, is at
      least `n` characters long. This counts characters; `.length` counts
      UTF-16 units, which TrimmedUnits relates to it. */
  lemma TrimmedLength(s: string, n: nat)
    requires n >= 1
    ensures |Js.Trim(s)| >= n <==> NonBlankSpan(s, n)
  {
    var a, b := Js.TrimCuts(s);
    if |Js.Trim(s)| >= n {
      LongTrimHasSpan(s, n, a, b);
    }
    if NonBlankSpan(s, n) {
      SpanMakesLongTrim(s, n, a, b);
    }
  }

  /** `s.trim().length >= n`, where `length` counts UTF-16 code units. Each
      character counts at least once, so a non-blank span of `n` characters
      is enough; for a string without characters above U+FFFF, where units
      and characters agree, it is also necessary. */
  lemma TrimmedUnits(s: string, n: nat)
    requires n >= 1
    ensures NonBlankSpan(s, n) ==> Js.Length(Js.Trim(s)) >= n
    ensures Js.NoAstral(s) ==> (Js.Length(Js.Trim(s)) >= n <==> NonBlankSpan(s, n))
  {
    TrimmedLength(s, n);
    var a, b := Js.TrimCuts(s);
    var t := Js.Trim(s);
    if Js.NoAstral(s) {
      assert t == s[a..b];
      assert forall k :: 0 <= k < |t| ==> t[k] == s[a + k];
      assert Js.NoAstral(t);
    }
  }

  // ---------------------------------------------------------------------
  // The validators: None when the field is valid, otherwise its message

  /** At least two UTF-16 code units once trimmed. */
  function FirstNameError(v: string): (r: Option<string>)
    ensures NonBlankSpan(v, 2) ==> r.None?
    ensures Js.NoAstral(v) ==> (r.None? <==> NonBlankSpan(v, 2))
    ensures r.Some? ==> r.value == FirstNameShort
  {
    TrimmedUnits(v, 2);
    if Js.Length(Js.Trim(v)) < 2 then Some(FirstNameShort) else None
  }

  /** At least two UTF-16 code units once trimmed. */
  function LastNameError(v: string): (r: Option<string>)
    ensures NonBlankSpan(v, 2) ==> r.None?
    ensures Js.NoAstral(v) ==> (r.None? <==> NonBlankSpan(v, 2))
    ensures r.Some? ==> r.value == LastNameShort
  {
    TrimmedUnits(v, 2);
    if Js.Length(Js.Trim(v)) < 2 then Some(LastNameShort) else None
  }

  /** At least ten UTF-16 code units once trimmed; the characters themselves are not checked. */
  function PhoneError(v: string): (r: Option<string>)
    ensures NonBlankSpan(v, 10) ==> r.None?
    ensures Js.NoAstral(v) ==> (r.None? <==> NonBlankSpan(v, 10))
    ensures r.Some? ==> r.value == PhoneInvalid
  {
    TrimmedUnits(v, 10);
    if Js.Length(Js.Trim(v)) < 10 then Some(PhoneInvalid) else None
  }

  /** A name of one character above U+FFFF, such as an emoji, is two code
      units long and passes both name checks, though it is one character. */
  lemma AstralNameAccepted(c: char)
    requires Js.IsAstral(c)
    ensures FirstNameError([c]).None? && LastNameError([c]).None?
    ensures !NonBlankSpan([c], 2)
  {
    Js.TrimmedAlready([c]);
    Js.AstralLength(c);
  }

  /** `value < 1`: a number below one, or anything that converts to one
      (the empty string converts to 0). NaN compares false and passes. */
  function PartySizeError(v: Js.Value): (r: Option<string>)
    ensures v.Num? && v.n.Finite? ==> (r.None? <==> v.n.value >= 1.0)
    ensures v.Num? && v.n.NaN? ==> r.None?
    ensures v == Js.Str("") || v == Js.Null ==> r == Some(PartySizeSmall)
  {
    if Js.LessThan(Js.ToNumber(v), Js.Finite(1.0)) then Some(PartySizeSmall) else None
  }

  // ---------------------------------------------------------------------
  // The email pattern ^\S+@\S+$

  /** No white space in `s`. */
  predicate NoSpace(s: string) {
    forall k :: 0 <= k < |s| ==> !Js.IsSpace(s[k])
  }

  /** The pattern read literally: one or more non-blank characters, an `@`,
      one or more non-blank characters, and nothing else. `\S` matches `@`
      itself, so the `@` can be any one of several. */
  predicate PatternMatches(s: string) {
    exists i :: 0 < i < |s| - 1 && s[i] == '@' && NoSpace(s[..i]) && NoSpace(s[i + 1..])
  }

  /** What the pattern accepts: no white space anywhere, and an `@` that is
      neither the first nor the last character. */
  predicate EmailShape(s: string) {
    NoSpace(s) && exists i :: 0 < i < |s| - 1 && s[i] == '@'
  }

  lemma PatternIsShape(s: string)
    ensures PatternMatches(s) <==> EmailShape(s)
  {
    if PatternMatches(s) {
      var i :| 0 < i < |s| - 1 && s[i] == '@' && NoSpace(s[..i]) && NoSpace(s[i + 1..]);
      forall k | 0 <= k < |s| ensures !Js.IsSpace(s[k]) {
        if k < i {
          assert s[k] == s[..i][k];
        } else if k > i {
          assert s[k] == s[i + 1..][k - i - 1];
        }
      }
    }
    if EmailShape(s) {
      var i :| 0 < i < |s| - 1 && s[i] == '@';
      assert NoSpace(s[..i]) && NoSpace(s[i + 1..]);
    }
  }

  /** `/^\S+@\S+$/.test(s)`, in one pass over the string: the test the
      email validator applies. */
  method TestEmail(s: string) returns (ok: bool)
    ensures ok <==> PatternMatches(s)
    ensures ok <==> EmailError(s).None?
  {
    var blank := false;
    var at := false;
    var i := 0;
    while i < |s|
      invariant 0 <= i <= |s|
      invariant blank <==> exists k :: 0 <= k < i && Js.IsSpace(s[k])
      invariant at <==> exists k :: 0 < k < i && k < |s| - 1 && s[k] == '@'
    {
      if Js.IsSpace(s[i]) {
        blank := true;
      }
      if 0 < i < |s| - 1 && s[i] == '@' {
        at := true;
      }
      i := i + 1;
    }
    ok := !blank && at;
    PatternIsShape(s);
  }

  /** The email validator, stated through the shape the pattern accepts. */
  function EmailError(v: string): (r: Option<string>)
    ensures r.None? <==> PatternMatches(v)
    ensures r.Some? ==> r.value == EmailInvalid
  {
    PatternIsShape(v);
    if EmailShape(v) then None else Some(EmailInvalid)
  }

  lemma EmailExamples()
    ensures EmailError("a@b").None?
    ensures EmailError("a@@b").None?
    ensures EmailError("@ab").Some? && EmailError("ab@").Some?
    ensures EmailError("a b@c").Some?
  {
    assert "a@b"[1] == '@';
    assert "a@@b"[1] == '@';
    assert Js.IsSpace("a b@c"[1]);
  }

  // ---------------------------------------------------------------------
  // The whole form

  /** Every validator's verdict, field by field. */
  datatype Errors = Errors(
    firstname: Option<string>,
    lastname: Option<string>,
    email: Option<string>,
    phone: Option<string>,
    partySize: Option<string>)

  /** The names and the phone are judged by their trimmed length in UTF-16
      code units, which is their non-blank span when they hold no character
      above U+FFFF. */
  function Validate(v: Values): (e: Errors)
    ensures NonBlankSpan(v.firstname, 2) ==> e.firstname.None?
    ensures Js.NoAstral(v.firstname) ==> (e.firstname.None? <==> NonBlankSpan(v.firstname, 2))
    ensures NonBlankSpan(v.lastname, 2) ==> e.lastname.None?
    ensures Js.NoAstral(v.lastname) ==> (e.lastname.None? <==> NonBlankSpan(v.lastname, 2))
    ensures e.email.None? <==> PatternMatches(v.email)
    ensures NonBlankSpan(v.phone, 10) ==> e.phone.None?
    ensures Js.NoAstral(v.phone) ==> (e.phone.None? <==> NonBlankSpan(v.phone, 10))
  {
    Errors(FirstNameError(v.firstname), LastNameError(v.lastname), EmailError(v.email),
           PhoneError(v.phone), PartySizeError(v.partySize))
  }

  /** The form submits only when no validator objects; the date and time are not validated. */
  predicate Submittable(v: Values) {
    var e := Validate(v);
    e.firstname.None? && e.lastname.None? && e.email.None? && e.phone.None? && e.partySize.None?
  }

  /** The initial party size passes, while the initial names, email and phone do not. */
  lemma InitialValidity()
    ensures Validate(Initial()).partySize.None?
    ensures Validate(Initial()).firstname == Some(FirstNameShort)
    ensures Validate(Initial()).lastname == Some(LastNameShort)
    ensures Validate(Initial()).email == Some(EmailInvalid)
    ensures Validate(Initial()).phone == Some(PhoneInvalid)
    ensures !Submittable(Initial())
  {
  }

  /** The form's state: its values, and whether the thank-you page shows. */
  datatype Form = Form(values: Values, submitted: bool)

  /** How the POST ended: an ok response, another response, or a thrown error. */
  datatype Reply = Ok | NotOk | Thrown

  /** What submitting does to the form, and whether the dialog closes. An
      invalid form sends nothing; an ok reply resets the values, shows the
      thank-you page and closes; any other reply keeps everything. */
  function Submit(f: Form, reply: Reply): (out: (Form, bool))
    ensures out.1 <==> Submittable(f.values) && reply.Ok?
    ensures out.1 ==> out.0 == Form(Initial(), true)
    ensures !out.1 ==> out.0 == f
  {
    if Submittable(f.values) && reply.Ok? then (Form(Initial(), true), true) else (f, false)
  }

  /** The JSON body the form posts: `JSON.stringify(values)` read back by the server. */
  function Payload(v: Values): (o: Js.Object)
    ensures Js.Get(o, "partySize") == v.partySize && Js.Get(o, "firstname") == Js.Str(v.firstname)
  {
    map["firstname" := Js.Str(v.firstname), "lastname" := Js.Str(v.lastname),
        "email" := Js.Str(v.email), "phone" := Js.Str(v.phone), "date" := v.date,
        "time" := v.time, "partySize" := v.partySize, "specialRequests" := Js.Str(v.specialRequests)]
  }

  /** The form's body carries no `name`, `size`, `startTime` or `endTime`, so
      the POST of the TypeScript reservation router refuses it with 400 and
      stores nothing, however the form was filled in. */
  lemma PayloadRefusedByTypedRoute(v: Values, db: Store.Db, id: string, now: int, tz: int)
    requires Models.IsObjectId(id)
    ensures ReservationTsRoutes.Create(db, Payload(v), id, now, tz).0.status == 400
    ensures ReservationTsRoutes.Create(db, Payload(v), id, now, tz).1 == db
  {
    var o := Payload(v);
    assert "name" !in o by {
      assert forall k | k in o.Keys :: |k| > 0 && k[0] != 'n';
    }
  }
}

=== FILE: reservation_routes.dfy ===
/** The reservation routes of the JavaScript server: the cached listing, the
    date-range query, creation from the booking form's fields, and the table
    assignment. Every exception a handler catches becomes a 500 response; the
    handlers themselves never throw. */
module ReservationRoutes {
  import opened Wrappers
  import Js
  import Dates
  import Seqs
  import opened Models
  import opened Store
  import Cache
  import opened Http

  /** The kind under which the reservation list is cached. */
  const Kind: string := "reservation"

  /** Every reservation created here lasts two hours. */
  const Duration: int := 2 * Dates.MsPerHour

  const ListFailed: string := "Failed to fetch reservations"
  const RangeMissing: string := "Start date and end date are required"
  const RangeFailed: string := "Failed to fetch reservations by date range"
  const CreateFailed: string := "Failed to create reservation"
  const PatchMissing: string := "Missing required fields: reservationId and tableNum"
  const PatchNotNumber: string := "tableNum must be a valid non-negative number"
  const PatchNotFound: string := "Reservation not found"
  const PatchFailed: string := "Failed to update reservation"

  /** The response a handler sends and the database and cache it leaves behind. */
  datatype Outcome = Outcome(response: Response, db: Db, cache: Cache.Store)

  // ---------------------------------------------------------------------
  // GET /

  /** Cache-aside listing: a cached list is sent as it is; on a miss every
      reservation is read, sorted by start time, cached for five minutes and sent. */
  function GetAll(db: Db, cache: Cache.Store, now: int): (out: Outcome)
    ensures out.db == db
    ensures Cache.Fetch(cache, Kind, now).Some? ==>
              out == Outcome(Response(Ok, Reservations(Cache.Fetch(cache, Kind, now).value)), db, cache)
    ensures Cache.Fetch(cache, Kind, now).None? && db.up ==>
              && out.response.status == Ok && out.response.body.Reservations?
              && Seqs.SortedBy(out.response.body.reservations, StartOf)
              && multiset(out.response.body.reservations) == multiset(db.reservations)
              && out.cache == Cache.Put(cache, Kind, out.response.body.reservations, Cache.DefaultTtl, now).1
    ensures Cache.Fetch(cache, Kind, now).None? && !db.up ==> out == Outcome(Fail(ServerError, ListFailed), db, cache)
  {
    match Cache.Fetch(cache, Kind, now)
    case Some(cached) => Outcome(Response(Ok, Reservations(cached)), db, cache)
    case None =>
      match AllReservations(db)
      case Failure(_) => Outcome(Fail(ServerError, ListFailed), db, cache)
      case Success(all) =>
        var written := Cache.Put(cache, Kind, all, Cache.DefaultTtl, now);
        Outcome(Response(Ok, Reservations(all)), db, written.1)
  }

  /** Once a listing has been cached, the same list is sent for the next five
      minutes whatever happens to the database in between. */
  lemma ListingServedFromCache(db: Db, cache: Cache.Store, now: int, later: Db, at: int)
    requires Cache.Fetch(cache, Kind, now).None? && db.up && cache.up
    requires now <= at <= now + Cache.DefaultTtl * 1000
    ensures GetAll(later, GetAll(db, cache, now).cache, at).response == GetAll(db, cache, now).response
  {
    var all := AllReservations(db).value;
    Cache.FetchAfterPut(cache, Kind, all, Cache.DefaultTtl, now, at, "");
  }

  // ---------------------------------------------------------------------
  // GET /range

  /** `?startDate=..&endDate=..`: both must be present and truthy; the values
      go to the query as they are, so one that is not a date makes the query
      throw and the handler answer 500. */
  function Range(db: Db, query: Js.Object, tz: int): (r: Response)
    ensures var lo, hi := Js.Get(query, "startDate"), Js.Get(query, "endDate");
            && (r.status == BadRequest <==> !Js.Truthy(lo) || !Js.Truthy(hi))
            && (r.status == Ok <==> Js.Truthy(lo) && Js.Truthy(hi)
                                    && ReservationsByDateRange(db, Json(lo), Json(hi), tz).Success?)
            && (r.status == Ok ==> r.body == Reservations(ReservationsByDateRange(db, Json(lo), Json(hi), tz).value))
            && (r.status != Ok && r.status != BadRequest ==> r == Fail(ServerError, RangeFailed))
  {
    var lo, hi := Js.Get(query, "startDate"), Js.Get(query, "endDate");
    if !Js.Truthy(lo) || !Js.Truthy(hi) then Fail(BadRequest, RangeMissing)
    else
      match ReservationsByDateRange(db, Json(lo), Json(hi), tz)
      case Failure(_) => Fail(ServerError, RangeFailed)
      case Success(rs) => Response(Ok, Reservations(rs))
  }

  /** With bounds that cast to the instants `lo` and `hi`, the answer is
      exactly the reservations starting within the bounds, both included, in
      order of start time. */
  lemma RangeOfDates(db: Db, a: string, b: string, lo: int, hi: int, tz: int)
    requires db.up && |a| > 0 && |b| > 0
    requires CastDate(Json(Js.Str(a)), "startTime", tz) == Success(Some(lo))
    requires CastDate(Json(Js.Str(b)), "startTime", tz) == Success(Some(hi))
    ensures var r := Range(db, map["startDate" := Js.Str(a), "endDate" := Js.Str(b)], tz);
            && r == Response(Ok, Reservations(Between(db.reservations, StartOf, lo, hi)))
            && (forall x :: x in r.body.reservations <==> x in db.reservations && lo <= x.startTime <= hi)
  {
    var query := map["startDate" := Js.Str(a), "endDate" := Js.Str(b)];
    assert Js.Get(query, "startDate") == Js.Str(a) && Js.Get(query, "endDate") == Js.Str(b);
    BetweenMembership(db.reservations, StartOf, lo, hi);
  }

  /** The same for bounds written by `toISOString()`, as the floor plan sends them. */
  lemma RangeOfIsoBounds(db: Db, lo: int, hi: int, tz: int)
    requires db.up && Dates.InRange(lo) && Dates.InRange(hi)
    ensures var r := Range(db, map["startDate" := Js.Str(Dates.ToIsoString(lo)), "endDate" := Js.Str(Dates.ToIsoString(hi))], tz);
            && r == Response(Ok, Reservations(Between(db.reservations, StartOf, lo, hi)))
            && (forall x :: x in r.body.reservations <==> x in db.reservations && lo <= x.startTime <= hi)
  {
    CastDateOfIso(lo, "startTime", tz);
    CastDateOfIso(hi, "startTime", tz);
    Dates.IsoEndsWithZ(lo);
    Dates.IsoEndsWithZ(hi);
    RangeOfDates(db, Dates.ToIsoString(lo), Dates.ToIsoString(hi), lo, hi, tz);
  }

  /** Bounds that are not dates are not rejected with a 400: the check for
      them is commented out, so the cast error surfaces as a 500. */
  lemma RangeOfWordsFails(db: Db, tz: int)
    ensures Range(db, map["startDate" := Js.Str("today"), "endDate" := Js.Str("today")], tz) == Fail(ServerError, RangeFailed)
  {
    var query := map["startDate" := Js.Str("today"), "endDate" := Js.Str("today")];
    assert Js.Get(query, "startDate") == Js.Str("today") && Js.Get(query, "endDate") == Js.Str("today");
    assert ReservationsByDateRange(db, Json(Js.Str("today")), Json(Js.Str("today")), tz).Failure? by {
      TodayIsNotDate(tz);
    }
  }

  /** "today" is neither a number nor a date, so a `Date` path does not cast it. */
  lemma TodayIsNotDate(tz: int)
    ensures CastDate(Json(Js.Str("today")), "startTime", tz).Failure?
  {
    var s := "today";
    assert s[0] == 't' && s[|s| - 1] == 'y';
    CastDateOfWord(s, "startTime", tz);
  }

  // ---------------------------------------------------------------------
  // POST /create

  /** The local calendar date of an instant as `${year}-${MM}-${DD}` from
      `getFullYear()`, `getMonth() + 1` and `getDate()`; each of them is NaN
      for an invalid date. */
  function LocalDateString(t: Option<int>, tz: int): string {
    match t
    case None => "NaN-NaN-NaN"
    case Some(t) =>
      var c := Dates.LocalCivil(t, tz);
      Js.IntToString(c.year) + "-" + Js.PadStart(Js.NatToString(c.month), 2, '0')
        + "-" + Js.PadStart(Js.NatToString(c.day), 2, '0')
  }

  /** The form's date: a full timestamp (one containing "T") becomes its local
      calendar date, anything else is taken to be `YYYY-MM-DD` already. */
  function NormalizeDate(date: string, tz: int): string {
    if 'T' in date then LocalDateString(Dates.ParseDate(date, tz), tz) else date
  }

  /** The start time as the handler writes it: the date and the form's clock
      time, labelled as UTC. */
  function StartString(date: string, time: Js.Value): string {
    date + "T" + Js.ToString(time) + ":00.000Z"
  }

  /** The object handed to `insertReservation`. */
  function Draft(body: Js.Object, startTime: string, endTime: string): Doc {
    map[
      "name" := Json(Js.Str(Js.ToString(Js.Get(body, "firstname")) + " " + Js.ToString(Js.Get(body, "lastname")))),
      "email" := Json(Js.Or(Js.Get(body, "email"), Js.Str(""))),
      "phone" := Json(Js.Or(Js.Get(body, "phone"), Js.Str(""))),
      "tableNum" := Json(Js.Null),
      "size" := Json(Js.Get(body, "partySize")),
      "startTime" := Json(Js.Str(startTime)),
      "endTime" := Json(Js.Str(endTime)),
      "comments" := Json(Js.Or(Js.Get(body, "specialRequests"), Js.Str("")))]
  }

  /** The values the draft hands to each schema path. The phone number is
      sent under `phone`, which is not a path, so `phoneNumber` is absent. */
  lemma DraftFields(body: Js.Object, startTime: string, endTime: string)
    ensures var d := Draft(body, startTime, endTime);
            && Field(d, "name") == Json(Js.Str(Js.ToString(Js.Get(body, "firstname")) + " " + Js.ToString(Js.Get(body, "lastname"))))
            && Field(d, "email") == Json(Js.Or(Js.Get(body, "email"), Js.Str("")))
            && Field(d, "phoneNumber") == Json(Js.Undefined)
            && Field(d, "tableNum") == Json(Js.Null)
            && Field(d, "size") == Json(Js.Get(body, "partySize"))
            && Field(d, "startTime") == Json(Js.Str(startTime))
            && Field(d, "endTime") == Json(Js.Str(endTime))
            && Field(d, "comments") == Json(Js.Or(Js.Get(body, "specialRequests"), Js.Str("")))
            && "createdAt" !in d && "updatedAt" !in d
  {
    var d := Draft(body, startTime, endTime);
    assert "phoneNumber" !in d.Keys by {
      assert forall k | k in d.Keys :: |k| != 11;
    }
    assert forall k | k in d.Keys :: |k| != 9 || k[0] == 's';
  }

  /** The start string and the instant it denotes, when the date is a string,
      the start string parses and the end, two hours later, is still a valid
      instant: otherwise `includes` or `toISOString` throws. */
  function Schedule(body: Js.Object, tz: int): (r: Option<(string, int)>)
    ensures r.Some? ==> Js.Get(body, "date").Str?
                        && r.value.0 == StartString(NormalizeDate(Js.Get(body, "date").s, tz), Js.Get(body, "time"))
                        && Dates.ParseDate(r.value.0, tz) == Some(r.value.1)
                        && Dates.InRange(r.value.1 + Duration)
  {
    var date := Js.Get(body, "date");
    if !date.Str? then None
    else
      var startTime := StartString(NormalizeDate(date.s, tz), Js.Get(body, "time"));
      match Dates.ParseDate(startTime, tz)
      case None => None
      case Some(start) => if Dates.InRange(start + Duration) then Some((startTime, start)) else None
  }

  /** Create a two-hour reservation from the booking form's fields, then
      re-read every reservation into the cache. A date that is not a string,
      a start that is not a valid date, an end past the last valid instant,
      and a document Mongoose refuses all end in a 500 with nothing stored. */
  function Create(db: Db, cache: Cache.Store, body: Js.Object, id: string, now: int, tz: int): (out: Outcome)
    requires IsObjectId(id)
    ensures out.response.status == Created || out.response == Fail(ServerError, CreateFailed)
    ensures out.response.status == Created ==>
              out.response.body.OneReservation?
              && out.db == db.(reservations := db.reservations + [out.response.body.reservation])
    ensures out.response.status != Created ==> out.db == db && out.cache == cache
    ensures !Js.Get(body, "date").Str? ==> out.response.status == ServerError
    ensures out.response.status == Created <==>
              && Schedule(body, tz).Some?
              && InsertReservation(db, Draft(body, Schedule(body, tz).value.0,
                                             Dates.ToIsoString(Schedule(body, tz).value.1 + Duration)), id, now, tz).0.Success?
    ensures Valid(db) ==> Valid(out.db)
  {
    var schedule := Schedule(body, tz);
    if schedule.None? then Outcome(Fail(ServerError, CreateFailed), db, cache)
    else
      var draft := Draft(body, schedule.value.0, Dates.ToIsoString(schedule.value.1 + Duration));
      var inserted := InsertReservation(db, draft, id, now, tz);
      if inserted.0.Failure? then Outcome(Fail(ServerError, CreateFailed), db, cache)
      else
        var all := AllReservations(inserted.1).value;
        var written := Cache.Put(cache, Kind, all, Cache.DefaultTtl, now);
        Outcome(Response(Created, OneReservation(inserted.0.value)), inserted.1, written.1)
  }

  /** The booking form's fields for Ada Lovelace, a party of two, on
      1 June 2025 at 19:00. */
  function SampleBooking(): Js.Object {
    map["firstname" := Js.Str("Ada"), "lastname" := Js.Str("Lovelace"), "partySize" := Js.Num(Js.Finite(2.0)),
        "date" := Js.Str("2025-06-01"), "time" := Js.Str("19:00")]
  }

  /** The sample's start string is 19:00 UTC on 1 June 2025, in every zone. */
  lemma SampleSchedule(tz: int)
    ensures Schedule(SampleBooking(), tz) == Some(("2025-06-01T19:00:00.000Z", 1_748_804_400_000))
  {
    var body := SampleBooking();
    assert Js.Get(body, "date") == Js.Str("2025-06-01") && Js.Get(body, "time") == Js.Str("19:00");
    assert NormalizeDate("2025-06-01", tz) == "2025-06-01" by {
      assert 'T' !in "2025-06-01";
    }
    assert StartString("2025-06-01", Js.Str("19:00")) == "2025-06-01T19:00:00.000Z";
    SampleStartParses(tz);
    assert Dates.InRange(1_748_804_400_000 + Duration);
  }

  lemma SampleStartParses(tz: int)
    ensures Dates.ParseDate("2025-06-01T19:00:00.000Z", tz) == Some(1_748_804_400_000)
  {
    var c := Dates.Civil(2025, 6, 1);
    SampleDateString();
    SampleTimeString();
    Dates.ParseDateTime(c, 68_400_000, tz);
    SampleJoin();
  }

  lemma SampleJoin()
    ensures "2025-06-01" + "T19:00:00.000Z" == "2025-06-01T19:00:00.000Z"
  {
  }

  lemma SampleDateString()
    ensures Dates.DateString(Dates.Civil(2025, 6, 1)) == "2025-06-01"
    ensures Dates.DaysFromCivil(Dates.Civil(2025, 6, 1)) == 20240
  {
    assert Dates.Pad(2025, 4) == "2025" && Dates.Pad(6, 2) == "06" && Dates.Pad(1, 2) == "01";
  }

  lemma SampleTimeString()
    ensures Dates.TimeString(68_400_000) == "T19:00:00.000Z"
  {
    var ms := 68_400_000;
    assert ms / Dates.MsPerHour == 19 && ms / Dates.MsPerMinute % 60 == 0;
    assert ms / Dates.MsPerSecond % 60 == 0 && ms % Dates.MsPerSecond == 0;
    SamplePads();
    assert Dates.TimeString(ms) == "T" + ("19" + (":" + ("00" + (":" + ("00" + ("." + ("000" + "Z")))))));
  }

  lemma SamplePads()
    ensures Dates.Pad(19, 2) == "19" && Dates.Pad(0, 2) == "00" && Dates.Pad(0, 3) == "000"
  {
  }

  /** The sample booking, with the store up and the id free, is a 201. */
  lemma SampleBookingCreated(db: Db, cache: Cache.Store, id: string, now: int, tz: int)
    requires IsObjectId(id) && db.up && Seqs.IndexOf(db.reservations, ReservationId, id).None?
    ensures Create(db, cache, SampleBooking(), id, now, tz).response.status == Created
  {
    SampleSchedule(tz);
    SampleFields();
    CreateSucceeds(db, cache, SampleBooking(), id, now, tz);
  }

  lemma SampleFields()
    ensures Js.Get(SampleBooking(), "partySize") == Js.Num(Js.Finite(2.0))
    ensures Js.Get(SampleBooking(), "email") == Js.Undefined
    ensures Js.Get(SampleBooking(), "specialRequests") == Js.Undefined
  {
  }

  /** A booking whose date and time schedule a start, whose party size is a
      number of at least one and whose email and special requests are no
      objects is stored, when the store is up and the id is free. */
  lemma CreateSucceeds(db: Db, cache: Cache.Store, body: Js.Object, id: string, now: int, tz: int)
    requires IsObjectId(id) && db.up && Seqs.IndexOf(db.reservations, ReservationId, id).None?
    requires Schedule(body, tz).Some?
    requires Js.Get(body, "partySize").Num? && !Js.Get(body, "partySize").n.NaN?
             && !Js.LessThan(Js.Get(body, "partySize").n, Js.Finite(1.0))
    requires Js.Get(body, "email") != Js.Obj && Js.Get(body, "specialRequests") != Js.Obj
    ensures Create(db, cache, body, id, now, tz).response.status == Created
  {
    var (startTime, start) := Schedule(body, tz).value;
    var endTime := Dates.ToIsoString(start + Duration);
    assert startTime[|startTime| - 1] == 'Z';
    CastDateOfZoned(startTime, "startTime", tz);
    CastDateOfIso(start + Duration, "endTime", tz);
    DraftCastSucceeds(body, startTime, endTime, id, now, tz, start, start + Duration);
  }

  /** A draft passes the schema when both time strings cast to instants, the
      party size is a number of at least one, and neither the email nor the
      special requests is an object; the saved times are those instants. */
  lemma DraftCastSucceeds(body: Js.Object, startTime: string, endTime: string, id: string, now: int, tz: int,
                          start: int, end: int)
    requires IsObjectId(id)
    requires CastDate(Json(Js.Str(startTime)), "startTime", tz) == Success(Some(start))
    requires CastDate(Json(Js.Str(endTime)), "endTime", tz) == Success(Some(end))
    requires Js.Get(body, "partySize").Num? && !Js.Get(body, "partySize").n.NaN?
             && !Js.LessThan(Js.Get(body, "partySize").n, Js.Finite(1.0))
    requires Js.Get(body, "email") != Js.Obj && Js.Get(body, "specialRequests") != Js.Obj
    ensures CastReservation(Draft(body, startTime, endTime), id, now, tz).Success?
    ensures CastReservation(Draft(body, startTime, endTime), id, now, tz).value.startTime == start
    ensures CastReservation(Draft(body, startTime, endTime), id, now, tz).value.endTime == end
  {
    var d := Draft(body, startTime, endTime);
    DraftFields(body, startTime, endTime);
    StampOfFresh(d, now, tz);
    assert |Js.ToString(Js.Get(body, "firstname")) + " " + Js.ToString(Js.Get(body, "lastname"))| > 0;
    CastReservationSucceeds(d, id, now, tz);
  }

  /** A created reservation starts at the instant its start string denotes
      and ends exactly two hours later. */
  lemma CreateWindow(db: Db, cache: Cache.Store, body: Js.Object, id: string, now: int, tz: int)
    requires IsObjectId(id)
    requires Create(db, cache, body, id, now, tz).response.status == Created
    ensures var r := Create(db, cache, body, id, now, tz).response.body.reservation;
            && Js.Get(body, "date").Str?
            && Dates.ParseDate(StartString(NormalizeDate(Js.Get(body, "date").s, tz), Js.Get(body, "time")), tz) == Some(r.startTime)
            && r.endTime == r.startTime + Duration
  {
    var (startTime, start) := Schedule(body, tz).value;
    var endTime := Dates.ToIsoString(start + Duration);
    var draft := Draft(body, startTime, endTime);
    var r := Create(db, cache, body, id, now, tz).response.body.reservation;
    assert CastReservation(draft, id, now, tz) == Success(r);
    DraftFields(body, startTime, endTime);
    CastDateOfZoned(startTime, "startTime", tz);
    CastDateOfIso(start + Duration, "endTime", tz);
  }

  /** What a created reservation holds besides its times: the two names joined
      by a space (`"undefined undefined"` when both are missing), an email and
      comments always present, no table, and no phone number — the handler
      sends it under `phone`, a key the schema does not have. */
  lemma CreateFields(db: Db, cache: Cache.Store, body: Js.Object, id: string, now: int, tz: int)
    requires IsObjectId(id)
    requires Create(db, cache, body, id, now, tz).response.status == Created
    ensures var r := Create(db, cache, body, id, now, tz).response.body.reservation;
            && r.id == id && r.createdAt == now
            && r.name == Js.ToString(Js.Get(body, "firstname")) + " " + Js.ToString(Js.Get(body, "lastname"))
            && r.tableNum.None? && r.phoneNumber.None?
            && r.email == Some(Js.ToLower(Js.ToString(Js.Or(Js.Get(body, "email"), Js.Str("")))))
            && r.comments == Some(Js.Trim(Js.ToString(Js.Or(Js.Get(body, "specialRequests"), Js.Str("")))))
  {
    var startTime, endTime := CreatedFromDraft(db, cache, body, id, now, tz);
    DraftCast(body, startTime, endTime, id, now, tz);
  }

  /** The reservation `Create` stores is the schema's cast of the draft built
      from the start and end strings. */
  lemma CreatedFromDraft(db: Db, cache: Cache.Store, body: Js.Object, id: string, now: int, tz: int)
      returns (startTime: string, endTime: string)
    requires IsObjectId(id)
    requires Create(db, cache, body, id, now, tz).response.status == Created
    ensures CastReservation(Draft(body, startTime, endTime), id, now, tz)
            == Success(Create(db, cache, body, id, now, tz).response.body.reservation)
  {
    startTime := Schedule(body, tz).value.0;
    endTime := Dates.ToIsoString(Schedule(body, tz).value.1 + Duration);
  }

  /** The fields of any draft's cast, whatever its start and end strings. */
  lemma DraftCast(body: Js.Object, startTime: string, endTime: string, id: string, now: int, tz: int)
    requires IsObjectId(id) && CastReservation(Draft(body, startTime, endTime), id, now, tz).Success?
    ensures var r := CastReservation(Draft(body, startTime, endTime), id, now, tz).value;
            && r.id == id && r.createdAt == now
            && r.name == Js.ToString(Js.Get(body, "firstname")) + " " + Js.ToString(Js.Get(body, "lastname"))
            && r.tableNum.None? && r.phoneNumber.None?
            && r.email == Some(Js.ToLower(Js.ToString(Js.Or(Js.Get(body, "email"), Js.Str("")))))
            && r.comments == Some(Js.Trim(Js.ToString(Js.Or(Js.Get(body, "specialRequests"), Js.Str("")))))
  {
    DraftFields(body, startTime, endTime);
    StampOfFresh(Draft(body, startTime, endTime), now, tz);
    CastReservationFields(Draft(body, startTime, endTime), id, now, tz);
    DefaultedCast(Js.Get(body, "email"), "email");
    DefaultedCast(Js.Get(body, "specialRequests"), "comments");
  }

  /** `x || ""` is never null or undefined, so a String path that accepts it
      holds its string form. */
  lemma DefaultedCast(x: Js.Value, path: string)
    requires CastString(Json(Js.Or(x, Js.Str(""))), path).Success?
    ensures CastString(Json(Js.Or(x, Js.Str(""))), path) == Success(Some(Js.ToString(Js.Or(x, Js.Str("")))))
  {
  }

  /** A party size below one, or none at all, is refused by the schema and
      nothing is stored. */
  lemma CreateRejectsSmallParty(db: Db, cache: Cache.Store, body: Js.Object, id: string, now: int, tz: int)
    requires IsObjectId(id)
    requires Js.Get(body, "partySize") == Js.Undefined
             || (Js.Get(body, "partySize").Num? && Js.LessThan(Js.Get(body, "partySize").n, Js.Finite(1.0)))
    ensures Create(db, cache, body, id, now, tz) == Outcome(Fail(ServerError, CreateFailed), db, cache)
  {
    if Schedule(body, tz).Some? {
      var (startTime, start) := Schedule(body, tz).value;
      var endTime := Dates.ToIsoString(start + Duration);
      var draft := Draft(body, startTime, endTime);
      DraftFields(body, startTime, endTime);
      CastReservationNeedsSize(draft, id, now, tz);
      assert InsertReservation(db, draft, id, now, tz).0.Failure?;
    }
  }

  /** After a creation the cache holds every stored reservation, the new one
      included, in order of start time, for the next five minutes. */
  lemma CreateRefreshesCache(db: Db, cache: Cache.Store, body: Js.Object, id: string, now: int, tz: int, at: int)
    requires IsObjectId(id) && cache.up
    requires Create(db, cache, body, id, now, tz).response.status == Created
    requires now <= at <= now + Cache.DefaultTtl * 1000
    ensures var out := Create(db, cache, body, id, now, tz);
            && Cache.Fetch(out.cache, Kind, at).Some?
            && Seqs.SortedBy(Cache.Fetch(out.cache, Kind, at).value, StartOf)
            && multiset(Cache.Fetch(out.cache, Kind, at).value) == multiset(out.db.reservations)
            && out.response.body.reservation in Cache.Fetch(out.cache, Kind, at).value
  {
    var out := Create(db, cache, body, id, now, tz);
    var all := AllReservations(out.db).value;
    Cache.FetchAfterPut(cache, Kind, all, Cache.DefaultTtl, now, at, "");
    assert out.response.body.reservation in multiset(out.db.reservations);
  }

  /** A full timestamp is replaced by its local calendar date, written as
      `toISOString` writes dates, for every year of four digits. */
  lemma NormalizeTimestamp(t: int, tz: int)
    requires Dates.InRange(t)
    requires 1000 <= Dates.LocalCivil(t, tz).year <= 9999
    ensures NormalizeDate(Dates.ToIsoString(t), tz) == Dates.DateString(Dates.LocalCivil(t, tz))
  {
    Dates.IsoHasT(t);
    Dates.IsoRoundTrip(t, tz);
    Dates.FourDigitDate(Dates.LocalCivil(t, tz));
  }

  /** A plain `YYYY-MM-DD` date is kept as it is. */
  lemma NormalizePlainDate(c: Dates.Civil, tz: int)
    requires c.month >= 1 && c.day >= 1
    ensures NormalizeDate(Dates.DateString(c), tz) == Dates.DateString(c)
  {
    Dates.DateStringHasNoT(c);
  }

  /** The start string of a clock time `HH:mm` is the date followed by that
      time of day as `toISOString` writes it. */
  lemma StartStringOfClock(day: string, h: nat, m: nat)
    requires h < 24 && m < 60
    ensures 0 <= Dates.ClockMs(h, m) < Dates.MsPerDay
    ensures StartString(day, Js.Str(Dates.Pad(h, 2) + ":" + Dates.Pad(m, 2))) == day + Dates.TimeString(Dates.ClockMs(h, m))
  {
    var clock := Dates.Pad(h, 2) + ":" + Dates.Pad(m, 2);
    Dates.ClockTimeString(h, m);
    assert Js.ToString(Js.Str(clock)) == clock;
    Seqs.Regroup(day, "T", clock, ":00.000Z", []);
  }

  /** The form's clock time `HH:mm` on a date is read as that time of that
      day in UTC, whatever the server's time zone. */
  lemma StartAtClockTime(c: Dates.Civil, h: nat, m: nat, tz: int)
    requires Dates.ValidCivil(c) && -999999 <= c.year <= 999999 && h < 24 && m < 60
    ensures var t := Dates.DaysFromCivil(c) * Dates.MsPerDay + Dates.ClockMs(h, m);
            Dates.ParseDate(StartString(Dates.DateString(c), Js.Str(Dates.Pad(h, 2) + ":" + Dates.Pad(m, 2))), tz)
            == if Dates.InRange(t) then Some(t) else None
  {
    StartStringOfClock(Dates.DateString(c), h, m);
    Dates.ParseDateTime(c, Dates.ClockMs(h, m), tz);
  }
  // ---------------------------------------------------------------------
  // PATCH /updateReservation

  /** Why a PATCH request is refused before the database is asked, if it is. */
  function PatchCheck(body: Js.Object): Option<string> {
    var id, tableNum := Js.Get(body, "reservationId"), Js.Get(body, "tableNum");
    if !Js.Truthy(id) || tableNum == Js.Undefined then Some(PatchMissing)
    else if !tableNum.Num? || Js.LessThan(tableNum.n, Js.Finite(0.0)) then Some(PatchNotNumber)
    else None
  }

  /** Assign a table number to one reservation. Only the type and sign of the
      number are checked: not that such a table exists, nor its capacity, nor
      other reservations at that table. The cached listing is left as it is. */
  function Patch(db: Db, cache: Cache.Store, body: Js.Object, now: int): (out: Outcome)
    ensures out.cache == cache
    ensures Valid(db) ==> Valid(out.db)
    ensures PatchCheck(body).Some? ==> out == Outcome(Fail(BadRequest, PatchCheck(body).value), db, cache)
    ensures out.response.status == Ok ==>
              out.response.body.OneReservation? && out.db == UpdateTableNum(db, Js.Get(body, "reservationId"), Js.Get(body, "tableNum"), now).1
    ensures out.response.status != Ok ==> out.db == db
    ensures out.response.status == BadRequest <==> PatchCheck(body).Some?
    ensures PatchCheck(body).None? ==>
              var found := UpdateTableNum(db, Js.Get(body, "reservationId"), Js.Get(body, "tableNum"), now).0;
              && (out.response == Fail(NotFound, PatchNotFound) <==> found == Success(None))
              && (out.response == Fail(ServerError, PatchFailed) <==> found.Failure?)
              && (out.response.status == Ok <==> found.Success? && found.value.Some?)
              && (out.response.status == Ok ==> out.response.body == OneReservation(found.value.value))
  {
    if PatchCheck(body).Some? then Outcome(Fail(BadRequest, PatchCheck(body).value), db, cache)
    else
      var updated := UpdateTableNum(db, Js.Get(body, "reservationId"), Js.Get(body, "tableNum"), now);
      match updated.0
      case Failure(_) => Outcome(Fail(ServerError, PatchFailed), db, cache)
      case Success(None) => Outcome(Fail(NotFound, PatchNotFound), db, cache)
      case Success(Some(r)) => Outcome(Response(Ok, OneReservation(r)), updated.1, cache)
  }

  /** The PATCH body naming reservation `id` and table `n`. */
  function PatchBody(id: string, n: real): Js.Object {
    map["reservationId" := Js.Str(id), "tableNum" := Js.Num(Js.Finite(n))]
  }

  /** Any non-negative table number is accepted for any stored reservation,
      whatever the other reservations hold: only that reservation changes, and
      only in its table number and update time. */
  lemma PatchAcceptsAnyTable(db: Db, cache: Cache.Store, id: string, i: nat, n: real, now: int)
    requires db.up && IsObjectId(id) && n >= 0.0
    requires i < |db.reservations| && db.reservations[i].id == id
    requires Valid(db)
    ensures var out := Patch(db, cache, PatchBody(id, n), now);
            && out.response == Response(Ok, OneReservation(db.reservations[i].(tableNum := Some(Js.Finite(n)), updatedAt := now)))
            && out.db == db.(reservations := db.reservations[i := out.response.body.reservation])
  {
    var body := PatchBody(id, n);
    assert Js.Get(body, "reservationId") == Js.Str(id) && Js.Get(body, "tableNum") == Js.Num(Js.Finite(n));
    CastObjectIdCanonical(id);
    var found := Seqs.IndexOf(db.reservations, ReservationId, id);
    assert ReservationId(db.reservations[i]) == id;
    assert found.Some? && found.value == i;
  }

  /** A well-formed request for an id that no stored reservation has is a
      404, and nothing changes. */
  lemma PatchUnknownIdNotFound(db: Db, cache: Cache.Store, id: string, n: real, now: int)
    requires db.up && IsObjectId(id) && n >= 0.0
    requires forall i :: 0 <= i < |db.reservations| ==> db.reservations[i].id != id
    ensures Patch(db, cache, PatchBody(id, n), now) == Outcome(Fail(NotFound, PatchNotFound), db, cache)
  {
    var body := PatchBody(id, n);
    assert Js.Get(body, "reservationId") == Js.Str(id) && Js.Get(body, "tableNum") == Js.Num(Js.Finite(n));
    CastObjectIdCanonical(id);
    assert forall i :: 0 <= i < |db.reservations| ==> ReservationId(db.reservations[i]) != id;
  }

  /** A table number sent as a string, such as "4", is refused although the
      schema would cast it. */
  lemma PatchRefusesNumericString(db: Db, cache: Cache.Store, id: string, now: int)
    requires IsObjectId(id)
    ensures Patch(db, cache, map["reservationId" := Js.Str(id), "tableNum" := Js.Str("4")], now)
            == Outcome(Fail(BadRequest, PatchNotNumber), db, cache)
  {
    var body := map["reservationId" := Js.Str(id), "tableNum" := Js.Str("4")];
    assert Js.Get(body, "reservationId") == Js.Str(id) && Js.Get(body, "tableNum") == Js.Str("4");
  }
  // ---------------------------------------------------------------------
  // PATCH and the cached listing

  /** As written, a table assignment made while a listing is cached is not
      seen by GET / until the entry expires: the list served after the PATCH
      is the one from before it, and still shows the old table number. */
  lemma PatchLeavesListingStale(db: Db, cache: Cache.Store, id: string, i: nat, n: real, t0: int, t1: int, t2: int)
    requires db.up && cache.up && Valid(db) && IsObjectId(id) && n >= 0.0
    requires i < |db.reservations| && db.reservations[i].id == id
    requires db.reservations[i].tableNum != Some(Js.Finite(n))
    requires Cache.Fetch(cache, Kind, t0).None?
    requires t0 <= t2 <= t0 + Cache.DefaultTtl * 1000
    ensures var listed := GetAll(db, cache, t0);
            var patched := Patch(db, listed.cache, PatchBody(id, n), t1);
            var again := GetAll(patched.db, patched.cache, t2);
            && patched.response.status == Ok
            && i < |patched.db.reservations| && again.response.body.Reservations?
            && patched.db.reservations[i].tableNum == Some(Js.Finite(n))
            && again.response == listed.response
            && db.reservations[i] in again.response.body.reservations
            && patched.db.reservations[i] !in again.response.body.reservations
  {
    var listed := GetAll(db, cache, t0);
    var patched := Patch(db, listed.cache, PatchBody(id, n), t1);
    PatchAcceptsAnyTable(db, listed.cache, id, i, n, t1);
    ListingServedFromCache(db, cache, t0, patched.db, t2);
    var shown := listed.response.body.reservations;
    assert db.reservations[i] in multiset(shown);
    assert patched.db.reservations[i] !in multiset(db.reservations) by {
      UpdatedNotStored(db, i, patched.db.reservations[i]);
    }
  }

  /** A reservation with the id of the `i`-th stored one, but different from
      it, is not stored: ids are unique. */
  lemma UpdatedNotStored(db: Db, i: nat, updated: Reservation)
    requires Valid(db) && i < |db.reservations|
    requires updated.id == db.reservations[i].id && updated != db.reservations[i]
    ensures updated !in multiset(db.reservations)
  {
    forall k | 0 <= k < |db.reservations| ensures db.reservations[k] != updated {
      if k != i {
        assert ReservationId(db.reservations[k]) != ReservationId(db.reservations[i]);
      }
    }
  }

  /** PATCH as it is evidently meant to behave: like POST /create, a
      successful update re-reads every reservation and refreshes the cached
      listing. The response and the store are those of `Patch`. */
  function PatchRefreshingCache(db: Db, cache: Cache.Store, body: Js.Object, now: int): (out: Outcome)
    ensures out.response == Patch(db, cache, body, now).response
    ensures out.db == Patch(db, cache, body, now).db
    ensures out.response.status != Ok ==> out.cache == cache
  {
    var patched := Patch(db, cache, body, now);
    if patched.response.status != Ok then patched
    else
      var written := Cache.Put(cache, Kind, AllReservations(patched.db).value, Cache.DefaultTtl, now);
      patched.(cache := written.1)
  }

  /** After a successful corrected PATCH, GET / within the next five minutes
      lists exactly the stored reservations, the updated one included, sorted
      by start time. */
  lemma PatchRefreshedListingCurrent(db: Db, cache: Cache.Store, body: Js.Object, now: int, at: int)
    requires cache.up
    requires PatchRefreshingCache(db, cache, body, now).response.status == Ok
    requires now <= at <= now + Cache.DefaultTtl * 1000
    ensures var out := PatchRefreshingCache(db, cache, body, now);
            var shown := GetAll(out.db, out.cache, at).response;
            && shown.status == Ok && shown.body.Reservations?
            && Seqs.SortedBy(shown.body.reservations, StartOf)
            && multiset(shown.body.reservations) == multiset(out.db.reservations)
            && out.response.body.reservation in shown.body.reservations
  {
    var out := PatchRefreshingCache(db, cache, body, now);
    var all := AllReservations(out.db).value;
    Cache.FetchAfterPut(cache, Kind, all, Cache.DefaultTtl, now, at, "");
    var i := Seqs.IndexOf(db.reservations, ReservationId, CastObjectId(Js.Get(body, "reservationId")).value);
    assert out.db.reservations[i.value] == out.response.body.reservation;
    assert out.response.body.reservation in multiset(out.db.reservations);
  }

  /** In the scenario where the written handler serves a stale list, the
      corrected one serves the updated reservation. */
  lemma PatchRefreshedScenario(db: Db, cache: Cache.Store, id: string, i: nat, n: real, t0: int, t1: int, t2: int)
    requires db.up && cache.up && Valid(db) && IsObjectId(id) && n >= 0.0
    requires i < |db.reservations| && db.reservations[i].id == id
    requires t1 <= t2 <= t1 + Cache.DefaultTtl * 1000
    ensures var listed := GetAll(db, cache, t0);
            var patched := PatchRefreshingCache(db, listed.cache, PatchBody(id, n), t1);
            var again := GetAll(patched.db, patched.cache, t2);
            && i < |patched.db.reservations| && again.response.body.Reservations?
            && patched.db.reservations[i].tableNum == Some(Js.Finite(n))
            && patched.db.reservations[i] in again.response.body.reservations
  {
    var listed := GetAll(db, cache, t0);
    PatchAcceptsAnyTable(db, listed.cache, id, i, n, t1);
    assert listed.cache.up;
    PatchRefreshedListingCurrent(db, listed.cache, PatchBody(id, n), t1, t2);
  }
}

=== FILE: reservation_ts_routes.dfy ===
/** The reservation routes of the TypeScript server. Unlike their JavaScript
    counterparts they use no cache, check the dates before querying, and
    store the request body as it is, after checking that it names a party,
    a size and a start before its end. */
module ReservationTsRoutes {
  import opened Wrappers
  import Js
  import Dates
  import Seqs
  import opened Models
  import opened Store
  import opened Http

  const ListFailed: string := "Failed to fetch reservations"
  const RangeMissing: string := "Start date and end date are required"
  const InvalidDate: string := "Invalid date format"
  const RangeFailed: string := "Failed to fetch reservations by date range"
  const MissingFields: string := "Missing required fields"
  const EndNotAfterStart: string := "End time must be after start time"
  const CreateFailed: string := "Failed to create reservation"

  // ---------------------------------------------------------------------
  // GET /

  /** Every reservation, in order of start time, read afresh on each request. */
  function GetAll(db: Db): (r: Response)
    ensures r.status == Ok <==> db.up
    ensures r.status == Ok ==> r.body.Reservations?
                               && Seqs.SortedBy(r.body.reservations, StartOf)
                               && multiset(r.body.reservations) == multiset(db.reservations)
    ensures r.status != Ok ==> r == Fail(ServerError, ListFailed)
  {
    match AllReservations(db)
    case Failure(_) => Fail(ServerError, ListFailed)
    case Success(all) => Response(Ok, Reservations(all))
  }

  // ---------------------------------------------------------------------
  // GET /range

  /** Both bounds must be present and read as dates by `new Date`; the query
      then receives the two instants. */
  function Range(db: Db, query: Js.Object, tz: int): (r: Response)
    ensures var lo, hi := Js.Get(query, "startDate"), Js.Get(query, "endDate");
            && (r == Fail(BadRequest, RangeMissing) <==> !Js.Truthy(lo) || !Js.Truthy(hi))
            && (r == Fail(BadRequest, InvalidDate) <==>
                  Js.Truthy(lo) && Js.Truthy(hi) && (Dates.DateOf(lo, tz).None? || Dates.DateOf(hi, tz).None?))
            && (r.status == Ok <==> Js.Truthy(lo) && Js.Truthy(hi) && db.up
                                    && Dates.DateOf(lo, tz).Some? && Dates.DateOf(hi, tz).Some?)
            && (r.status == Ok ==> r.body == Reservations(Between(db.reservations, StartOf, Dates.DateOf(lo, tz).value, Dates.DateOf(hi, tz).value)))
            && (r.status != Ok && r.status != BadRequest ==> r == Fail(ServerError, RangeFailed))
  {
    var lo, hi := Js.Get(query, "startDate"), Js.Get(query, "endDate");
    if !Js.Truthy(lo) || !Js.Truthy(hi) then Fail(BadRequest, RangeMissing)
    else
      match (Dates.DateOf(lo, tz), Dates.DateOf(hi, tz))
      case (Some(a), Some(b)) =>
        (match ReservationsByDateRange(db, Date(a), Date(b), tz)
         case Failure(_) => Fail(ServerError, RangeFailed)
         case Success(rs) => Response(Ok, Reservations(rs)))
      case _ => Fail(BadRequest, InvalidDate)
  }

  /** What a successful range query answers: exactly the reservations whose
      start lies between the two instants, both included, in order of start. */
  lemma RangeAnswer(db: Db, query: Js.Object, tz: int)
    requires Range(db, query, tz).status == Ok
    ensures var lo := Dates.DateOf(Js.Get(query, "startDate"), tz).value;
            var hi := Dates.DateOf(Js.Get(query, "endDate"), tz).value;
            var rs := Range(db, query, tz).body.reservations;
            && Seqs.SortedBy(rs, StartOf)
            && (forall x :: x in rs <==> x in db.reservations && lo <= x.startTime <= hi)
  {
    var lo := Dates.DateOf(Js.Get(query, "startDate"), tz).value;
    var hi := Dates.DateOf(Js.Get(query, "endDate"), tz).value;
    BetweenMembership(db.reservations, StartOf, lo, hi);
  }

  /** A word that is no date is refused with a 400 here, where the JavaScript
      handler answers 500. */
  lemma RangeOfWordsRefused(db: Db, tz: int)
    ensures Range(db, map["startDate" := Js.Str("today"), "endDate" := Js.Str("today")], tz) == Fail(BadRequest, InvalidDate)
  {
    var query := map["startDate" := Js.Str("today"), "endDate" := Js.Str("today")];
    assert Js.Get(query, "startDate") == Js.Str("today") && Js.Get(query, "endDate") == Js.Str("today");
    assert Dates.ParseYear("today") == None;
  }

  // ---------------------------------------------------------------------
  // POST /

  /** Why a POST is refused before anything is stored, if it is. */
  function CreateCheck(body: Js.Object, tz: int): (r: Option<string>)
    ensures r.None? <==>
              && Js.Truthy(Js.Get(body, "name")) && Js.Truthy(Js.Get(body, "size"))
              && Js.Truthy(Js.Get(body, "startTime")) && Js.Truthy(Js.Get(body, "endTime"))
              && Dates.DateOf(Js.Get(body, "startTime"), tz).Some? && Dates.DateOf(Js.Get(body, "endTime"), tz).Some?
              && Dates.DateOf(Js.Get(body, "startTime"), tz).value < Dates.DateOf(Js.Get(body, "endTime"), tz).value
  {
    var name, size := Js.Get(body, "name"), Js.Get(body, "size");
    var start, end := Js.Get(body, "startTime"), Js.Get(body, "endTime");
    if !Js.Truthy(name) || !Js.Truthy(size) || !Js.Truthy(start) || !Js.Truthy(end) then Some(MissingFields)
    else if Dates.DateOf(start, tz).None? || Dates.DateOf(end, tz).None? then Some(InvalidDate)
    else if Dates.DateOf(start, tz).value >= Dates.DateOf(end, tz).value then Some(EndNotAfterStart)
    else None
  }

  /** Store the request body itself as a reservation, once it passes the checks. */
  function Create(db: Db, body: Js.Object, id: string, now: int, tz: int): (out: (Response, Db))
    requires IsObjectId(id)
    ensures CreateCheck(body, tz).Some? ==> out == (Fail(BadRequest, CreateCheck(body, tz).value), db)
    ensures out.0.status == Created <==>
              CreateCheck(body, tz).None? && InsertReservation(db, JsonDoc(body), id, now, tz).0.Success?
    ensures out.0.status == Created ==>
              && out.0.body == OneReservation(InsertReservation(db, JsonDoc(body), id, now, tz).0.value)
              && out.1 == db.(reservations := db.reservations + [out.0.body.reservation])
    ensures out.0.status != Created ==> out.1 == db
    ensures out.0.status == ServerError ==> out.0 == Fail(ServerError, CreateFailed)
    ensures Valid(db) ==> Valid(out.1)
  {
    if CreateCheck(body, tz).Some? then (Fail(BadRequest, CreateCheck(body, tz).value), db)
    else
      var inserted := InsertReservation(db, JsonDoc(body), id, now, tz);
      match inserted.0
      case Failure(_) => (Fail(ServerError, CreateFailed), db)
      case Success(r) => (Response(Created, OneReservation(r)), inserted.1)
  }

  /** Every stored reservation keeps the instants `new Date` reads from the
      request, and starts strictly before it ends. */
  lemma CreatedStartsBeforeEnd(db: Db, body: Js.Object, id: string, now: int, tz: int)
    requires IsObjectId(id)
    requires Create(db, body, id, now, tz).0.status == Created
    ensures var r := Create(db, body, id, now, tz).0.body.reservation;
            && Some(r.startTime) == Dates.DateOf(Js.Get(body, "startTime"), tz)
            && Some(r.endTime) == Dates.DateOf(Js.Get(body, "endTime"), tz)
            && r.startTime < r.endTime
  {
    TimeCastAgrees(Js.Get(body, "startTime"), "startTime", tz);
    TimeCastAgrees(Js.Get(body, "endTime"), "endTime", tz);
  }

  /** A time the route's checks let through is a number or a string, or else
      the `true` that Mongoose refuses to cast. */
  lemma TimeCastAgrees(v: Js.Value, path: string, tz: int)
    requires Js.Truthy(v) && Dates.DateOf(v, tz).Some?
    ensures v.Num? || v.Str? || v == Js.Bool(true)
    ensures v.Num? || v.Str? ==> CastDate(Json(v), path, tz) == Success(Dates.DateOf(v, tz))
  {
    if v.Obj? {
      Dates.NotStartingAsDate(Js.ToString(v), tz);
    }
    if v.Num? || v.Str? {
      CastDateAgrees(v, path, tz);
    }
  }

  /** A body that carries a timestamp of its own keeps it: the request body is
      stored as it is, so a `createdAt` written by `toISOString()` becomes both
      the creation and the update instant of the stored reservation. */
  lemma CreateKeepsGivenCreatedAt(db: Db, body: Js.Object, t: int, id: string, now: int, tz: int)
    requires IsObjectId(id) && Dates.InRange(t)
    requires Js.Get(body, "createdAt") == Js.Str(Dates.ToIsoString(t))
    requires Create(db, body, id, now, tz).0.status == Created
    ensures var r := Create(db, body, id, now, tz).0.body.reservation;
            r.createdAt == t && r.updatedAt == t
  {
    var d := JsonDoc(body);
    assert Field(d, "createdAt") == Json(Js.Str(Dates.ToIsoString(t)));
    assert Stamp(d, now, tz).Success?;
    StampKeepsIso(d, t, now, tz);
  }

  /** A body without either timestamp is stamped with the time of the request. */
  lemma CreateStampsNow(db: Db, body: Js.Object, id: string, now: int, tz: int)
    requires IsObjectId(id) && "createdAt" !in body && "updatedAt" !in body
    requires Create(db, body, id, now, tz).0.status == Created
    ensures var r := Create(db, body, id, now, tz).0.body.reservation;
            r.createdAt == now && r.updatedAt == now
  {
    StampOfFresh(JsonDoc(body), now, tz);
  }

  /** A body that passes the route's checks but carries a word as `createdAt`
      or `updatedAt` is refused by validation: a 500, and nothing is stored. */
  lemma CreateWithWordStampFails(db: Db, body: Js.Object, s: string, id: string, now: int, tz: int)
    requires IsObjectId(id) && CreateCheck(body, tz).None?
    requires |s| > 0 && 'a' <= s[0] <= 'z' && !Js.IsSpace(s[|s| - 1])
    requires Js.Get(body, "createdAt") == Js.Str(s) || Js.Get(body, "updatedAt") == Js.Str(s)
    ensures Create(db, body, id, now, tz) == (Fail(ServerError, CreateFailed), db)
  {
    var d := JsonDoc(body);
    assert Field(d, "createdAt") == Json(Js.Str(s)) || Field(d, "updatedAt") == Json(Js.Str(s));
    StampRefusesWord(d, s, now, tz);
    assert CastReservation(d, id, now, tz).Failure?;
  }

  /** For instance: a well-formed booking sent with `createdAt: "x"`. */
  lemma CreateWithCreatedAtXFails(db: Db, id: string, now: int, tz: int)
    requires IsObjectId(id)
    ensures var body := map["name" := Js.Str("Ada"), "size" := Js.Num(Js.Finite(2.0)),
                            "startTime" := Js.Num(Js.Finite(1000.0)), "endTime" := Js.Num(Js.Finite(2000.0)),
                            "createdAt" := Js.Str("x")];
            && CreateCheck(body, tz).None?
            && Create(db, body, id, now, tz) == (Fail(ServerError, CreateFailed), db)
  {
    var body := map["name" := Js.Str("Ada"), "size" := Js.Num(Js.Finite(2.0)),
                    "startTime" := Js.Num(Js.Finite(1000.0)), "endTime" := Js.Num(Js.Finite(2000.0)),
                    "createdAt" := Js.Str("x")];
    assert Js.Get(body, "name") == Js.Str("Ada") && Js.Get(body, "size") == Js.Num(Js.Finite(2.0));
    assert Js.Get(body, "startTime") == Js.Num(Js.Finite(1000.0)) && Js.Get(body, "endTime") == Js.Num(Js.Finite(2000.0));
    assert Dates.DateOf(Js.Num(Js.Finite(1000.0)), tz) == Some(1000);
    assert Dates.DateOf(Js.Num(Js.Finite(2000.0)), tz) == Some(2000);
    assert Js.Get(body, "createdAt") == Js.Str("x");
    CreateWithWordStampFails(db, body, "x", id, now, tz);
  }

  /** A start given as `true` passes the route's checks, since `new Date(true)`
      is one millisecond after the epoch, but Mongoose does not cast a boolean
      to a date: the request ends in a 500. */
  lemma CreateWithBooleanStartFails(db: Db, id: string, now: int, tz: int)
    requires IsObjectId(id)
    ensures var body := map["name" := Js.Str("Ada"), "size" := Js.Num(Js.Finite(2.0)),
                            "startTime" := Js.Bool(true), "endTime" := Js.Num(Js.Finite(1000.0))];
            && CreateCheck(body, tz).None?
            && Create(db, body, id, now, tz).0 == Fail(ServerError, CreateFailed)
  {
    var body := map["name" := Js.Str("Ada"), "size" := Js.Num(Js.Finite(2.0)),
                    "startTime" := Js.Bool(true), "endTime" := Js.Num(Js.Finite(1000.0))];
    assert Js.Get(body, "name") == Js.Str("Ada") && Js.Get(body, "size") == Js.Num(Js.Finite(2.0));
    assert Js.Get(body, "startTime") == Js.Bool(true) && Js.Get(body, "endTime") == Js.Num(Js.Finite(1000.0));
    assert Dates.DateOf(Js.Bool(true), tz) == Some(1);
    assert Dates.DateOf(Js.Num(Js.Finite(1000.0)), tz) == Some(1000);
  }
}

=== FILE: seqs.dfy ===
/** Sequence operations shared by the store queries and the front end:
    `Array.prototype.filter` and a stable sort on an integer key. */
module Seqs {
  import opened Wrappers

  /** `a` is obtained from `b` by deleting elements: the relative order of what remains is kept. */
  predicate Subsequence<T(==)>(a: seq<T>, b: seq<T>)
    decreases |b|
  {
    |a| == 0 || (|b| > 0 && ((a[0] == b[0] && Subsequence(a[1..], b[1..])) || Subsequence(a, b[1..])))
  }

  /** The elements of `s` that satisfy `p`, in their original order. */
  function Filter<T(==,!new)>(s: seq<T>, p: T -> bool): (r: seq<T>)
    ensures |r| <= |s|
    ensures forall x :: multiset(r)[x] == if p(x) then multiset(s)[x] else 0
    decreases |s|
  {
    if |s| == 0 then []
    else
      var rest := Filter(s[1..], p);
      assert s == [s[0]] + s[1..];
      if p(s[0]) then [s[0]] + rest else rest
  }

  /** Regrouping a concatenation of five parts to the right. */
  lemma Regroup<T>(a: seq<T>, b: seq<T>, c: seq<T>, d: seq<T>, e: seq<T>)
    ensures a + b + c + d + e == a + (b + (c + (d + e)))
    ensures a + b + c + d == a + (b + c + d)
  {
  }

  /** An element is kept by a filter exactly when it occurs in the input and satisfies the predicate. */
  lemma FilterMembership<T(!new)>(s: seq<T>, p: T -> bool, x: T)
    ensures x in Filter(s, p) <==> x in s && p(x)
  {
    assert x in Filter(s, p) <==> multiset(Filter(s, p))[x] > 0;
    assert x in s <==> multiset(s)[x] > 0;
  }

  /** A filter keeps the relative order of the elements it keeps. */
  lemma {:induction false} FilterSubsequence<T(!new)>(s: seq<T>, p: T -> bool)
    ensures Subsequence(Filter(s, p), s)
    decreases |s|
  {
    if |s| > 0 {
      FilterSubsequence(s[1..], p);
      if p(s[0]) {
        assert Filter(s, p)[1..] == Filter(s[1..], p);
      }
    }
  }

  /** Filtering twice with the same predicate changes nothing the second time. */
  lemma {:induction false} FilterIdempotent<T(!new)>(s: seq<T>, p: T -> bool)
    ensures Filter(Filter(s, p), p) == Filter(s, p)
    decreases |s|
  {
    if |s| > 0 {
      FilterIdempotent(s[1..], p);
      if p(s[0]) {
        var r := Filter(s, p);
        assert r[0] == s[0] && r[1..] == Filter(s[1..], p);
      }
    }
  }

  /** Filtering with a predicate every element satisfies returns the input. */
  lemma {:induction false} FilterAll<T(!new)>(s: seq<T>, p: T -> bool)
    requires forall i :: 0 <= i < |s| ==> p(s[i])
    ensures Filter(s, p) == s
    decreases |s|
  {
    if |s| > 0 {
      FilterAll(s[1..], p);
      assert [s[0]] + s[1..] == s;
    }
  }

  /** Filters distribute over concatenation. */
  lemma {:induction false} FilterConcat<T(!new)>(a: seq<T>, b: seq<T>, p: T -> bool)
    ensures Filter(a + b, p) == Filter(a, p) + Filter(b, p)
    decreases |a|
  {
    if |a| > 0 {
      assert (a + b)[0] == a[0];
      assert (a + b)[1..] == a[1..] + b;
      FilterConcat(a[1..], b, p);
    } else {
      assert a + b == b;
    }
  }

  /** Each element goes to exactly one side of a predicate `p` and its negation `q`. */
  lemma {:induction false} FilterPartition<T(!new)>(s: seq<T>, p: T -> bool, q: T -> bool)
    requires forall x :: q(x) <==> !p(x)
    ensures |Filter(s, p)| + |Filter(s, q)| == |s|
    decreases |s|
  {
    if |s| > 0 {
      FilterPartition(s[1..], p, q);
    }
  }

  /** A filter that keeps nothing returns the empty sequence. */
  lemma FilterNone<T(!new)>(s: seq<T>, p: T -> bool)
    requires forall i :: 0 <= i < |s| ==> !p(s[i])
    ensures Filter(s, p) == []
  {
    var r := Filter(s, p);
    if |r| > 0 {
      FilterMembership(s, p, r[0]);
    }
  }

  /** The first position holding an element whose key is `k`. */
  function IndexOf<T, K(==)>(s: seq<T>, key: T -> K, k: K): (r: Option<nat>)
    ensures r.Some? ==> r.value < |s| && key(s[r.value]) == k
    ensures r.Some? ==> forall i :: 0 <= i < r.value ==> key(s[i]) != k
    ensures r.None? <==> forall i :: 0 <= i < |s| ==> key(s[i]) != k
    decreases |s|
  {
    if |s| == 0 then None
    else if key(s[0]) == k then Some(0)
    else
      match IndexOf(s[1..], key, k)
      case None => None
      case Some(i) => Some(i + 1)
  }

  // ---------------------------------------------------------------------
  // Stable sorting on an integer key

  predicate SortedBy<T>(s: seq<T>, key: T -> int) {
    forall i, j :: 0 <= i < j < |s| ==> key(s[i]) <= key(s[j])
  }

  /** Every element of `s` has a key of at least `k`. */
  predicate KeysAtLeast<T>(s: seq<T>, key: T -> int, k: int) {
    forall i :: 0 <= i < |s| ==> k <= key(s[i])
  }

  /** `x` placed into the sorted `s` before the first element with a larger or equal key. */
  function InsertBy<T>(x: T, s: seq<T>, key: T -> int): (r: seq<T>)
    requires SortedBy(s, key)
    ensures SortedBy(r, key)
    ensures multiset(r) == multiset(s) + multiset{x}
    ensures forall k :: KeysAtLeast(s, key, k) && k <= key(x) ==> KeysAtLeast(r, key, k)
    decreases |s|
  {
    if |s| == 0 then [x]
    else if key(x) <= key(s[0]) then [x] + s
    else
      var rest := InsertBy(x, s[1..], key);
      InsertBehind(x, s, rest, key);
      [s[0]] + rest
  }

  /** Putting the head of `s` back in front of `x` inserted into its tail
      keeps the order, the elements and the key bound. */
  lemma InsertBehind<T>(x: T, s: seq<T>, rest: seq<T>, key: T -> int)
    requires |s| > 0 && SortedBy(s, key) && key(s[0]) < key(x)
    requires SortedBy(rest, key) && multiset(rest) == multiset(s[1..]) + multiset{x}
    requires forall k :: KeysAtLeast(s[1..], key, k) && k <= key(x) ==> KeysAtLeast(rest, key, k)
    ensures SortedBy([s[0]] + rest, key)
    ensures multiset([s[0]] + rest) == multiset(s) + multiset{x}
    ensures forall k :: KeysAtLeast(s, key, k) && k <= key(x) ==> KeysAtLeast([s[0]] + rest, key, k)
  {
    assert KeysAtLeast(s[1..], key, key(s[0]));
    assert KeysAtLeast(rest, key, key(s[0]));
    assert s == [s[0]] + s[1..];
    forall k | KeysAtLeast(s, key, k) && k <= key(x) ensures KeysAtLeast([s[0]] + rest, key, k) {
      assert KeysAtLeast(s[1..], key, k);
    }
  }

  /** The elements of `s` ordered by ascending key; elements with equal keys keep their input order. */
  function SortBy<T>(s: seq<T>, key: T -> int): (r: seq<T>)
    ensures SortedBy(r, key)
    ensures multiset(r) == multiset(s)
    decreases |s|
  {
    if |s| == 0 then []
    else
      assert s == [s[0]] + s[1..];
      InsertBy(s[0], SortBy(s[1..], key), key)
  }

  /** Sorting an already sorted sequence returns it unchanged, so sorting is idempotent. */
  lemma {:induction false} SortBySorted<T>(s: seq<T>, key: T -> int)
    requires SortedBy(s, key)
    ensures SortBy(s, key) == s
    decreases |s|
  {
    if |s| > 0 {
      SortBySorted(s[1..], key);
      assert [s[0]] + s[1..] == s;
    }
  }

  lemma SortByIdempotent<T>(s: seq<T>, key: T -> int)
    ensures SortBy(SortBy(s, key), key) == SortBy(s, key)
  {
    SortBySorted(SortBy(s, key), key);
  }
}

=== FILE: store.dfy ===
/** The MongoDB store behind the handlers: the reservation and walk-in queries
    of the database utility module, the inserts, the table-number update the
    PATCH handler issues, and the bulk deletes of the daily clean-up script.
    Each collection is a sequence in insertion order; queries filter it and sort
    the result by the query's key. */
module Store {
  import opened Wrappers
  import Js
  import Dates
  import Seqs
  import opened Models

  /** What a store call throws: the database is unreachable, a document
      reuses an `_id` (MongoDB error code 11000), or Mongoose refused it. */
  datatype StoreError = Unavailable | DuplicateKey | Rejected(why: Rejection)

  /** The MongoDB error code of a duplicate-key error. */
  const DuplicateKeyCode: int := 11000

  function ErrorCode(e: StoreError): Option<int> {
    if e.DuplicateKey? then Some(DuplicateKeyCode) else None
  }

  /** The database: whether it answers, and each collection in insertion order. */
  datatype Db = Db(up: bool, reservations: seq<Reservation>, walkIns: seq<WalkIn>, tables: seq<Table>)

  function ReservationId(r: Reservation): string { r.id }
  function WalkInId(w: WalkIn): string { w.id }
  function TableId(t: Table): string { t.id }
  function StartOf(r: Reservation): int { r.startTime }
  function AddedOf(w: WalkIn): int { w.timeAddedToWaitlist }

  predicate DistinctIds<T>(s: seq<T>, idOf: T -> string) {
    forall i, j :: 0 <= i < j < |s| ==> idOf(s[i]) != idOf(s[j])
  }

  /** Every stored document satisfies its schema, and `_id` is unique in each collection. */
  predicate Valid(db: Db) {
    (forall i :: 0 <= i < |db.reservations| ==> ValidReservation(db.reservations[i]))
    && (forall i :: 0 <= i < |db.walkIns| ==> ValidWalkIn(db.walkIns[i]))
    && (forall i :: 0 <= i < |db.tables| ==> ValidTable(db.tables[i]))
    && DistinctIds(db.reservations, ReservationId)
    && DistinctIds(db.walkIns, WalkInId)
    && DistinctIds(db.tables, TableId)
  }

  // ---------------------------------------------------------------------
  // insertReservation

  /** `insertReservation(data)`: build and validate the document, then insert
      it under the generated `_id`; any error is rethrown to the caller. */
  function InsertReservation(db: Db, d: Doc, id: string, now: int, tz: int): (out: (Result<Reservation, StoreError>, Db))
    requires IsObjectId(id)
    ensures Valid(db) ==> Valid(out.1)
    ensures out.0.Failure? ==> out.1 == db
    ensures out.0.Success? ==> out.1 == db.(reservations := db.reservations + [out.0.value])
    ensures out.0.Success? ==> CastReservation(d, id, now, tz) == Success(out.0.value)
    ensures out.0.Success? <==> CastReservation(d, id, now, tz).Success? && db.up
                                && Seqs.IndexOf(db.reservations, ReservationId, id).None?
    ensures out.0 == Failure(DuplicateKey) <==> CastReservation(d, id, now, tz).Success? && db.up
                                                && Seqs.IndexOf(db.reservations, ReservationId, id).Some?
  {
    match CastReservation(d, id, now, tz)
    case Failure(why) => (Failure(Rejected(why)), db)
    case Success(r) =>
      if !db.up then (Failure(Unavailable), db)
      else if Seqs.IndexOf(db.reservations, ReservationId, id).Some? then (Failure(DuplicateKey), db)
      else (Success(r), db.(reservations := db.reservations + [r]))
  }

  /** The walk-in counterpart of `insertReservation`, which the walk-in routes
      import but the database module does not define: build and validate the
      document, then insert it under the generated `_id`. */
  function InsertWalkIn(db: Db, d: Doc, id: string, now: int, tz: int): (out: (Result<WalkIn, StoreError>, Db))
    requires IsObjectId(id) && Dates.InRange(now)
    ensures Valid(db) ==> Valid(out.1)
    ensures out.0.Failure? ==> out.1 == db
    ensures out.0.Success? ==> out.1 == db.(walkIns := db.walkIns + [out.0.value])
    ensures out.0.Success? ==> CastWalkIn(d, id, now, tz) == Success(out.0.value)
    ensures out.0.Success? <==> CastWalkIn(d, id, now, tz).Success? && db.up
                                && Seqs.IndexOf(db.walkIns, WalkInId, id).None?
  {
    match CastWalkIn(d, id, now, tz)
    case Failure(why) => (Failure(Rejected(why)), db)
    case Success(w) =>
      if !db.up then (Failure(Unavailable), db)
      else if Seqs.IndexOf(db.walkIns, WalkInId, id).Some? then (Failure(DuplicateKey), db)
      else (Success(w), db.(walkIns := db.walkIns + [w]))
  }

  /** The table counterpart of `insertReservation`, which the table routes
      import but the database module does not define. */
  function InsertTable(db: Db, d: Doc, id: string, now: int, tz: int): (out: (Result<Table, StoreError>, Db))
    requires IsObjectId(id)
    ensures Valid(db) ==> Valid(out.1)
    ensures out.0.Failure? ==> out.1 == db
    ensures out.0.Success? ==> out.1 == db.(tables := db.tables + [out.0.value])
    ensures out.0.Success? ==> CastTable(d, id, now, tz) == Success(out.0.value)
    ensures out.0.Success? <==> CastTable(d, id, now, tz).Success? && db.up
                                && Seqs.IndexOf(db.tables, TableId, id).None?
    ensures out.0 == Failure(DuplicateKey) <==> CastTable(d, id, now, tz).Success? && db.up
                                                && Seqs.IndexOf(db.tables, TableId, id).Some?
    ensures CastTable(d, id, now, tz).Failure? ==> out == (Failure(Rejected(CastTable(d, id, now, tz).error)), db)
  {
    match CastTable(d, id, now, tz)
    case Failure(why) => (Failure(Rejected(why)), db)
    case Success(t) =>
      if !db.up then (Failure(Unavailable), db)
      else if Seqs.IndexOf(db.tables, TableId, id).Some? then (Failure(DuplicateKey), db)
      else (Success(t), db.(tables := db.tables + [t]))
  }

  // ---------------------------------------------------------------------
  // Queries

  /** The elements whose key lies in `[lo, hi]`, both ends included, sorted by the key. */
  function Between<T(==,!new)>(s: seq<T>, key: T -> int, lo: int, hi: int): (r: seq<T>)
    ensures Seqs.SortedBy(r, key)
    ensures forall x :: multiset(r)[x] == if lo <= key(x) <= hi then multiset(s)[x] else 0
  {
    Seqs.SortBy(Seqs.Filter(s, x => lo <= key(x) <= hi), key)
  }

  /** Both ends of the range are included. */
  lemma BetweenInclusive<T(!new)>(s: seq<T>, key: T -> int, lo: int, hi: int, x: T)
    requires x in s && lo <= hi && (key(x) == lo || key(x) == hi)
    ensures x in Between(s, key, lo, hi)
  {
    assert multiset(s)[x] > 0;
    assert multiset(Between(s, key, lo, hi))[x] > 0;
  }

  /** A range whose start is after its end selects nothing. */
  lemma BetweenEmpty<T(!new)>(s: seq<T>, key: T -> int, lo: int, hi: int)
    requires lo > hi
    ensures Between(s, key, lo, hi) == []
  {
    var r := Between(s, key, lo, hi);
    assert multiset(r) == multiset{};
  }

  /** An element is in the range answer exactly when it is in the collection
      and its key lies within the bounds. */
  lemma BetweenMembership<T(!new)>(s: seq<T>, key: T -> int, lo: int, hi: int)
    ensures forall x :: x in Between(s, key, lo, hi) <==> x in s && lo <= key(x) <= hi
  {
    var b := Between(s, key, lo, hi);
    forall x ensures x in b <==> x in s && lo <= key(x) <= hi {
      assert x in b <==> multiset(b)[x] > 0;
      assert x in s <==> multiset(s)[x] > 0;
    }
  }

  /** `getAllReservations()`: every reservation, ascending by `startTime`. */
  function AllReservations(db: Db): (r: Result<seq<Reservation>, StoreError>)
    ensures r.Success? <==> db.up
    ensures r.Success? ==> Seqs.SortedBy(r.value, StartOf) && multiset(r.value) == multiset(db.reservations)
  {
    if db.up then Success(Seqs.SortBy(db.reservations, StartOf)) else Failure(Unavailable)
  }

  /** `getAllWalkIns()`: every walk-in, ascending by `timeAddedToWaitlist`. */
  function AllWalkIns(db: Db): (r: Result<seq<WalkIn>, StoreError>)
    ensures r.Success? <==> db.up
    ensures r.Success? ==> Seqs.SortedBy(r.value, AddedOf) && multiset(r.value) == multiset(db.walkIns)
  {
    if db.up then Success(Seqs.SortBy(db.walkIns, AddedOf)) else Failure(Unavailable)
  }

  /** A range bound as Mongoose casts it for a query on a Date path. */
  function QueryBound(v: DocValue, path: string, tz: int): (r: Result<Option<int>, StoreError>)
    ensures r.Success? <==> CastDate(v, path, tz).Success?
    ensures r.Success? ==> r.value == CastDate(v, path, tz).value
  {
    match CastDate(v, path, tz)
    case Failure(why) => Failure(Rejected(why))
    case Success(t) => Success(t)
  }

  /** `getReservationsByDateRange(startDate, endDate)`: `startDate <= startTime <= endDate`,
      ascending by `startTime`. A null bound compares with no stored date. */
  function ReservationsByDateRange(db: Db, lo: DocValue, hi: DocValue, tz: int): (r: Result<seq<Reservation>, StoreError>)
    ensures r.Success? <==> db.up && CastDate(lo, "startTime", tz).Success? && CastDate(hi, "startTime", tz).Success?
    ensures r.Success? && CastDate(lo, "startTime", tz).value.Some? && CastDate(hi, "startTime", tz).value.Some? ==>
              r.value == Between(db.reservations, StartOf, CastDate(lo, "startTime", tz).value.value, CastDate(hi, "startTime", tz).value.value)
    ensures r.Success? && (CastDate(lo, "startTime", tz).value.None? || CastDate(hi, "startTime", tz).value.None?) ==> r.value == []
  {
    var a :- QueryBound(lo, "startTime", tz);
    var b :- QueryBound(hi, "startTime", tz);
    if !db.up then Failure(Unavailable)
    else if a.None? || b.None? then Success([])
    else Success(Between(db.reservations, StartOf, a.value, b.value))
  }

  /** `getWalkInsByDateRange(startDate, endDate)`: `startDate <= timeAddedToWaitlist <= endDate`,
      ascending by `timeAddedToWaitlist`. */
  function WalkInsByDateRange(db: Db, lo: DocValue, hi: DocValue, tz: int): (r: Result<seq<WalkIn>, StoreError>)
    ensures r.Success? <==> db.up && CastDate(lo, "timeAddedToWaitlist", tz).Success? && CastDate(hi, "timeAddedToWaitlist", tz).Success?
    ensures r.Success? && lo.Date? && hi.Date? && Dates.InRange(lo.time) && Dates.InRange(hi.time) ==>
              r.value == Between(db.walkIns, AddedOf, lo.time, hi.time)
  {
    var a :- QueryBound(lo, "timeAddedToWaitlist", tz);
    var b :- QueryBound(hi, "timeAddedToWaitlist", tz);
    if !db.up then Failure(Unavailable)
    else if a.None? || b.None? then Success([])
    else Success(Between(db.walkIns, AddedOf, a.value, b.value))
  }

  // ---------------------------------------------------------------------
  // findByIdAndUpdate(id, { tableNum }, { new: true, runValidators: true })

  /** Set one reservation's `tableNum` and return the updated document, or
      None when no reservation has that id. Both the id and the number are cast
      first; a cast failure is thrown. `timestamps` refreshes `updatedAt`. */
  function UpdateTableNum(db: Db, idValue: Js.Value, tableNum: Js.Value, now: int): (out: (Result<Option<Reservation>, StoreError>, Db))
    ensures Valid(db) ==> Valid(out.1)
    ensures out.0.Success? <==> db.up && CastObjectId(idValue).Some? && CastNumber(Json(tableNum), "tableNum").Success?
    ensures out.0.Failure? ==> out.1 == db
    ensures out.0.Success? && out.0.value.None? ==>
              out.1 == db && Seqs.IndexOf(db.reservations, ReservationId, CastObjectId(idValue).value).None?
    ensures out.0.Success? && out.0.value.Some? ==>
              var i := Seqs.IndexOf(db.reservations, ReservationId, CastObjectId(idValue).value);
              && i.Some?
              && out.0.value.value == db.reservations[i.value].(tableNum := CastNumber(Json(tableNum), "tableNum").value,
                                                                updatedAt := now)
              && out.1 == db.(reservations := db.reservations[i.value := out.0.value.value])
  {
    match CastObjectId(idValue)
    case None => (Failure(Rejected(CastError("_id"))), db)
    case Some(id) =>
      match CastNumber(Json(tableNum), "tableNum")
      case Failure(why) => (Failure(Rejected(why)), db)
      case Success(n) =>
        if !db.up then (Failure(Unavailable), db)
        else
          match Seqs.IndexOf(db.reservations, ReservationId, id)
          case None => (Success(None), db)
          case Some(i) =>
            var updated := db.reservations[i].(tableNum := n, updatedAt := now);
            (Success(Some(updated)), db.(reservations := db.reservations[i := updated]))
  }

  /** Removing documents keeps every remaining one valid and the ids distinct. */
  lemma FilterKeepsValid<T(!new)>(s: seq<T>, p: T -> bool, idOf: T -> string, ok: T -> bool)
    requires forall i :: 0 <= i < |s| ==> ok(s[i])
    requires DistinctIds(s, idOf)
    ensures forall i :: 0 <= i < |Seqs.Filter(s, p)| ==> ok(Seqs.Filter(s, p)[i])
    ensures DistinctIds(Seqs.Filter(s, p), idOf)
  {
    var r := Seqs.Filter(s, p);
    forall i | 0 <= i < |r| ensures ok(r[i]) {
      Seqs.FilterMembership(s, p, r[i]);
    }
    FilterKeepsDistinct(s, p, idOf);
  }

  lemma {:induction false} FilterKeepsDistinct<T(!new)>(s: seq<T>, p: T -> bool, idOf: T -> string)
    requires DistinctIds(s, idOf)
    ensures DistinctIds(Seqs.Filter(s, p), idOf)
    decreases |s|
  {
    if |s| > 0 {
      var rest := Seqs.Filter(s[1..], p);
      assert DistinctIds(s[1..], idOf);
      FilterKeepsDistinct(s[1..], p, idOf);
      if p(s[0]) {
        forall x | x in rest ensures idOf(x) != idOf(s[0]) {
          Seqs.FilterMembership(s[1..], p, x);
          var k :| 0 <= k < |s[1..]| && s[1..][k] == x;
          assert s[k + 1] == x;
        }
        DistinctCons(s[0], rest, idOf);
      }
    }
  }

  lemma DistinctCons<T>(x: T, rest: seq<T>, idOf: T -> string)
    requires DistinctIds(rest, idOf)
    requires forall y | y in rest :: idOf(y) != idOf(x)
    ensures DistinctIds([x] + rest, idOf)
  {
    var r := [x] + rest;
    forall i, j | 0 <= i < j < |r| ensures idOf(r[i]) != idOf(r[j]) {
      assert r[j] == rest[j - 1];
      if i > 0 {
        assert r[i] == rest[i - 1];
      }
    }
  }


  // ---------------------------------------------------------------------
  // deleteMany({ path: { $gte: lo, $lt: hi } })

  /** The half-open window `[lo, hi)` on a reservation's start. */
  function StartsWithin(lo: int, hi: int): Reservation -> bool {
    (r: Reservation) => lo <= r.startTime < hi
  }

  function StartsOutside(lo: int, hi: int): Reservation -> bool {
    (r: Reservation) => !(lo <= r.startTime < hi)
  }

  /** The half-open window `[lo, hi)` on a walk-in's time of arrival. */
  function AddedWithin(lo: int, hi: int): WalkIn -> bool {
    (w: WalkIn) => lo <= w.timeAddedToWaitlist < hi
  }

  function AddedOutside(lo: int, hi: int): WalkIn -> bool {
    (w: WalkIn) => !(lo <= w.timeAddedToWaitlist < hi)
  }

  /** Delete the reservations with `lo <= startTime < hi` (the upper end
      excluded) and report how many went. */
  function DeleteReservationsStarting(db: Db, lo: int, hi: int): (out: (Result<nat, StoreError>, Db))
    ensures out.0.Success? <==> db.up
    ensures out.0.Failure? ==> out.1 == db
    ensures out.0.Success? ==>
              && out.1 == db.(reservations := Seqs.Filter(db.reservations, StartsOutside(lo, hi)))
              && out.0.value == |Seqs.Filter(db.reservations, StartsWithin(lo, hi))|
              && out.0.value + |out.1.reservations| == |db.reservations|
    ensures out.0.Success? ==>
              forall r :: r in out.1.reservations <==> r in db.reservations && !(lo <= r.startTime < hi)
  {
    if !db.up then (Failure(Unavailable), db)
    else
      Seqs.FilterPartition(db.reservations, StartsWithin(lo, hi), StartsOutside(lo, hi));
      var kept := Seqs.Filter(db.reservations, StartsOutside(lo, hi));
      assert forall r :: r in kept <==> r in db.reservations && StartsOutside(lo, hi)(r) by {
        forall r ensures r in kept <==> r in db.reservations && StartsOutside(lo, hi)(r) {
          Seqs.FilterMembership(db.reservations, StartsOutside(lo, hi), r);
        }
      }
      (Success(|Seqs.Filter(db.reservations, StartsWithin(lo, hi))|), db.(reservations := kept))
  }

  /** Delete the walk-ins with `lo <= timeAddedToWaitlist < hi` and report how many went. */
  function DeleteWalkInsAdded(db: Db, lo: int, hi: int): (out: (Result<nat, StoreError>, Db))
    ensures out.0.Success? <==> db.up
    ensures out.0.Failure? ==> out.1 == db
    ensures out.0.Success? ==>
              && out.1 == db.(walkIns := Seqs.Filter(db.walkIns, AddedOutside(lo, hi)))
              && out.0.value == |Seqs.Filter(db.walkIns, AddedWithin(lo, hi))|
              && out.0.value + |out.1.walkIns| == |db.walkIns|
    ensures out.0.Success? ==>
              forall w :: w in out.1.walkIns <==> w in db.walkIns && !(lo <= w.timeAddedToWaitlist < hi)
  {
    if !db.up then (Failure(Unavailable), db)
    else
      Seqs.FilterPartition(db.walkIns, AddedWithin(lo, hi), AddedOutside(lo, hi));
      var kept := Seqs.Filter(db.walkIns, AddedOutside(lo, hi));
      assert forall w :: w in kept <==> w in db.walkIns && AddedOutside(lo, hi)(w) by {
        forall w ensures w in kept <==> w in db.walkIns && AddedOutside(lo, hi)(w) {
          Seqs.FilterMembership(db.walkIns, AddedOutside(lo, hi), w);
        }
      }
      (Success(|Seqs.Filter(db.walkIns, AddedWithin(lo, hi))|), db.(walkIns := kept))
  }

  /** The bulk deletes leave a valid store valid. */
  lemma DeletesKeepValid(db: Db, lo: int, hi: int)
    requires Valid(db)
    ensures Valid(DeleteReservationsStarting(db, lo, hi).1)
    ensures Valid(DeleteWalkInsAdded(db, lo, hi).1)
    ensures Valid(DeleteWalkInsAdded(DeleteReservationsStarting(db, lo, hi).1, lo, hi).1)
  {
    FilterKeepsValid(db.reservations, StartsOutside(lo, hi), ReservationId, ValidReservation);
    FilterKeepsValid(db.walkIns, AddedOutside(lo, hi), WalkInId, ValidWalkIn);
  }
}

=== FILE: table_routes.dfy ===
/** The table routes: the listing, the lookup by table number, and adding a
    table. The three store calls they make are not defined by the database
    module, so they are parameters here; `Store.InsertTable` is the
    counterpart of the reservation insert that the lemmas use for the insert. */
module TableRoutes {
  import opened Wrappers
  import Js
  import Seqs
  import opened Models
  import opened Store
  import opened Http

  const ListFailed: string := "Failed to fetch tables"
  const InvalidNumber: string := "Invalid table number"
  const NotFoundMessage: string := "Table not found"
  const LookupFailed: string := "Failed to fetch table"
  const FieldsRequired: string := "Table number and capacity are required"
  const FieldsNotNumbers: string := "Table number and capacity must be numbers"
  const NumberTaken: string := "Table number already exists"
  const CreateFailed: string := "Failed to create table"

  type Lister = Db -> Result<seq<Table>, StoreError>
  type Finder = (Db, int) -> Result<Option<Table>, StoreError>
  type Inserter = (Db, Doc) -> (Result<Table, StoreError>, Db)

  // ---------------------------------------------------------------------
  // GET /

  function GetAll(db: Db, list: Lister): (r: Response)
    ensures r.status == Ok <==> list(db).Success?
    ensures r.status == Ok ==> r.body == Tables(list(db).value)
    ensures r.status != Ok ==> r == Fail(ServerError, ListFailed)
  {
    match list(db)
    case Failure(_) => Fail(ServerError, ListFailed)
    case Success(ts) => Response(Ok, Tables(ts))
  }

  // ---------------------------------------------------------------------
  // GET /:tableNumber

  /** The path segment goes through `parseInt`; what it cannot read is a 400,
      a table the lookup does not find is a 404. */
  function GetByNumber(db: Db, find: Finder, segment: string): (r: Response)
    ensures r == Fail(BadRequest, InvalidNumber) <==> Js.ParseIntString(segment).None?
    ensures r.status == Ok <==> Js.ParseIntString(segment).Some? && find(db, Js.ParseIntString(segment).value).Success?
                                && find(db, Js.ParseIntString(segment).value).value.Some?
    ensures r.status == Ok ==> r.body == OneTable(find(db, Js.ParseIntString(segment).value).value.value)
    ensures r == Fail(NotFound, NotFoundMessage) <==>
              Js.ParseIntString(segment).Some? && find(db, Js.ParseIntString(segment).value) == Success(None)
    ensures r == Fail(ServerError, LookupFailed) <==>
              Js.ParseIntString(segment).Some? && find(db, Js.ParseIntString(segment).value).Failure?
    ensures r.status in {Ok, BadRequest, NotFound, ServerError}
  {
    match Js.ParseIntString(segment)
    case None => Fail(BadRequest, InvalidNumber)
    case Some(n) =>
      match find(db, n)
      case Failure(_) => Fail(ServerError, LookupFailed)
      case Success(None) => Fail(NotFound, NotFoundMessage)
      case Success(Some(t)) => Response(Ok, OneTable(t))
  }

  /** `parseInt` reads a decimal numeral, and one with a minus sign. */
  lemma NumeralParses(k: nat)
    ensures Js.ParseIntString(Js.NatToString(k)) == Some(k)
    ensures Js.ParseIntString("-" + Js.NatToString(k)) == Some(-(k as int))
  {
    assert Js.NatToString(k) + "" == Js.NatToString(k);
    Js.ParseIntOfNumeral(k, "");
    Js.ParseIntOfNegativeNumeral(k, "");
  }

  /** A segment of decimal digits is looked up as the number it writes,
      with or without a minus sign. */
  lemma GetByNumeral(db: Db, find: Finder, k: nat, t: Table)
    requires find(db, k) == Success(Some(t)) || find(db, -(k as int)) == Success(Some(t))
    ensures find(db, k) == Success(Some(t)) ==> GetByNumber(db, find, Js.NatToString(k)) == Response(Ok, OneTable(t))
    ensures find(db, -(k as int)) == Success(Some(t)) ==> GetByNumber(db, find, "-" + Js.NatToString(k)) == Response(Ok, OneTable(t))
  {
    NumeralParses(k);
  }

  /** A segment that does not start with a digit is refused without a lookup. */
  lemma GetByWordRefused(db: Db, find: Finder)
    ensures GetByNumber(db, find, "abc") == Fail(BadRequest, InvalidNumber)
  {
    assert "abc"[0] == 'a';
    Js.ParseIntOfWord("abc");
  }

  // ---------------------------------------------------------------------
  // POST /create

  /** A `parseInt` result as a JavaScript number. */
  function IntNumber(p: Option<int>): (n: Js.Number)
    ensures n.NaN? <==> p.None?
  {
    match p
    case None => Js.NaN
    case Some(k) => Js.Finite(k as real)
  }

  /** The object handed to the insert. The table number is sent under
      `tableNumber`, a key the table schema does not declare. */
  function Draft(body: Js.Object): Doc {
    DraftOf(IntNumber(Js.ParseInt(Js.Get(body, "tableNum"))),
            IntNumber(Js.ParseInt(Js.Get(body, "maxCapacity"))),
            Js.Or(Js.Get(body, "comments"), Js.Str("")))
  }

  function DraftOf(tableNumber: Js.Number, capacity: Js.Number, comments: Js.Value): Doc {
    map["tableNumber" := Json(Js.Num(tableNumber)), "tableCapacity" := Json(Js.Num(capacity)), "comments" := Json(comments)]
  }

  /** Why a POST is refused before the insert, if it is. */
  function CreateCheck(body: Js.Object): (r: Option<string>)
    ensures r.None? <==> Js.Truthy(Js.Get(body, "tableNum")) && Js.Truthy(Js.Get(body, "maxCapacity"))
                         && !Js.IsNaN(Js.Get(body, "tableNum")) && !Js.IsNaN(Js.Get(body, "maxCapacity"))
  {
    var tableNum, capacity := Js.Get(body, "tableNum"), Js.Get(body, "maxCapacity");
    if !Js.Truthy(tableNum) || !Js.Truthy(capacity) then Some(FieldsRequired)
    else if Js.IsNaN(tableNum) || Js.IsNaN(capacity) then Some(FieldsNotNumbers)
    else None
  }

  /** Add a table: a duplicate-key error (code 11000) is a 409, every other
      error a 500. */
  function Create(db: Db, insert: Inserter, body: Js.Object): (out: (Response, Db))
    ensures CreateCheck(body).Some? ==> out == (Fail(BadRequest, CreateCheck(body).value), db)
    ensures out.0.status == Created <==> CreateCheck(body).None? && insert(db, Draft(body)).0.Success?
    ensures out.0.status == Created ==>
              out == (Response(Created, OneTable(insert(db, Draft(body)).0.value)), insert(db, Draft(body)).1)
    ensures out.0.status == Conflict <==>
              CreateCheck(body).None? && insert(db, Draft(body)).0.Failure?
              && ErrorCode(insert(db, Draft(body)).0.error) == Some(DuplicateKeyCode)
    ensures out.0.status != Created ==> out.1 == db
    ensures out.0.status == ServerError ==> out.0 == Fail(ServerError, CreateFailed)
    ensures out.0.status in {Created, BadRequest, Conflict, ServerError}
  {
    if CreateCheck(body).Some? then (Fail(BadRequest, CreateCheck(body).value), db)
    else
      var inserted := insert(db, Draft(body));
      match inserted.0
      case Success(t) => (Response(Created, OneTable(t)), inserted.1)
      case Failure(e) =>
        if ErrorCode(e) == Some(DuplicateKeyCode) then (Fail(Conflict, NumberTaken), db)
        else (Fail(ServerError, CreateFailed), db)
  }

  /** The numbers are read back by `parseInt` before they are stored:
      truncated toward zero when `String` writes them in plain decimal, cut
      to their first significant digit when it writes them with an exponent. */
  lemma DraftTruncates(body: Js.Object, x: real, y: real)
    requires Js.Get(body, "tableNum") == Js.Num(Js.Finite(x))
    requires Js.Get(body, "maxCapacity") == Js.Num(Js.Finite(y))
    ensures Field(Draft(body), "tableNumber") == Json(Js.Num(Js.Finite(Js.IntegerPrefix(x) as real)))
    ensures Field(Draft(body), "tableCapacity") == Json(Js.Num(Js.Finite(Js.IntegerPrefix(y) as real)))
    ensures Js.IsPlainMagnitude(if x < 0.0 then -x else x) ==>
              Field(Draft(body), "tableNumber") == Json(Js.Num(Js.Finite(Js.Truncate(x) as real)))
    ensures Js.IsPlainMagnitude(if y < 0.0 then -y else y) ==>
              Field(Draft(body), "tableCapacity") == Json(Js.Num(Js.Finite(Js.Truncate(y) as real)))
  {
    Js.ParseIntOfFinite(x);
    Js.ParseIntOfFinite(y);
  }

  /** Where each field of the object handed to the insert comes from. */
  lemma DraftFields(tableNumber: Js.Number, capacity: Js.Number, comments: Js.Value)
    ensures var d := DraftOf(tableNumber, capacity, comments);
            && Field(d, "tableNumber") == Json(Js.Num(tableNumber))
            && Field(d, "tableCapacity") == Json(Js.Num(capacity))
            && Field(d, "comments") == Json(comments)
            && Field(d, "reservedTimesModel") == Json(Js.Undefined)
            && "createdAt" !in d && "updatedAt" !in d
  {
    var d := DraftOf(tableNumber, capacity, comments);
    assert "reservedTimesModel" !in d.Keys by {
      assert forall k | k in d.Keys :: k[0] != 'r';
    }
    assert forall k | k in d.Keys :: k[0] == 't' || (k[0] == 'c' && |k| == 8);
  }

  /** The counterpart insert with `id` as the generated `_id`. */
  function Counterpart(id: string, now: int, tz: int): Inserter
    requires IsObjectId(id)
  {
    (b, d) => InsertTable(b, d, id, now, tz)
  }

  /** An insert that Mongoose refuses is a 500 and changes nothing. */
  lemma CreateRefused(db: Db, insert: Inserter, body: Js.Object)
    requires CreateCheck(body).None?
    requires insert(db, Draft(body)).0.Failure? && insert(db, Draft(body)).0.error.Rejected?
    ensures Create(db, insert, body) == (Fail(ServerError, CreateFailed), db)
  {
  }

  /** With the counterpart insert, a body that passes the checks but whose
      capacity `parseInt` reads as less than 1, or not at all, ends in a 500. */
  lemma CreateSmallCapacityFails(db: Db, body: Js.Object, id: string, now: int, tz: int)
    requires IsObjectId(id) && CreateCheck(body).None?
    requires var p := Js.ParseInt(Js.Get(body, "maxCapacity")); p.None? || p.value < 1
    ensures Create(db, Counterpart(id, now, tz), body) == (Fail(ServerError, CreateFailed), db)
  {
    var d := Draft(body);
    SmallCapacityRejected(body, id, now, tz);
    assert Counterpart(id, now, tz)(db, d) == InsertTable(db, d, id, now, tz);
    CreateRefused(db, Counterpart(id, now, tz), body);
  }

  lemma SmallCapacityRejected(body: Js.Object, id: string, now: int, tz: int)
    requires IsObjectId(id)
    requires var p := Js.ParseInt(Js.Get(body, "maxCapacity")); p.None? || p.value < 1
    ensures CastTable(Draft(body), id, now, tz).Failure?
  {
    var p := Js.ParseInt(Js.Get(body, "maxCapacity"));
    SmallIntNumber(p);
    DraftCapacityRejected(IntNumber(Js.ParseInt(Js.Get(body, "tableNum"))), IntNumber(p), Js.Or(Js.Get(body, "comments"), Js.Str("")), id, now, tz);
  }

  /** A `parseInt` result that is NaN or below 1 is a number below 1 or NaN. */
  lemma SmallIntNumber(p: Option<int>)
    requires p.None? || p.value < 1
    ensures IntNumber(p).NaN? || Js.LessThan(IntNumber(p), Js.Finite(1.0))
  {
  }

  lemma DraftCapacityRejected(tableNumber: Js.Number, capacity: Js.Number, comments: Js.Value, id: string, now: int, tz: int)
    requires IsObjectId(id)
    requires capacity.NaN? || Js.LessThan(capacity, Js.Finite(1.0))
    ensures CastTable(DraftOf(tableNumber, capacity, comments), id, now, tz).Failure?
  {
    DraftFields(tableNumber, capacity, comments);
    CastTableNeedsCapacity(DraftOf(tableNumber, capacity, comments), id, now, tz);
  }

  /** A capacity from 10^-6 up to, but not including, 1 passes the handler's
      checks, but `parseInt` turns it into 0, below the schema's minimum.
      Smaller capacities are the subject of CreateTinyCapacityStored. */
  lemma CreateFractionalCapacityFails(db: Db, body: Js.Object, id: string, now: int, tz: int, y: real)
    requires IsObjectId(id)
    requires Js.Truthy(Js.Get(body, "tableNum")) && !Js.IsNaN(Js.Get(body, "tableNum"))
    requires Js.Get(body, "maxCapacity") == Js.Num(Js.Finite(y)) && 0.000001 <= y < 1.0
    ensures CreateCheck(body).None?
    ensures Create(db, Counterpart(id, now, tz), body) == (Fail(ServerError, CreateFailed), db)
  {
    assert CreateCheck(body).None? by {
      assert Js.Truthy(Js.Get(body, "maxCapacity")) && !Js.IsNaN(Js.Get(body, "maxCapacity"));
    }
    assert Js.ParseInt(Js.Get(body, "maxCapacity")) == Some(Js.Truncate(y)) by {
      Js.ParseIntOfFinite(y);
    }
    assert Js.Truncate(y) == 0;
    CreateSmallCapacityFails(db, body, id, now, tz);
  }

  /** A positive capacity below 10^-6 passes the handler's checks too, but
      `String` writes it with an exponent (`5e-7`), so `parseInt` reads its
      first significant digit: the table is stored with a capacity from 1 to 9. */
  lemma CreateTinyCapacityStored(db: Db, body: Js.Object, id: string, now: int, tz: int, y: real)
    requires IsObjectId(id) && db.up && Seqs.IndexOf(db.tables, TableId, id).None?
    requires Js.Truthy(Js.Get(body, "tableNum")) && !Js.IsNaN(Js.Get(body, "tableNum"))
    requires Js.Get(body, "maxCapacity") == Js.Num(Js.Finite(y)) && 0.0 < y < 0.000001
    requires Js.Get(body, "comments") != Js.Obj
    ensures var out := Create(db, Counterpart(id, now, tz), body);
            && out.0.status == Created
            && out.0.body.table.tableCapacity == Js.Finite(Js.IntegerPrefix(y) as real)
            && 1 <= Js.IntegerPrefix(y) <= 9
  {
    assert CreateCheck(body).None? by {
      assert Js.Truthy(Js.Get(body, "maxCapacity")) && !Js.IsNaN(Js.Get(body, "maxCapacity"));
    }
    TinyCapacityRead(body, y);
    CreateStored(db, body, id, now, tz, Js.Finite(Js.IntegerPrefix(y) as real));
  }

  /** A POST that passes the checks, whose capacity `parseInt` reads as at
      least 1 and whose comments are no object, stores a new table with
      that capacity when the id is free. */
  lemma CreateStored(db: Db, body: Js.Object, id: string, now: int, tz: int, capacity: Js.Number)
    requires IsObjectId(id) && db.up && Seqs.IndexOf(db.tables, TableId, id).None?
    requires CreateCheck(body).None?
    requires IntNumber(Js.ParseInt(Js.Get(body, "maxCapacity"))) == capacity
    requires capacity.Finite? && capacity.value >= 1.0
    requires Js.Get(body, "comments") != Js.Obj
    ensures var out := Create(db, Counterpart(id, now, tz), body);
            out.0.status == Created && out.0.body.table.tableCapacity == capacity
  {
    var tableNumber := IntNumber(Js.ParseInt(Js.Get(body, "tableNum")));
    var comments := Js.Or(Js.Get(body, "comments"), Js.Str(""));
    DraftOfStored(tableNumber, capacity, comments, id, now, tz);
    assert Draft(body) == DraftOf(tableNumber, capacity, comments);
    assert Counterpart(id, now, tz)(db, Draft(body)) == InsertTable(db, Draft(body), id, now, tz);
  }

  /** `parseInt` reads a positive capacity below 10^-6 as one digit from 1 to 9. */
  lemma TinyCapacityRead(body: Js.Object, y: real)
    requires Js.Get(body, "maxCapacity") == Js.Num(Js.Finite(y)) && 0.0 < y < 0.000001
    ensures IntNumber(Js.ParseInt(Js.Get(body, "maxCapacity"))) == Js.Finite(Js.IntegerPrefix(y) as real)
    ensures 1 <= Js.IntegerPrefix(y) <= 9
  {
    Js.ParseIntOfFinite(y);
    Js.IntegerPrefixRange(y);
  }

  /** A draft whose capacity is a number of at least 1 and whose comments are
      no object is stored, with that capacity. */
  lemma DraftOfStored(tableNumber: Js.Number, capacity: Js.Number, comments: Js.Value, id: string, now: int, tz: int)
    requires IsObjectId(id) && capacity.Finite? && capacity.value >= 1.0 && comments != Js.Obj
    ensures CastTable(DraftOf(tableNumber, capacity, comments), id, now, tz).Success?
    ensures CastTable(DraftOf(tableNumber, capacity, comments), id, now, tz).value.tableCapacity == capacity
  {
    var d := DraftOf(tableNumber, capacity, comments);
    DraftFields(tableNumber, capacity, comments);
    StampOfFresh(d, now, tz);
    assert CastString(Json(comments), "comments").Success?;
  }

  /** A capacity of `true` is truthy and `isNaN(true)` is false, but
      `parseInt(true)` is NaN. */
  lemma CreateBooleanCapacityFails(db: Db, body: Js.Object, id: string, now: int, tz: int)
    requires IsObjectId(id)
    requires Js.Truthy(Js.Get(body, "tableNum")) && !Js.IsNaN(Js.Get(body, "tableNum"))
    requires Js.Get(body, "maxCapacity") == Js.Bool(true)
    ensures CreateCheck(body).None?
    ensures Create(db, Counterpart(id, now, tz), body) == (Fail(ServerError, CreateFailed), db)
  {
    assert CreateCheck(body).None? by {
      assert Js.Truthy(Js.Get(body, "maxCapacity")) && !Js.IsNaN(Js.Get(body, "maxCapacity"));
    }
    assert Js.ParseInt(Js.Get(body, "maxCapacity")).None? by {
      assert Js.ToString(Js.Bool(true)) == "true" && "true"[0] == 't';
      Js.ParseIntOfWord("true");
    }
    CreateSmallCapacityFails(db, body, id, now, tz);
  }

  /** The stored table does not depend on the `tableNumber` key. */
  lemma DraftOfIgnoresNumber(a: Js.Number, a': Js.Number, capacity: Js.Number, comments: Js.Value, id: string, now: int, tz: int)
    requires IsObjectId(id)
    ensures CastTable(DraftOf(a', capacity, comments), id, now, tz) == CastTable(DraftOf(a, capacity, comments), id, now, tz)
  {
    var d := DraftOf(a, capacity, comments);
    assert DraftOf(a', capacity, comments) == d["tableNumber" := Json(Js.Num(a'))];
    assert "tableNumber" !in TablePaths by {
      assert forall p | p in TablePaths :: |p| != 11;
    }
    TableIgnoresUndeclared(d, "tableNumber", Json(Js.Num(a')), id, now, tz);
  }

  /** The table number never reaches the stored table: two requests that
      differ only in it store the same table, so numbers are not unique. */
  lemma TableNumberNotStored(body: Js.Object, v: Js.Value, id: string, now: int, tz: int)
    requires IsObjectId(id)
    ensures CastTable(Draft(body["tableNum" := v]), id, now, tz) == CastTable(Draft(body), id, now, tz)
  {
    var body' := body["tableNum" := v];
    assert Js.Get(body', "maxCapacity") == Js.Get(body, "maxCapacity");
    assert Js.Get(body', "comments") == Js.Get(body, "comments");
    DraftOfIgnoresNumber(IntNumber(Js.ParseInt(Js.Get(body, "tableNum"))), IntNumber(Js.ParseInt(v)),
                         IntNumber(Js.ParseInt(Js.Get(body, "maxCapacity"))), Js.Or(Js.Get(body, "comments"), Js.Str("")), id, now, tz);
  }
}

=== FILE: walkin_routes.dfy ===
/** The walk-in routes: the listing, the date-range query on the time a
    party joined the waiting list, and adding a party to the list. The insert
    the create handler calls is not defined by the database module, so it is
    a parameter here; `Store.InsertWalkIn` is the counterpart of the
    reservation insert that the lemmas use for it. */
module WalkinRoutes {
  import opened Wrappers
  import Js
  import Dates
  import Seqs
  import opened Models
  import opened Store
  import opened Http

  const ListFailed: string := "Failed to fetch walk-ins"
  const RangeMissing: string := "Start date and end date are required"
  const InvalidDate: string := "Invalid date format"
  const RangeFailed: string := "Failed to fetch walk-ins by date range"
  const MissingFields: string := "Missing required fields"
  const CreateFailed: string := "Failed to create walk-in"

  /** An insert as the create handler sees it: a document in, the stored
      walk-in or an error out, with the database after the call. */
  type Inserter = (Db, Doc) -> (Result<WalkIn, StoreError>, Db)

  // ---------------------------------------------------------------------
  // GET /

  /** Every walk-in, in the order the parties joined the list. */
  function GetAll(db: Db): (r: Response)
    ensures r.status == Ok <==> db.up
    ensures r.status == Ok ==> r.body.WalkIns?
                               && Seqs.SortedBy(r.body.walkIns, AddedOf)
                               && multiset(r.body.walkIns) == multiset(db.walkIns)
    ensures r.status != Ok ==> r == Fail(ServerError, ListFailed)
  {
    match AllWalkIns(db)
    case Failure(_) => Fail(ServerError, ListFailed)
    case Success(all) => Response(Ok, WalkIns(all))
  }

  // ---------------------------------------------------------------------
  // GET /range

  /** Both bounds must be present and read as dates by `new Date`; the query
      then receives the two instants. */
  function Range(db: Db, query: Js.Object, tz: int): (r: Response)
    ensures var lo, hi := Js.Get(query, "startDate"), Js.Get(query, "endDate");
            && (r == Fail(BadRequest, RangeMissing) <==> !Js.Truthy(lo) || !Js.Truthy(hi))
            && (r == Fail(BadRequest, InvalidDate) <==>
                  Js.Truthy(lo) && Js.Truthy(hi) && (Dates.DateOf(lo, tz).None? || Dates.DateOf(hi, tz).None?))
            && (r.status == Ok <==> Js.Truthy(lo) && Js.Truthy(hi) && db.up
                                    && Dates.DateOf(lo, tz).Some? && Dates.DateOf(hi, tz).Some?)
            && (r.status == Ok ==> r.body == WalkIns(Between(db.walkIns, AddedOf, Dates.DateOf(lo, tz).value, Dates.DateOf(hi, tz).value)))
            && (r.status != Ok && r.status != BadRequest ==> r == Fail(ServerError, RangeFailed))
  {
    var lo, hi := Js.Get(query, "startDate"), Js.Get(query, "endDate");
    if !Js.Truthy(lo) || !Js.Truthy(hi) then Fail(BadRequest, RangeMissing)
    else
      match (Dates.DateOf(lo, tz), Dates.DateOf(hi, tz))
      case (Some(a), Some(b)) =>
        (match WalkInsByDateRange(db, Date(a), Date(b), tz)
         case Failure(_) => Fail(ServerError, RangeFailed)
         case Success(ws) => Response(Ok, WalkIns(ws)))
      case _ => Fail(BadRequest, InvalidDate)
  }

  /** What a successful range query answers: exactly the walk-ins that joined
      the list between the two instants, both included, in order of arrival. */
  lemma RangeAnswer(db: Db, query: Js.Object, tz: int)
    requires Range(db, query, tz).status == Ok
    ensures var lo := Dates.DateOf(Js.Get(query, "startDate"), tz).value;
            var hi := Dates.DateOf(Js.Get(query, "endDate"), tz).value;
            var ws := Range(db, query, tz).body.walkIns;
            && Seqs.SortedBy(ws, AddedOf)
            && (forall x :: x in ws <==> x in db.walkIns && lo <= x.timeAddedToWaitlist <= hi)
  {
    var lo := Dates.DateOf(Js.Get(query, "startDate"), tz).value;
    var hi := Dates.DateOf(Js.Get(query, "endDate"), tz).value;
    BetweenMembership(db.walkIns, AddedOf, lo, hi);
  }

  // ---------------------------------------------------------------------
  // POST /create

  /** The object handed to the insert: five fields of the body, the current
      instant as the time of joining the list, and "" for missing comments. */
  function Draft(body: Js.Object, now: int): Doc {
    map[
      "name" := Json(Js.Get(body, "name")),
      "phoneNumber" := Json(Js.Get(body, "phoneNumber")),
      "size" := Json(Js.Get(body, "size")),
      "timeAddedToWaitlist" := Date(now),
      "comments" := Json(Js.Or(Js.Get(body, "comments"), Js.Str("")))]
  }

  /** A party joins the waiting list at the instant of the request, whatever
      time the body names, and only the five listed keys are read from it. */
  lemma DraftFields(body: Js.Object, now: int, k: string, v: Js.Value)
    requires k !in {"name", "phoneNumber", "size", "comments"}
    ensures var d := Draft(body, now);
            && Field(d, "timeAddedToWaitlist") == Date(now)
            && Field(d, "name") == Json(Js.Get(body, "name"))
            && Field(d, "phoneNumber") == Json(Js.Get(body, "phoneNumber"))
            && Field(d, "size") == Json(Js.Get(body, "size"))
            && Field(d, "comments") == Json(Js.Or(Js.Get(body, "comments"), Js.Str("")))
            && Field(d, "tableNum") == Json(Js.Undefined)
            && Draft(body[k := v], now) == d
            && "createdAt" !in d && "updatedAt" !in d
  {
    var d := Draft(body, now);
    assert "tableNum" !in d.Keys by {
      assert forall key | key in d.Keys :: key[0] != 't' || |key| != 8;
    }
    assert forall key | key in d.Keys :: |key| != 9;
    assert Js.Get(body[k := v], "name") == Js.Get(body, "name");
    assert Js.Get(body[k := v], "phoneNumber") == Js.Get(body, "phoneNumber");
    assert Js.Get(body[k := v], "size") == Js.Get(body, "size");
    assert Js.Get(body[k := v], "comments") == Js.Get(body, "comments");
  }

  /** Add a party to the waiting list: a falsy size or name is refused with a
      400, anything the insert throws becomes a 500. */
  function Create(db: Db, insert: Inserter, body: Js.Object, now: int): (out: (Response, Db))
    ensures !Js.Truthy(Js.Get(body, "size")) || !Js.Truthy(Js.Get(body, "name")) ==>
              out == (Fail(BadRequest, MissingFields), db)
    ensures out.0.status == Created <==>
              Js.Truthy(Js.Get(body, "size")) && Js.Truthy(Js.Get(body, "name")) && insert(db, Draft(body, now)).0.Success?
    ensures out.0.status == Created ==>
              out == (Response(Created, OneWalkIn(insert(db, Draft(body, now)).0.value)), insert(db, Draft(body, now)).1)
    ensures Js.Truthy(Js.Get(body, "size")) && Js.Truthy(Js.Get(body, "name")) && out.0.status != Created ==>
              out == (Fail(ServerError, CreateFailed), db)
  {
    if !Js.Truthy(Js.Get(body, "size")) || !Js.Truthy(Js.Get(body, "name")) then (Fail(BadRequest, MissingFields), db)
    else
      var inserted := insert(db, Draft(body, now));
      match inserted.0
      case Failure(_) => (Fail(ServerError, CreateFailed), db)
      case Success(w) => (Response(Created, OneWalkIn(w)), inserted.1)
  }

  /** With the counterpart insert, a created walk-in joined the list, and was
      created and updated, at the instant of the request; it has the name and
      size sent, and has comments, "" when none were sent. */
  lemma CreatedJoinsNow(db: Db, body: Js.Object, id: string, now: int, tz: int)
    requires IsObjectId(id) && Dates.InRange(now)
    requires Create(db, (b, d) => InsertWalkIn(b, d, id, now, tz), body, now).0.status == Created
    ensures var out := Create(db, (b, d) => InsertWalkIn(b, d, id, now, tz), body, now);
            var w := out.0.body.walkIn;
            && w.timeAddedToWaitlist == now
            && w.createdAt == now && w.updatedAt == now
            && w.id == id
            && CastString(Json(Js.Get(body, "name")), "name") == Success(Some(w.name))
            && CastNumber(Json(Js.Get(body, "size")), "size") == Success(Some(w.size))
            && w.comments.Some?
            && out.1.walkIns == db.walkIns + [w]
  {
    var d := Draft(body, now);
    DraftFields(body, now, "", Js.Undefined);
    StampOfFresh(d, now, tz);
    var inserted := InsertWalkIn(db, d, id, now, tz);
    assert inserted.0.Success?;
    CastWalkInFields(d, id, now, tz);
    assert CastDate(Date(now), "timeAddedToWaitlist", tz) == Success(Some(now));
  }

  /** The phone number is required by the schema but not checked by the
      handler: a party sent without one gets a 500, not a 400. */
  lemma CreateWithoutPhoneFails(db: Db, id: string, now: int, tz: int)
    requires IsObjectId(id) && Dates.InRange(now)
    ensures var body := map["name" := Js.Str("Ada"), "size" := Js.Num(Js.Finite(2.0))];
            Create(db, (b, d) => InsertWalkIn(b, d, id, now, tz), body, now) == (Fail(ServerError, CreateFailed), db)
  {
    var body := map["name" := Js.Str("Ada"), "size" := Js.Num(Js.Finite(2.0))];
    assert Js.Get(body, "name") == Js.Str("Ada") && Js.Get(body, "size") == Js.Num(Js.Finite(2.0));
    assert Js.Get(body, "phoneNumber") == Js.Undefined;
    DraftFields(body, now, "", Js.Undefined);
  }
}

=== FILE: wire.dfy ===
/** A stored reservation as the browser receives it from `res.json`: dates
    become `toISOString()` strings. Only the fields the floor plan reads are
    kept. A stored reservation does not record whether an unset table number
    was stored as null or not at all, so it is sent here as absent; the floor
    plan tests it with `!res.tableNum`, which treats both alike. */
module Wire {
  import opened Wrappers
  import Js
  import Dates
  import Models

  function ReservationJson(r: Models.Reservation): Js.Object
    requires Dates.InRange(r.startTime) && Dates.InRange(r.endTime)
  {
    var o := Fields(r.id, r.name, r.size, Dates.ToIsoString(r.startTime), Dates.ToIsoString(r.endTime));
    if r.tableNum.Some? then o["tableNum" := Js.Num(r.tableNum.value)] else o
  }

  /** The fields every serialised reservation carries. */
  function Fields(id: string, name: string, size: Js.Number, start: string, end: string): Js.Object {
    map["_id" := Js.Str(id), "name" := Js.Str(name), "size" := Js.Num(size),
        "startTime" := Js.Str(start), "endTime" := Js.Str(end)]
  }

  lemma FieldsRead(id: string, name: string, size: Js.Number, start: string, end: string)
    ensures var o := Fields(id, name, size, start, end);
            && Js.Get(o, "_id") == Js.Str(id)
            && Js.Get(o, "startTime") == Js.Str(start)
            && Js.Get(o, "endTime") == Js.Str(end)
            && Js.Get(o, "tableNum") == Js.Undefined
  {
    var o := Fields(id, name, size, start, end);
    assert "tableNum" !in o by {
      assert forall k | k in o.Keys :: |k| != 8;
    }
  }

  /** What the browser reads from each field of a serialised reservation. */
  lemma ReservationJsonFields(r: Models.Reservation)
    requires Dates.InRange(r.startTime) && Dates.InRange(r.endTime)
    ensures var o := ReservationJson(r);
            && Js.Get(o, "_id") == Js.Str(r.id)
            && Js.Get(o, "startTime") == Js.Str(Dates.ToIsoString(r.startTime))
            && Js.Get(o, "endTime") == Js.Str(Dates.ToIsoString(r.endTime))
            && Js.Get(o, "tableNum") == (if r.tableNum.Some? then Js.Num(r.tableNum.value) else Js.Undefined)
  {
    FieldsRead(r.id, r.name, r.size, Dates.ToIsoString(r.startTime), Dates.ToIsoString(r.endTime));
  }

  /** Reading a serialised reservation's dates back with `new Date` gives the stored instants. */
  lemma ReservationJsonDates(r: Models.Reservation, tz: int)
    requires Dates.InRange(r.startTime) && Dates.InRange(r.endTime)
    ensures Dates.DateOf(Js.Get(ReservationJson(r), "startTime"), tz) == Some(r.startTime)
    ensures Dates.DateOf(Js.Get(ReservationJson(r), "endTime"), tz) == Some(r.endTime)
  {
    ReservationJsonFields(r);
    Dates.IsoRoundTrip(r.startTime, tz);
    Dates.IsoRoundTrip(r.endTime, tz);
  }
}

=== FILE: wrappers.dfy ===
/** Failure-compatible option type shared by every module of the model. */
module Wrappers {

  /** A value that may be missing: JavaScript's `null`/`NaN`/invalid results become None. */
  datatype Option<+T> = None | Some(value: T) {

    predicate IsFailure() {
      None?
    }

    function PropagateFailure<U>(): Option<U>
      requires None?
    {
      None
    }

    function Extract(): T
      requires Some?
    {
      value
    }

    /** The wrapped value, or `default` when there is none. */
    function GetOr(default: T): T {
      match this
      case Some(v) => v
      case None => default
    }
  }

  /** The result of an operation that may throw: the value, or what was thrown. */
  datatype Result<+T, +E> = Success(value: T) | Failure(error: E) {

    predicate IsFailure() {
      Failure?
    }

    function PropagateFailure<U>(): Result<U, E>
      requires Failure?
    {
      Failure(error)
    }

    function Extract(): T
      requires Success?
    {
      value
    }
  }
}
